=== FILE: README.md ===
# onelogin-ad core, modelled in Dafny

This project models the core of `onelogin-ad`, a promise-based façade over an
Active Directory server. The modelled core covers these parts:

- the instance constructor and its in-memory cache (`index.js`);
- the result-processing pipeline applied to every listing (`src/util/api.js`):
  filter, full-text `q`, `fields`, windowing, sort and cleanup;
- the location-path encoder (`src/util/parseLocation.js`);
- the internal helpers (`src/internal/helpers.js`) and the modify helpers
  (`src/internal/operations.js`);
- the user, group and organizational-unit operations (`src/user.js`,
  `src/group.js`, `src/ou.js`).

The directory server is not modelled. It is an oracle (`Directory.Server`):
the answer to a search, a member listing or a write status is a function of
the calls issued so far. Each operation threads a `World` of cache plus call
trace. It returns a `Step` of an outcome and the new world. The outcome is one
of three things:

- `Ok(value)`, a resolved promise;
- `Err(failure)`, a rejected promise;
- `Unsettled`, for the chains whose first rejection nobody handles, so that
  their promise never settles.

The modules follow the program's files:

- `Basics`: option, failure and outcome types.
- `Strings`: the JavaScript string operations the code uses.
- `Api`: `processResults`.
- `ParseLocation`: location-path encoding.
- `Cache` and `Instance`: the constructor and the cache in `index.js`.
- `Directory`: the calls and the server oracle.
- `Helpers`: `src/internal/helpers.js`.
- `Lookup`: `findUser` and `findGroup`. They sit apart because both the
  modify helpers and the user and group operations call them.
- `Operations`, `Users`, `Groups`, `Ous`: the remaining source files.

All files verify together with
`dafny verify basics.dfy strings.dfy api.dfy parse_location.dfy cache.dfy instance.dfy directory.dfy helpers.dfy lookup.dfy operations.dfy users.dfy groups.dfy ous.dfy`.

## Model

| member | source | states |
|---|---|---|
| Api.FiltersAreConjunction | src/util/api.js:29-54 | Running the filter entries one after another keeps exactly the rows that pass every entry (logical AND), in their input order. |
| Api.Project | src/util/api.js:69-77 | `fields` maps each row, position for position, to a row holding exactly the listed fields, each taken from the input row. |
| Api.WindowStart | src/util/api.js:79-80 | `start` without `limit` takes positions [start-1, end), or to the last row when `end` is absent. Positions are cut to the rows that exist. |
| Api.WindowEnd | src/util/api.js:81-82 | Otherwise, a given `end` takes the first `end` rows. |
| Api.WindowPaged | src/util/api.js:83-87 | Otherwise, `page` takes positions [(page-1)*l, page*l), where l is `limit` or 10. |
| Api.WindowLimit | src/util/api.js:88-91 | Otherwise, `limit` takes `limit` rows from position (start or 1)-1. |
| Api.CompareAntisymmetric | src/util/api.js:93-95 | The multi-key comparison used by `orderBy` is antisymmetric: swapping the two rows negates it. |
| Api.SortRows | src/util/api.js:93-95 | The sorted rows are a permutation of the input, and adjacent rows are in the order the keys and directions ask for. |
| Api.Insert | src/util/api.js:93-95 | Inserting one row into sorted rows adds exactly that row to the multiset and keeps the rows in order. |
| Api.Strip | src/util/api.js:97-108 | A cleaned row keeps exactly the attributes whose value is defined, with the same values. |
| Api.StripReadsAlike | src/util/api.js:97-103 | Deleting the `undefined` attributes changes no `row[k]` read, and doing it twice is doing it once. |
| Api.StripVisibleToQuery | src/util/api.js:56-66 | The `q` search walks a row's own keys, so it tells a stripped row from its source: `{dn: 'x', mail: undefined}` matches `undefined`, and `{dn: 'x'}` does not. |
| Api.Cleanup | src/util/api.js:97-108 | Every output row is the cleaned form of an input row, and no output row is empty. Every input row whose cleaned form is non-empty appears in the output. |
| Api.Process | src/util/api.js:3-109 | No configuration returns the rows unchanged. With a configuration the output is no longer than the input, and every output row is clean. |
| Api.WindowThenSort | src/util/api.js:79-95 | The window is taken before the sort. The output is the cleanup of a reordering of exactly the windowed rows. That reordering is ordered by the sort keys in their directions when `sort` is given, and is the windowed rows unchanged otherwise. |
| Api.ProcessOrigin | src/util/api.js:29-108 | Every output row is the cleaned, projected form of an input row that passed all filter entries and the full-text query. |
| Api.ProcessKeepsSelected | src/util/api.js:29-108 | Without windowing, every input row that passes all filters and the query appears in the output in cleaned, projected form, unless cleaning leaves it empty. |
| Api.ProcessKeepsAttributes | src/util/api.js:69-108 | Without `fields`, each output row carries exactly the defined attributes of the selected input row it came from. |
| Api.ProcessProjects | src/util/api.js:69-108 | With `fields`, each output row carries only listed fields, each defined and equal to the input row's value. |
| Api.ProcessMembers | src/util/api.js:8-15 | A result mapping keeps its keys in order. Every list member is processed, and every non-list member is passed through unchanged. |
| Api.ProcessResults | src/util/api.js:3-109 | An array is processed as rows. A mapping is processed member by member. No configuration leaves the input unchanged. |
| Api.ProcessMembersUnconfigured | src/util/api.js:4-6 | A falsy configuration leaves a result mapping unchanged. |
| ParseLocation.Encode | src/util/parseLocation.js:1-17 | An empty location gives the empty string. Any other location gives components that each end in a comma. |
| ParseLocation.Component | src/util/parseLocation.js:8-10 | A segment that starts with `!` becomes `CN=` plus the rest of the segment. Any other segment becomes `OU=` plus the segment. |
| ParseLocation.EncodeBackslash | src/util/parseLocation.js:4 | A backslash separates segments just as `/` does. |
| ParseLocation.EncodeComponents | src/util/parseLocation.js:5-13 | Before its trailing comma, the encoding splits at commas into the path's segments in reverse order, each written as a component. |
| ParseLocation.DecodeEncode | src/util/parseLocation.js:1-17 | For a path of plain names, the DN `CN=leaf,` + Encode(path) + base DN reads back, as `getUserLocation` decodes it, to the original path. The leaf need only be free of commas, because the decoder drops its component. |
| Cache.Lookup | index.js:57-71 | A lookup hits exactly when the cache is enabled, the key is present and the entry has not outlived the expiration. On a hit the stored value comes back and nothing is removed. An expired entry is deleted. No other key changes. |
| Cache.Put | index.js:72-77 | Storing writes the value stamped with the current time under the key and leaves every other key as it was. |
| Cache.Switch | index.js:91-94 | `cache(bool)` changes only the enabled flag. |
| Cache.Timeout | index.js:96-99 | `cacheTimeout(millis)` changes only the expiration. |
| Cache.GetAfterSet | index.js:57-77 | A value just stored is read back exactly while no more than the expiration has passed. Once it has expired, it stays gone. |
| Cache.SetOverwrites | index.js:72-77 | Storing twice under a key is the same as storing only the second value. |
| Cache.SwitchRestores | index.js:57-60 | Turning the cache off and on again answers every lookup as before. |
| Cache.SwitchedOff | index.js:57-60 | A disabled cache misses every key and is left unchanged. |
| Cache.ZeroTimeout | index.js:64-68 | With expiration 0, an entry is seen only at the instant it was stored. |
| Instance.New | index.js:14-56 | A missing configuration, a missing url, user or pass, a url without a protocol, and a user without a domain are each rejected. Otherwise the instance has the initial cache (enabled, 600000 ms, empty namespaces), keeps a given base DN and takes `userObjectClass` from the configuration file. |
| Instance.CheckOrder | index.js:28-38 | The checks run in source order: the protocol message comes before the domain message. |
| Instance.DerivedNames | index.js:36-44 | For `user@a.b.c` the domain is `a.b.c`, and the default base DN is `DC=a,DC=b,DC=c`. |
| Helpers.ListOf | src/internal/helpers.js:63-77 | A member is found exactly when the result mapping holds a list under that name. |
| Helpers.Processed | src/internal/helpers.js:63-77 | Processing never settles exactly when the source would throw (a `like` filter on a number, or a sort without an order). Otherwise it is `processResults`. |
| Helpers.FindByType | src/internal/helpers.js:32-80 | A cache hit issues no search. A miss issues one typed search. A failure rejects. An empty answer is `[]`. Otherwise the compiled users, groups and others are cached under the membership key and returned processed. A miss whose compiled list the processing accepts always resolves. With `all`, it resolves with every list member processed. |
| Helpers.CompiledMembers | src/internal/helpers.js:63-77 | The compiled listing holds exactly the users, groups and others whose membership kind was asked for. With none asked for, it is empty. |
| Helpers.FindByTypeCached | src/internal/helpers.js:34-39 | A second typed listing within the expiration returns the same result without a directory call. |
| Helpers.FindByTypeAllReprocesses | src/internal/helpers.js:58-61 | With `all`, the cache holds the processed mapping itself, and a cached repeat processes it again. |
| Helpers.FindByTypeOrigin | src/internal/helpers.js:63-77 | Every row a typed listing returns is the cleaned shape of a compiled member of the answer. |
| Helpers.Combined | src/internal/helpers.js:95-105 | `_search` with options flattens every list member of the answer, and only those. |
| Helpers.CombinedConcat | src/internal/helpers.js:98-103 | Flattening is concatenation in key order, keeping duplicates. No members give `[]`. One member gives its list, or nothing if it is not a list. Two runs of members give their rows one after the other. |
| Helpers.SearchObjects | src/internal/helpers.js:82-114 | One search is issued. Without options the raw mapping is returned; with options, the processed flattening. A missing answer gives `[]`. |
| Helpers.GroupUsers | src/internal/helpers.js:116-130 | One member listing is issued. An unknown group rejects with `Group X does not exist.` Otherwise the listed users are returned. |
| Helpers.AddObject | src/internal/helpers.js:132-156 | A bind failure rejects before the add. Otherwise bind, add at `name,location,baseDN`, unbind, and resolve with the written attributes minus `userPassword`. The add's own error is ignored. |
| Helpers.DeleteByDN | src/internal/helpers.js:183-199 | A bind failure rejects. Otherwise bind, delete the DN, unbind and resolve. The delete's own error is ignored. |
| Helpers.RenameDN | src/internal/helpers.js:201-222 | A bind failure rejects. Otherwise bind, rename, unbind; a rename error rejects with its message. |
| Helpers.DeleteBySearch | src/internal/helpers.js:158-181 | No hit and several hits reject before any delete, with their messages. Exactly one hit deletes that hit's DN. |
| Lookup.FindUser | src/user.js:117-146 | A cache hit issues no search and returns the cached record processed. A miss searches once, with the name cut at `@`. Only the cut name's cache entry changes, and no other cache namespace changes. A directory error on a miss rejects with that error and caches nothing. |
| Lookup.FindUserMiss | src/user.js:133-144 | On a miss the first user found, unprocessed, or `{}` is cached under the cut name. With no users found the result is `{}`. Otherwise, without options, it is the first user. With options it is the first row of the processed list, which may be `undefined`; on inputs the processing throws on, the call never settles. |
| Lookup.FindUserCached | src/user.js:120-123 | A name looked up once is answered again from the cache, found or not, with no directory call. |
| Lookup.FindUserFullNameMisses | src/user.js:120-125 | A name holding `@` is cached under its cut form. Probing with the full name misses again. |
| Lookup.FindUserKeys | src/user.js:125-143 | `findUser` never writes a cache key that holds `@`. |
| Lookup.FindGroup | src/group.js:20-51 | A blank name rejects without a search. Otherwise there is one search with the name cut at `@`. A directory error rejects with that error. No `groups` list, or an empty one, gives `{}`. Otherwise the result is the first group without options, and the first processed row with options. The cache is never touched. |
| Lookup.FindGroupOrigin | src/group.js:40-44 | With options, a returned group is `{}` when none is listed. Otherwise it is the cleaned shape of a listed group that passes the filters and the query. |
| Operations.Operation | src/internal/operations.js:15-33 | A bind failure rejects before the modify. Otherwise bind, one modify with the single change, unbind. The result is success unless the modify failed. |
| Operations.OperationByUser | src/internal/operations.js:35-56 | A user without a DN rejects with `User X@domain does not exist.` before any modify. Success writes the change and removes `users[userName@domain]`. Only the user namespace of the cache changes. |
| Operations.OperationByUserGuard | src/internal/operations.js:35-56 | An unknown user is never modified. A success issues exactly one modify, of the user's DN with the change. |
| Operations.StaleUserEntry | src/internal/operations.js:47-50 | The key deleted after a modify is never one `findUser` writes, so the bare-name entry survives and still holds the record from before the change. |
| Operations.OperationByGroup | src/internal/operations.js:58-73 | An empty group lookup rejects with `Group X does not exist.` before any modify. Otherwise the group's DN is modified. |
| Operations.OperationByGroupGuard | src/internal/operations.js:58-73 | An unknown group is never modified. |
| Operations.GroupAddOperation | src/internal/operations.js:75-80 | On success the found group's DN was sent exactly the modification as an `add`, followed by an unbind. |
| Operations.GroupDeleteOperation | src/internal/operations.js:82-87 | On success the found group's DN was sent exactly the modification as a `delete`, followed by an unbind. |
| Operations.UserReplaceOperation | src/internal/operations.js:89-94 | On success the DN of the user found under `userName@domain` was sent exactly the modification as a `replace`, followed by an unbind. |
| Users.AllUsersAreUsers | src/user.js:26-28 | Every user listed comes from the directory's `users` list. |
| Users.Derive | src/user.js:44-54 | With a common name, a missing first name becomes its first space-separated piece. A missing last name becomes its last piece, but only when the common name holds a space; otherwise it stays missing. Without a common name, a first and a last name make `first last`. Given names are kept, and no other field changes. |
| Users.DeriveWords | src/user.js:44-49 | For a common name of space-free words, the first word becomes the first name. With two or more words the last word becomes the last name. With one word the last name stays missing. |
| Users.DeriveRoundTrip | src/user.js:44-54 | A common name built from a first and a last name splits back into those names. |
| Users.Invalid | src/user.js:58-68 | Validation passes exactly when the email, if any, has `@` and the common name and user name are present. The checks run in a fixed order: a bad email reports `Invalid email address.`, then a missing common name reports `A commonName is required.`, then a missing user name reports `A userName is required.` |
| Users.CreationFailure | src/user.js:97-113 | An `ENTRY_EXISTS` failure becomes a 400. Anything else becomes a 503 quoting `Error creating user: ` + message. |
| Users.AddUser | src/user.js:30-115 | Invalid input is a flagged 400 with nothing issued. A valid input whose `ssha.create` throws never settles and issues nothing (the entry is built inside an `async` executor); the call settles otherwise. Every failure is 400 or 503. After validation, every failure is the classification of some step's error. A failed bind on the add stops the call right there, with nothing further issued. Success means the input was valid and the entry was added at `CN=cn,location,baseDN`. The returned object is the written entry minus `userPassword`. The typed-listing cache is cleared. |
| Users.AddUserSequence | src/user.js:84-113 | After a successful add, a failed password change ends the call with that failure and issues nothing more, so the account is never enabled. A failed enable ends it with that failure. Only when both succeed does the call resolve with the entry. |
| Users.AddUserWrites | src/user.js:84-96 | A successful creation sets the encoded password before it enables the account with 512. |
| Users.AddUserWithoutPassword | src/user.js:80-113 | With no password, and an `ssha.create` that returns for it, the entry is still added, and the call fails with a 503 `No password provided.` |
| Users.NoPasswordFailure | src/user.js:97-113 | A missing password is reported as a 503 with the message `Error creating user: No password provided.` and is not flagged. |
| Users.SetUserPassword | src/user.js:203-214 | A falsy password rejects with no directory call. Otherwise `unicodePwd` is replaced by the encoded password. |
| Users.SetPasswordNeverExpires | src/user.js:216-221 | Success replaces `userAccountControl` with 66048. |
| Users.EnableUser | src/user.js:223-228 | Success replaces `userAccountControl` with 512. |
| Users.DisableUser | src/user.js:230-235 | Success replaces `userAccountControl` with 514. |
| Users.UnlockUser | src/user.js:288-292 | Success replaces `lockoutTime` with 0. |
| Users.MoveUser | src/user.js:237-256 | A failed lookup rejects with its error. Success renames the user's DN to `CN=cn,location,baseDN` and forgets the cache entry for the name. A found user is always sent that rename. The call resolves exactly when the rename succeeds, and otherwise rejects with the rename's error. |
| Users.MovedDNDecodes | src/user.js:242-245 | The DN a user is moved to reads back, by `getUserLocation`'s decoding, as the target path. |
| Users.GetUserLocation | src/user.js:258-286 | An empty lookup rejects with the flagged `User does not exist.` |
| Users.LocationOfUser | src/user.js:266-278 | A user stored under `CN=leaf,` + encoded path + base DN is reported at that path. |
| Users.UserIsMemberOf | src/user.js:162-180 | The result is true exactly when the user and the group's members were both found and some member has the user's DN. A failed user lookup or member lookup rejects with its error. When both lookups succeed, the call resolves, with `false` when no member matches. |
| Users.UnknownUserIsMember | src/user.js:162-180 | An unknown user counts as a member of any group that lists a member without a DN. |
| Users.RemoveUser | src/user.js:294-310 | A failed lookup never settles. An empty lookup rejects, flagged. Success deletes the user's DN. A found user is always sent the delete of its DN, and a failure of that delete rejects flagged. |
| Users.RemoveUserDeletes | src/user.js:296-307 | A found user is deleted when the bind succeeds, and the call resolves. A failed bind rejects with its error flagged, and nothing is deleted. |
| Groups.AllGroupsAreGroups | src/group.js:16-18 | Every group listed comes from the directory's `groups` list. |
| Groups.GroupExists | src/group.js:53-62 | The result is true exactly when the group lookup succeeds with a DN. A successful lookup always resolves, with `false` when there is no DN. |
| Groups.GroupExistsFirst | src/group.js:40-61 | For a non-blank name, a group exists exactly when the directory's `groups` list is non-empty and its first group has a DN. A directory error rejects with that error. |
| Groups.BlankGroupRejected | src/group.js:20-34 | A blank group name rejects with no directory call. |
| Groups.AddGroup | src/group.js:64-76 | The call succeeds exactly when the bind does. It adds a `group` entry named `CN=name` under the location and returns its defined attributes. |
| Groups.AddGroupByName | src/group.js:64-76 | A name alone adds `CN=name` directly under the base DN, with no description. |
| Groups.AddUserToGroup | src/group.js:78-100 | A failed user lookup never settles. An unknown user rejects, flagged, naming the user. Success adds the user's DN to `member`. Every failure is flagged. A found user always leads to the group add operation with `member: [dn]`, and the call ends as that operation does. |
| Groups.RemoveUserFromGroup | src/group.js:102-121 | This mirrors the above with `User does not exist.`, and success deletes the DN from `member`. A found user always leads to the group delete operation with `member: [dn]`. |
| Groups.MembershipMirror | src/group.js:78-121 | From the same state, adding and removing issue the same calls, except that the final change differs only in its kind. |
| Groups.RemoveGroup | src/group.js:123-140 | An empty lookup rejects, flagged. Success deletes the group's DN. A found group is always deleted by its DN, through `_deleteObjectByDN`. |
| Groups.RemoveGroupDeletes | src/group.js:133-136 | A found group is deleted when the bind succeeds: the call resolves after the bind, the delete of its DN and the unbind. |
| Ous.GetAllOUs | src/ou.js:14-32 | One `OU=*` search is issued, and the call always settles. A fault rejects with it. An answer without an `other` list gives `[]`. Without options, the result holds exactly the listed `other` objects whose first RDN has `ou=`. With options, those objects are processed, and options the processing throws on reject with its `TypeError`. |
| Ous.GetAllOUsUnorderedSort | src/ou.js:28-30 | A sort without an order rejects whenever the answer has an `other` list, whatever the rows. |
| Ous.FindOU | src/ou.js:34-51 | The unit found is the first listed object whose first RDN is `ou=name`, ignoring case. Every object before it fails to match. Nothing is found exactly when no listed object matches. A directory error rejects with that error. |
| Ous.OuExists | src/ou.js:53-59 | A failed search never settles. The result is true exactly when some listed object matches. A successful lookup always resolves, with `false` when nothing matches. |
| Ous.AddOU | src/ou.js:61-72 | The call succeeds exactly when the bind does. It adds an `organizationalunit` entry named `OU=name` under the location. |
| Ous.AddOUDn | src/ou.js:61-72 | A unit added under a path is written at `OU=name,` + encoded path + base DN. |
| Ous.RemoveOU | src/ou.js:74-76 | Success issues one search and one delete. When nothing is found, the call rejects with `Object OU=name does not exist.` |

## Left out

- The LDAP server, binding, TLS and client creation (`_getBoundClient`) are an
  oracle over the call trace. The model does not say what the server stores.
- `userExists` and `authenticateUser` (src/user.js:148-200) are not modelled.
  The first is a thin wrapper over `findUser`. The second only forwards the
  server's answer.
- src/chainable.js, src/others.js and src/adAttrs.js are not part of this model.
- Password encoding and the SSHA hash are opaque functions of the environment.
  The `node-ssha256` package is not part of this model, so whether
  `ssha.create` throws on a given password (for instance a missing one) is a
  parameter: `Env.ssha` answers `None` where it would throw. `encodePassword`
  is taken to return for every truthy password.
- The clock is a parameter (`now`) per operation.
- Promise scheduling and interleaving are not modelled.
- The `Object.assign` merge with the configuration file is not modelled beyond
  `userObjectClass`.
- Numbers are integers. JavaScript floating point, and `String()` of
  non-string names, are not modelled. Lowercasing is ASCII only.
- The cache namespaces are typed here. `get`'s branch for a missing namespace
  therefore cannot arise.
- Inputs on which `processResults` throws are outside `Api.Process`. These are
  a `like` filter over a numeric value and `sort` without `order`. Most
  callers run the processing in a directory callback or an `async` promise
  executor, where the throw escapes and the promise never settles
  (`Helpers.Processed`). `getAllOUs` runs it inside a `.then` whose `.catch`
  rejects, so there it rejects with the `TypeError` (`Helpers.ProcessingError`).
  The error's message is not modelled.
- Rows are values, so in-place mutation through shared references is modelled
  only where it is written out: the `all` mapping that `_findByType` caches
  is rewritten by the processing (`Helpers.FindByTypeAllReprocesses`). The
  cleanup's in-place deletion of `undefined` attributes is not modelled on
  cached rows (the next two lines).
- Lookup.FindUserMiss: the cache is stated to hold `users[0]` as found. In the
  source, options without `fields` make the cleanup delete the `undefined`
  attributes of every row that reaches it, in place. When `users[0]` reaches
  it, the cached object loses those attributes (src/user.js:141-142, and the
  hit path at src/user.js:122). The deletion changes no attribute read
  (`Api.StripReadsAlike`). It shows in the keys of a later raw `findUser`
  result and in a `q` that matches the text `undefined`
  (`Api.StripVisibleToQuery`).
- Helpers.FindByTypeCached: the same holds for the compiled list that
  `_findByType` caches and then processes with `opts || {}`
  (src/internal/helpers.js:76-77). In the source, a repeat call whose `q`
  matches `undefined` can therefore return fewer rows. The lemma states the
  same result.
- A mapping member that is not an array is passed through. A missing list is
  treated as an empty one.
- `findGroup` rejects with a bare string, and its callers assign onto it. This
  is modelled as a plain failure carrying the message.
- Api.SortRows: proved to be an ordered permutation. The stability of lodash's
  `orderBy` is not proved. The comparison `Api.JsLess` differs from
  JavaScript's `<` in two ways. First, a number against a string is ordered
  here only when the string is a decimal integer numeral. JavaScript converts
  any string with ToNumber, so `""` is 0, `" 7"` is 7, `"+5"` is 5, `"0x10"`
  is 16 and `"1e3"` is 1000, and these are left unordered here. Second,
  strings are compared by code point, where JavaScript compares UTF-16 code
  units. The two orders differ only for characters above U+FFFF against
  characters from U+E000 to U+FFFF. The filter comparisons `gt`, `gte`, `lt`
  and `lte` (`Api.AtMost`, `Api.Below`) share that string order.
- Api.Process: `prep` treats a string as a number only when it is a decimal
  integer numeral such as `42` or `-7`. JavaScript's `isNaN` also accepts
  `""`, white space only, `"+5"`, `"1e3"`, `"0x10"`, `" 12"` and decimals, and
  `parseFloat` then yields a number or `NaN`. Here these strings are compared
  as lowercased text. So the model's filter `{name: ""}` keeps rows whose
  `name` is `""`, where JavaScript compares `NaN` and keeps none.
- Ous.RemoveOU: the contract describes the success trace and the not-found
  rejection. The rest follows `Helpers.DeleteBySearch`.

=== FILE: api.dfy ===
/** The result query engine `processResults` (src/util/api.js): a fixed
    pipeline over a sequence of attribute maps — filter, full-text `q`,
    `fields` projection, one windowing strategy, multi-key sort, and a cleanup
    pass — that also recurses over a mapping of named row lists. */
module Api {
  import opened Basics
  import opened Strings

  /* ------------------------------------------------------------- values */

  /** An attribute value: a number, a string, or `undefined` (an attribute
      that is present but unset). */
  datatype Value = Num(n: int) | Str(s: string) | Absent

  /** A directory record or result row: attribute name to value. */
  type Row = map<string, Value>

  /** `row[k]`: a missing attribute reads as `undefined`. */
  function Get(row: Row, k: string): Value
  {
    if k in row then row[k] else Absent
  }

  /** `String(v)`. */
  function Text(v: Value): string
  {
    match v
    case Num(n) => IntText(n)
    case Str(s) => s
    case Absent => "undefined"
  }

  /** JavaScript truthiness of a value. */
  predicate Truthy(v: Value)
  {
    match v
    case Num(n) => n != 0
    case Str(s) => s != ""
    case Absent => false
  }

  /** JavaScript truthiness of an optional numeric option. */
  predicate Given(o: Option<int>)
  {
    o.Some? && o.value != 0
  }

  /** `a < b` on two strings: lexicographic by code point. JavaScript
      compares UTF-16 code units, which orders a character above U+FFFF
      before one from U+E000 to U+FFFF; elsewhere the two orders agree. */
  predicate LexLess(a: string, b: string)
    decreases |a|
  {
    if |a| == 0 then |b| > 0
    else if |b| == 0 then false
    else if a[0] != b[0] then a[0] < b[0]
    else LexLess(a[1..], b[1..])
  }

  lemma {:induction false} LexLessAsymmetric(a: string, b: string)
    ensures !(LexLess(a, b) && LexLess(b, a))
    decreases |a|
  {
    if |a| > 0 && |b| > 0 && a[0] == b[0] {
      LexLessAsymmetric(a[1..], b[1..]);
    }
  }

  lemma {:induction false} LexLessIrreflexive(a: string)
    ensures !LexLess(a, a)
    decreases |a|
  {
    if |a| > 0 {
      LexLessIrreflexive(a[1..]);
    }
  }

  /* ------------------------------------------------------------- filter */

  /** The result of the filter's `prep`: a number, or a lowercased string. */
  datatype Prepped = PNum(n: int) | PStr(s: string)

  /** `prep(val)`: a numeric value or numeral string becomes a number; anything
      else becomes its lowercased string form, so `undefined` becomes the
      string "undefined". */
  function Prep(v: Value): Prepped
  {
    match v
    case Num(n) => PNum(n)
    case Str(s) => if IsNumeral(s) then PNum(NumeralValue(s)) else PStr(Lower(s))
    case Absent => PStr("undefined")
  }

  /** JavaScript `a < b` on prepped values; a number never compares with a
      non-numeric string. */
  predicate Below(a: Prepped, b: Prepped)
  {
    if a.PNum? && b.PNum? then a.n < b.n
    else if a.PStr? && b.PStr? then LexLess(a.s, b.s)
    else false
  }

  /** JavaScript `a <= b` on prepped values. */
  predicate AtMost(a: Prepped, b: Prepped)
  {
    if a.PNum? && b.PNum? then a.n <= b.n
    else if a.PStr? && b.PStr? then !LexLess(b.s, a.s)
    else false
  }

  /** The operators a filter key can carry; `Eq` is the default. */
  datatype Op = Gte | Lte | Gt | Lt | Ne | Like | Eq

  function OpNamed(name: string): Op
  {
    if name == "gte" then Gte
    else if name == "lte" then Lte
    else if name == "gt" then Gt
    else if name == "lt" then Lt
    else if name == "ne" then Ne
    else if name == "like" then Like
    else Eq
  }

  /** The field a filter key names: the key up to its first `_`. */
  function FieldOf(key: string): string
  {
    Split(key, '_')[0]
  }

  /** The operator of a filter key: the piece after its first `_`, if any. */
  function OpOf(key: string): Op
  {
    var parts := Split(key, '_');
    if |parts| > 1 then OpNamed(parts[1]) else Eq
  }

  /** `like` on a row value that prepped to a number throws in the source. */
  predicate LikeDefined(row: Row, key: string)
  {
    OpOf(key) == Like ==> Prep(Get(row, FieldOf(key))).PStr?
  }

  /** What `like` searches for: the prepped value's string form. */
  function Needle(p: Prepped): string
  {
    match p
    case PNum(n) => IntText(n)
    case PStr(s) => s
  }

  /** Whether `row` passes one filter entry `key: val`. */
  predicate Passes(row: Row, key: string, val: Value)
  {
    var lhs := Prep(Get(row, FieldOf(key)));
    var rhs := Prep(val);
    match OpOf(key)
    case Gte => AtMost(rhs, lhs)
    case Lte => AtMost(lhs, rhs)
    case Gt => Below(rhs, lhs)
    case Lt => Below(lhs, rhs)
    case Ne => lhs != rhs
    case Like => lhs.PStr? && Contains(lhs.s, Needle(rhs))
    case Eq => lhs == rhs
  }

  /** `rows.filter(p)`. */
  function Select(rows: seq<Row>, p: Row -> bool): (r: seq<Row>)
    ensures |r| <= |rows|
    ensures forall x :: x in r <==> x in rows && p(x)
  {
    if |rows| == 0 then []
    else (if p(rows[0]) then [rows[0]] else []) + Select(rows[1..], p)
  }

  /** The first row a filter keeps is the first row of the input that
      satisfies the predicate. */
  lemma {:induction false} SelectFirst(rows: seq<Row>, p: Row -> bool)
    requires |Select(rows, p)| > 0
    ensures exists i :: 0 <= i < |rows| && rows[i] == Select(rows, p)[0] && p(rows[i])
                        && forall j :: 0 <= j < i ==> !p(rows[j])
    decreases |rows|
  {
    if !p(rows[0]) {
      assert Select(rows, p) == Select(rows[1..], p);
      SelectFirst(rows[1..], p);
      var i :| 0 <= i < |rows[1..]| && rows[1..][i] == Select(rows[1..], p)[0] && p(rows[1..][i])
               && forall j :: 0 <= j < i ==> !p(rows[1..][j]);
      assert rows[i + 1] == Select(rows, p)[0];
      forall j | 0 <= j < i + 1 ensures !p(rows[j]) {
        if j > 0 {
          assert rows[j] == rows[1..][j - 1];
        }
      }
    } else {
      assert rows[0] == Select(rows, p)[0];
    }
  }

  lemma {:induction false} SelectSelect(rows: seq<Row>, p: Row -> bool, q: Row -> bool)
    ensures Select(Select(rows, p), q) == Select(rows, x => p(x) && q(x))
    decreases |rows|
  {
    if |rows| > 0 {
      SelectSelect(rows[1..], p, q);
      var rest := Select(rows[1..], p);
      if p(rows[0]) {
        var s := [rows[0]] + rest;
        assert s[0] == rows[0] && s[1..] == rest;
        assert Select(s, q) == (if q(rows[0]) then [rows[0]] else []) + Select(rest, q);
      } else {
        assert Select(rows, p) == rest;
      }
    }
  }

  lemma {:induction false} SelectSame(rows: seq<Row>, p: Row -> bool, q: Row -> bool)
    requires forall x :: p(x) == q(x)
    ensures Select(rows, p) == Select(rows, q)
    decreases |rows|
  {
    if |rows| > 0 {
      SelectSame(rows[1..], p, q);
    }
  }

  lemma {:induction false} SelectAll(rows: seq<Row>, p: Row -> bool)
    requires forall i :: 0 <= i < |rows| ==> p(rows[i])
    ensures Select(rows, p) == rows
    decreases |rows|
  {
    if |rows| > 0 {
      SelectAll(rows[1..], p);
      assert [rows[0]] + rows[1..] == rows;
    }
  }

  /** The filter entries, in the order the source visits them. */
  type Criteria = seq<(string, Value)>

  /** Every entry's `like` is defined on the rows it is applied to. */
  predicate FiltersDefined(fs: Criteria, rows: seq<Row>)
    decreases |fs|
  {
    |fs| == 0 ||
    ((forall x :: x in rows ==> LikeDefined(x, fs[0].0))
     && FiltersDefined(fs[1..], Select(rows, x => Passes(x, fs[0].0, fs[0].1))))
  }

  /** The filter loop: each entry in turn narrows the rows. */
  function ApplyFilters(fs: Criteria, rows: seq<Row>): seq<Row>
    decreases |fs|
  {
    if |fs| == 0 then rows
    else ApplyFilters(fs[1..], Select(rows, x => Passes(x, fs[0].0, fs[0].1)))
  }

  /** A row satisfies every filter entry (logical AND). */
  predicate SatisfiesAll(row: Row, fs: Criteria)
  {
    forall e :: e in fs ==> Passes(row, e.0, e.1)
  }

  lemma SatisfiesAllCons(x: Row, fs: Criteria)
    requires |fs| > 0
    ensures SatisfiesAll(x, fs) == (Passes(x, fs[0].0, fs[0].1) && SatisfiesAll(x, fs[1..]))
  {
    assert fs == [fs[0]] + fs[1..];
  }

  /** The filter loop keeps exactly the rows that satisfy every entry, in
      their original order. */
  lemma {:induction false} FiltersAreConjunction(fs: Criteria, rows: seq<Row>)
    ensures ApplyFilters(fs, rows) == Select(rows, x => SatisfiesAll(x, fs))
    decreases |fs|
  {
    if |fs| == 0 {
      SelectAll(rows, x => SatisfiesAll(x, fs));
    } else {
      var p := x => Passes(x, fs[0].0, fs[0].1);
      var r := x => SatisfiesAll(x, fs[1..]);
      FiltersAreConjunction(fs[1..], Select(rows, p));
      SelectSelect(rows, p, r);
      forall x ensures (p(x) && r(x)) == SatisfiesAll(x, fs) {
        SatisfiesAllCons(x, fs);
      }
      SelectSame(rows, x => p(x) && r(x), x => SatisfiesAll(x, fs));
    }
  }

  /* ----------------------------------------------------------------- q */

  /** Some attribute's lowercased string form contains `needle`. */
  predicate MatchesQuery(row: Row, needle: string)
  {
    exists k :: k in row && Contains(Lower(Text(row[k])), needle)
  }

  /* ------------------------------------------------------------ fields */

  /** `out[f] = row[f]` for each listed field. */
  function ProjectRow(row: Row, fields: seq<string>): Row
  {
    map f | f in fields :: Get(row, f)
  }

  function Project(rows: seq<Row>, fields: seq<string>): (r: seq<Row>)
    ensures |r| == |rows|
    ensures forall i :: 0 <= i < |rows| ==> r[i] == ProjectRow(rows[i], fields)
  {
    if |rows| == 0 then [] else [ProjectRow(rows[0], fields)] + Project(rows[1..], fields)
  }

  /* ---------------------------------------------------------- windowing */

  /** How `Array.prototype.slice` normalises one index against a length. */
  function Clamp(i: int, len: nat): (r: nat)
    ensures r <= len
  {
    if i < 0 then (if len + i < 0 then 0 else len + i)
    else if i > len then len else i
  }

  /** `rows.slice(b, e)`, where an omitted end means the length. */
  function Slice(rows: seq<Row>, b: int, e: Option<int>): seq<Row>
  {
    var lo := Clamp(b, |rows|);
    var hi := if e.None? then |rows| else Clamp(e.value, |rows|);
    if lo < hi then rows[lo..hi] else []
  }

  /** The windowing step: exactly one strategy, by precedence
      `start && !limit`, then `end`, then `page`, then `limit`. */
  function Window(rows: seq<Row>, start: Option<int>, end: Option<int>,
                  limit: Option<int>, page: Option<int>): seq<Row>
  {
    if Given(start) && !Given(limit) then Slice(rows, start.value - 1, end)
    else if Given(end) then Slice(rows, 0, end)
    else if Given(page) then
      var l := if Given(limit) then limit.value else 10;
      var s := l * (page.value - 1);
      var s' := if s < 0 then 0 else s;
      Slice(rows, s', Some(s' + l))
    else if Given(limit) then
      var begin := (if Given(start) then start.value else 1) - 1;
      Slice(rows, begin, Some(begin + limit.value))
    else rows
  }

  function Min(a: int, b: int): int
  {
    if a < b then a else b
  }

  function Max(a: int, b: int): int
  {
    if a < b then b else a
  }

  /* With positive options each strategy takes the documented half-open
     range of positions, cut to the rows that exist. */

  /** `start` without `limit` gives positions [start-1, end), or to the end
      of the rows when `end` is not given. */
  lemma WindowStart(rows: seq<Row>, start: int, end: Option<int>, page: Option<int>)
    requires start >= 1 && (end.Some? ==> end.value >= 1)
    ensures var lo := Min(start - 1, |rows|);
            var hi := if end.None? then |rows| else Max(lo, Min(end.value, |rows|));
            Window(rows, Some(start), end, None, page) == rows[lo..hi]
  {
    assert Clamp(start - 1, |rows|) == Min(start - 1, |rows|);
  }

  /** Otherwise `end` gives positions [0, end). */
  lemma WindowEnd(rows: seq<Row>, start: Option<int>, end: int, limit: Option<int>, page: Option<int>)
    requires end >= 1 && (limit.Some? ==> limit.value >= 1)
    requires start.Some? ==> limit.Some?
    ensures Window(rows, start, Some(end), limit, page) == rows[..Min(end, |rows|)]
  {
    assert Clamp(end, |rows|) == Min(end, |rows|);
  }

  /** Otherwise `page` gives positions [(page-1)*l, page*l), where `l` is
      `limit` or 10. */
  lemma WindowPaged(rows: seq<Row>, start: Option<int>, limit: Option<int>, page: int)
    requires page >= 1 && (limit.Some? ==> limit.value >= 1)
    requires start.Some? ==> limit.Some?
    ensures var l := if limit.Some? then limit.value else 10;
            Window(rows, start, None, limit, Some(page)) == rows[Min((page - 1) * l, |rows|)..Min(page * l, |rows|)]
  {
    var l := if limit.Some? then limit.value else 10;
    PageArithmetic(l, page);
    WindowPage(rows, l, page);
  }

  /** Otherwise `limit` gives positions [(start or 1)-1, (start or 1)-1+limit). */
  lemma WindowLimit(rows: seq<Row>, start: Option<int>, limit: int)
    requires limit >= 1 && (start.Some? ==> start.value >= 1)
    ensures var b := if start.Some? then start.value - 1 else 0;
            Window(rows, start, None, Some(limit), None) == rows[Min(b, |rows|)..Min(b + limit, |rows|)]
  {
    var b := if start.Some? then start.value - 1 else 0;
    assert Clamp(b, |rows|) == Min(b, |rows|);
    assert Clamp(b + limit, |rows|) == Min(b + limit, |rows|);
  }

  /** With no windowing option the rows pass through. */
  lemma WindowNone(rows: seq<Row>)
    ensures Window(rows, None, None, None, None) == rows
  {
  }

  lemma WindowPage(rows: seq<Row>, l: int, page: int)
    requires l >= 1 && page >= 1
    requires l * (page - 1) >= 0 && l * (page - 1) + l == page * l
    ensures Slice(rows, l * (page - 1), Some(l * (page - 1) + l))
            == rows[Min((page - 1) * l, |rows|)..Min(page * l, |rows|)]
  {
    var s := l * (page - 1);
    assert (page - 1) * l == s;
    assert Clamp(s, |rows|) == Min(s, |rows|);
    assert Clamp(s + l, |rows|) == Min(page * l, |rows|);
  }

  lemma PageArithmetic(l: int, page: int)
    requires l >= 1 && page >= 1
    ensures l * (page - 1) >= 0
    ensures l * (page - 1) + l == page * l
  {
  }

  /* --------------------------------------------------------------- sort */

  /** `a < b` on two defined raw values: numbers numerically, strings
      lexicographically, and a number against a string only when the string
      is a decimal integer numeral (JavaScript converts any string with
      ToNumber; the other forms are left unordered here). */
  predicate JsLess(a: Value, b: Value)
  {
    match (a, b)
    case (Num(x), Num(y)) => x < y
    case (Str(x), Str(y)) => LexLess(x, y)
    case (Num(x), Str(y)) => IsNumeral(y) && x < NumeralValue(y)
    case (Str(x), Num(y)) => IsNumeral(x) && NumeralValue(x) < y
    case _ => false
  }

  /** `a` sorts strictly before `b` ascending: defined values before
      `undefined`, otherwise by `<`. */
  predicate Precedes(a: Value, b: Value)
  {
    (!a.Absent? && b.Absent?) || (!a.Absent? && !b.Absent? && JsLess(a, b))
  }

  lemma PrecedesAsymmetric(a: Value, b: Value)
    ensures !(Precedes(a, b) && Precedes(b, a))
  {
    if a.Str? && b.Str? {
      LexLessAsymmetric(a.s, b.s);
    }
  }

  /** The ascending comparison of one sort key: -1, 0 or 1. */
  function CompareAscending(a: Value, b: Value): int
  {
    if a == b then 0
    else if Precedes(b, a) then 1
    else if Precedes(a, b) then -1
    else 0
  }

  /** The direction of the `i`th key is descending when its (lowercased)
      order is `desc`; missing orders are ascending. */
  predicate Descending(order: seq<string>, i: nat)
  {
    i < |order| && Lower(order[i]) == "desc"
  }

  /** The multi-key comparison from key `i` on: the first key that tells the
      rows apart decides, in its direction. */
  function CompareFrom(x: Row, y: Row, keys: seq<string>, order: seq<string>, i: nat): int
    decreases |keys| - i
  {
    if i >= |keys| then 0
    else
      var c := CompareAscending(Get(x, keys[i]), Get(y, keys[i]));
      if c != 0 then (if Descending(order, i) then -c else c)
      else CompareFrom(x, y, keys, order, i + 1)
  }

  function Compare(x: Row, y: Row, keys: seq<string>, order: seq<string>): int
  {
    CompareFrom(x, y, keys, order, 0)
  }

  lemma {:induction false} CompareFromAntisymmetric(x: Row, y: Row, keys: seq<string>, order: seq<string>, i: nat)
    ensures CompareFrom(x, y, keys, order, i) == -CompareFrom(y, x, keys, order, i)
    decreases |keys| - i
  {
    if i < |keys| {
      PrecedesAsymmetric(Get(x, keys[i]), Get(y, keys[i]));
      CompareFromAntisymmetric(x, y, keys, order, i + 1);
    }
  }

  /** Swapping the rows negates the comparison. */
  lemma CompareAntisymmetric(x: Row, y: Row, keys: seq<string>, order: seq<string>)
    ensures Compare(x, y, keys, order) == -Compare(y, x, keys, order)
  {
    CompareFromAntisymmetric(x, y, keys, order, 0);
  }

  /** Adjacent rows are in order. */
  predicate Ordered(rows: seq<Row>, keys: seq<string>, order: seq<string>)
  {
    forall i :: 0 <= i < |rows| - 1 ==> Compare(rows[i], rows[i + 1], keys, order) <= 0
  }

  /** Puts `x` in front of the first row it does not sort after. */
  function Insert(x: Row, rows: seq<Row>, keys: seq<string>, order: seq<string>): (r: seq<Row>)
    requires Ordered(rows, keys, order)
    ensures multiset(r) == multiset(rows) + multiset{x}
    ensures Ordered(r, keys, order)
    ensures |r| > 0 && (r[0] == x || (|rows| > 0 && r[0] == rows[0]))
    decreases |rows|
  {
    if |rows| == 0 then [x]
    else if Compare(x, rows[0], keys, order) <= 0 then [x] + rows
    else
      CompareAntisymmetric(x, rows[0], keys, order);
      var rest := Insert(x, rows[1..], keys, order);
      assert rows == [rows[0]] + rows[1..];
      [rows[0]] + rest
  }

  /** `orderBy(rows, keys, order)`: a stable sort by the keys in their
      directions (insertion keeps rows that compare equal in input order). */
  function SortRows(rows: seq<Row>, keys: seq<string>, order: seq<string>): (r: seq<Row>)
    ensures multiset(r) == multiset(rows)
    ensures Ordered(r, keys, order)
    decreases |rows|
  {
    if |rows| == 0 then []
    else
      assert rows == [rows[0]] + rows[1..];
      Insert(rows[0], SortRows(rows[1..], keys, order), keys, order)
  }

  /* ------------------------------------------------------------ cleanup */

  /** The row without its `undefined` attributes. */
  function Strip(row: Row): (r: Row)
    ensures r.Keys <= row.Keys
    ensures forall k :: k in r ==> r[k] == row[k] && r[k] != Absent
    ensures forall k :: k in row && row[k] != Absent ==> k in r
  {
    map k | k in row && row[k] != Absent :: row[k]
  }

  predicate Clean(row: Row)
  {
    |row| > 0 && forall k :: k in row ==> row[k] != Absent
  }

  /** Stripping is invisible to every `row[k]` the processing reads (the
      filter fields, the sort keys, the projected fields), and stripping
      twice is stripping once. */
  lemma StripReadsAlike(row: Row, k: string)
    ensures Get(Strip(row), k) == Get(row, k)
    ensures Strip(Strip(row)) == Strip(row)
  {
  }

  /** The walk over a row's own keys in the `q` search does tell a stripped
      row from its source: `{dn: 'x', mail: undefined}` matches the query
      `undefined`, and `{dn: 'x'}` does not. */
  lemma StripVisibleToQuery()
    ensures var row := map["dn" := Str("x"), "mail" := Absent];
            MatchesQuery(row, "undefined") && !MatchesQuery(Strip(row), "undefined")
  {
    var row := map["dn" := Str("x"), "mail" := Absent];
    AbsentMatches(row);
    StripExample(row);
    NoUndefinedIn(Strip(row));
  }

  /** The `undefined` attribute of the example row matches the query. */
  lemma AbsentMatches(row: Row)
    requires row == map["dn" := Str("x"), "mail" := Absent]
    ensures MatchesQuery(row, "undefined")
  {
    UndefinedText();
    assert Lower(Text(row["mail"])) == "undefined";
  }

  /** Stripping the example row leaves only its DN. */
  lemma StripExample(row: Row)
    requires row == map["dn" := Str("x"), "mail" := Absent]
    ensures Strip(row) == map["dn" := Str("x")]
  {
    assert Strip(row).Keys == {"dn"};
  }

  /** `String(undefined)` is the text `undefined`, already lower case, and
      it contains itself. */
  lemma UndefinedText()
    ensures Lower(Text(Absent)) == "undefined"
    ensures Contains(Lower(Text(Absent)), "undefined")
  {
    LowerNoCapitals("undefined");
    ContainsSelf("undefined");
  }

  /** A row holding only the DN `x` does not match the query. */
  lemma NoUndefinedIn(row: Row)
    requires row == map["dn" := Str("x")]
    ensures !MatchesQuery(row, "undefined")
  {
    forall k | k in row
      ensures !Contains(Lower(Text(row[k])), "undefined")
    {
      assert Lower(Text(row[k])) == "x";
      Lacks("x", "undefined");
    }
  }

  /** Strips every row and drops the rows left empty. */
  function Cleanup(rows: seq<Row>): (r: seq<Row>)
    ensures |r| <= |rows|
    ensures forall y :: y in r ==> Clean(y) && exists x :: x in rows && y == Strip(x)
    ensures forall x :: x in rows && |Strip(x)| > 0 ==> Strip(x) in r
    decreases |rows|
  {
    if |rows| == 0 then []
    else
      var s := Strip(rows[0]);
      (if |s| > 0 then [s] else []) + Cleanup(rows[1..])
  }

  /* ---------------------------------------------------------- pipeline */

  /** The recognised options of a query; `None`/`Absent` stands for an
      option that is not given. */
  datatype Config = Config(
    fields: Option<seq<string>>,
    filter: Option<Criteria>,
    q: Value,
    start: Option<int>,
    end: Option<int>,
    limit: Option<int>,
    page: Option<int>,
    sort: Option<seq<string>>,
    order: Option<seq<string>>)

  /** A configuration object with no options (truthy, but asking for nothing). */
  const NoOptions := Config(None, None, Absent, None, None, None, None, None, None)

  /** The source throws on a `like` filter over a numeric value and on
      `sort` without `order`; such inputs are outside the model. */
  predicate Admissible(c: Config, rows: seq<Row>)
  {
    (c.sort.Some? ==> c.order.Some?)
    && (c.filter.Some? ==> FiltersDefined(c.filter.value, rows))
  }

  function Filtered(c: Config, rows: seq<Row>): seq<Row>
  {
    if c.filter.Some? then ApplyFilters(c.filter.value, rows) else rows
  }

  function Searched(c: Config, rows: seq<Row>): seq<Row>
  {
    if Truthy(c.q) then Select(rows, x => MatchesQuery(x, Lower(Text(c.q)))) else rows
  }

  function Shaped(c: Config, rows: seq<Row>): seq<Row>
  {
    if c.fields.Some? then Project(rows, c.fields.value) else rows
  }

  function Sorted(c: Config, rows: seq<Row>): seq<Row>
    requires c.sort.Some? ==> c.order.Some?
  {
    if c.sort.Some? then SortRows(rows, c.sort.value, c.order.value) else rows
  }

  /** `processResults(config, rows)` for an array of rows. */
  function Process(cfg: Option<Config>, rows: seq<Row>): (r: seq<Row>)
    requires cfg.Some? ==> Admissible(cfg.value, rows)
    ensures cfg.None? ==> r == rows
    ensures cfg.Some? ==> |r| <= |rows|
    ensures cfg.Some? ==> forall y :: y in r ==> Clean(y)
  {
    match cfg
    case None => rows
    case Some(c) =>
      var f := Filtered(c, rows);
      var q := Searched(c, f);
      var p := Shaped(c, q);
      var w := Window(p, c.start, c.end, c.limit, c.page);
      var s := Sorted(c, w);
      assert |f| <= |rows| by {
        if c.filter.Some? {
          FiltersAreConjunction(c.filter.value, rows);
        }
      }
      assert |w| <= |p| by {
        SliceShorter(p, c.start, c.end, c.limit, c.page);
      }
      assert |s| == |w| by {
        if c.sort.Some? {
          assert |multiset(s)| == |multiset(w)|;
        }
      }
      Cleanup(s)
  }

  /** The pipeline windows before it sorts: the output is the cleanup of a
      reordering of exactly the windowed rows, ordered by the sort keys in
      their directions when `sort` is given, and the windowed rows as they
      are otherwise. */
  lemma WindowThenSort(c: Config, rows: seq<Row>)
    requires Admissible(c, rows)
    ensures var w := Window(Shaped(c, Searched(c, Filtered(c, rows))), c.start, c.end, c.limit, c.page);
            exists s :: Process(Some(c), rows) == Cleanup(s)
              && multiset(s) == multiset(w)
              && (c.sort.Some? ==> Ordered(s, c.sort.value, c.order.value))
              && (c.sort.None? ==> s == w)
  {
    var w := Window(Shaped(c, Searched(c, Filtered(c, rows))), c.start, c.end, c.limit, c.page);
    var s := Sorted(c, w);
    assert Process(Some(c), rows) == Cleanup(s);
  }

  lemma SliceShorter(rows: seq<Row>, start: Option<int>, end: Option<int>,
                     limit: Option<int>, page: Option<int>)
    ensures |Window(rows, start, end, limit, page)| <= |rows|
  {
  }

  /** The rows the filter and `q` stages let through. */
  predicate Selected(c: Config, x: Row)
  {
    (c.filter.Some? ==> SatisfiesAll(x, c.filter.value))
    && (Truthy(c.q) ==> MatchesQuery(x, Lower(Text(c.q))))
  }

  /** The shape a row takes before cleanup: projected when `fields` is given. */
  function Shape(c: Config, x: Row): Row
  {
    if c.fields.Some? then ProjectRow(x, c.fields.value) else x
  }

  lemma SelectedStages(c: Config, rows: seq<Row>)
    ensures forall x :: x in Searched(c, Filtered(c, rows)) ==> x in rows && Selected(c, x)
  {
    if c.filter.Some? {
      FiltersAreConjunction(c.filter.value, rows);
    }
  }

  lemma WindowWithin(rows: seq<Row>, start: Option<int>, end: Option<int>,
                     limit: Option<int>, page: Option<int>)
    ensures forall y :: y in Window(rows, start, end, limit, page) ==> y in rows
  {
  }

  /** Every output row is the cleaned shape of an input row that passed every
      filter entry and the full-text query. */
  lemma {:induction false} ProcessOrigin(c: Config, rows: seq<Row>)
    requires Admissible(c, rows)
    ensures forall y :: y in Process(Some(c), rows) ==>
              exists x :: x in rows && Selected(c, x) && y == Strip(Shape(c, x))
  {
    var q := Searched(c, Filtered(c, rows));
    var p := Shaped(c, q);
    var w := Window(p, c.start, c.end, c.limit, c.page);
    var s := Sorted(c, w);
    SelectedStages(c, rows);
    WindowWithin(p, c.start, c.end, c.limit, c.page);
    assert forall z :: z in s ==> z in w by {
      if c.sort.Some? {
        forall z | z in s ensures z in w {
          assert z in multiset(s);
        }
      }
    }
    assert forall z :: z in p ==> exists x :: x in q && z == Shape(c, x) by {
      forall z | z in p ensures exists x :: x in q && z == Shape(c, x) {
        if c.fields.Some? {
          var i :| 0 <= i < |p| && p[i] == z;
          assert q[i] in q;
        }
      }
    }
    assert Process(Some(c), rows) == Cleanup(s);
  }

  /** Conversely, without windowing every input row that passes the filter
      and the query is in the output, in its cleaned shape, unless cleaning
      leaves it empty. */
  lemma {:induction false} ProcessKeepsSelected(c: Config, rows: seq<Row>)
    requires Admissible(c, rows)
    requires c.start.None? && c.end.None? && c.limit.None? && c.page.None?
    ensures forall x :: x in rows && Selected(c, x) && |Strip(Shape(c, x))| > 0 ==>
              Strip(Shape(c, x)) in Process(Some(c), rows)
  {
    var f := Filtered(c, rows);
    var q := Searched(c, f);
    var p := Shaped(c, q);
    var w := Window(p, c.start, c.end, c.limit, c.page);
    var s := Sorted(c, w);
    assert w == p;
    if c.filter.Some? {
      FiltersAreConjunction(c.filter.value, rows);
    }
    forall x | x in rows && Selected(c, x) && |Strip(Shape(c, x))| > 0
      ensures Strip(Shape(c, x)) in Process(Some(c), rows)
    {
      assert x in f;
      assert x in q;
      var i :| 0 <= i < |q| && q[i] == x;
      assert p[i] == Shape(c, x);
      assert Shape(c, x) in s by {
        if c.sort.Some? {
          assert Shape(c, x) in multiset(w);
        }
      }
    }
    assert Process(Some(c), rows) == Cleanup(s);
  }

  /** Without `fields`, each output row keeps every defined attribute of the
      input row it came from, and nothing else. */
  lemma ProcessKeepsAttributes(c: Config, rows: seq<Row>)
    requires Admissible(c, rows) && c.fields.None?
    ensures forall y :: y in Process(Some(c), rows) ==>
              exists x :: x in rows && Selected(c, x)
                && y.Keys == (set k | k in x && x[k] != Absent)
                && forall k :: k in y ==> y[k] == x[k]
  {
    ProcessOrigin(c, rows);
  }

  /** With `fields`, every output row's attributes are listed fields that the
      source row had defined, with the source row's values. */
  lemma ProcessProjects(c: Config, rows: seq<Row>)
    requires Admissible(c, rows) && c.fields.Some?
    ensures forall y :: y in Process(Some(c), rows) ==>
              exists x :: x in rows && Selected(c, x)
                && forall k :: k in y ==> k in c.fields.value && k in x && y[k] == x[k] != Absent
  {
    ProcessOrigin(c, rows);
  }

  /* ------------------------------------------------ mapping of row lists */

  /** A member of a result mapping: a list of rows or anything else. */
  datatype Member = List(rows: seq<Row>) | Scalar(value: Value)

  /** A result mapping such as `{users, groups, other}`, in key order. */
  type Mapping = seq<(string, Member)>

  /** What `processResults` accepts: an array of rows or a mapping. */
  datatype Rows = Flat(rows: seq<Row>) | Keyed(members: Mapping)

  predicate AdmissibleFor(cfg: Option<Config>, input: Rows)
  {
    cfg.Some? ==>
      match input
      case Flat(rows) => Admissible(cfg.value, rows)
      case Keyed(m) => forall i :: 0 <= i < |m| && m[i].1.List? ==> Admissible(cfg.value, m[i].1.rows)
  }

  function ProcessMembers(cfg: Option<Config>, m: Mapping): (r: Mapping)
    requires AdmissibleFor(cfg, Keyed(m))
    ensures |r| == |m|
    ensures forall i :: 0 <= i < |m| ==> r[i].0 == m[i].0
    ensures forall i :: 0 <= i < |m| && m[i].1.Scalar? ==> r[i].1 == m[i].1
    ensures forall i :: 0 <= i < |m| && m[i].1.List? ==> r[i].1 == List(Process(cfg, m[i].1.rows))
  {
    if |m| == 0 then []
    else
      var head := if m[0].1.List? then (m[0].0, List(Process(cfg, m[0].1.rows))) else m[0];
      [head] + ProcessMembers(cfg, m[1..])
  }

  /** `processResults(config, rows)`: a falsy config returns the input as it
      is; a mapping has each array member replaced by its processed version
      and every other member left alone. */
  function ProcessResults(cfg: Option<Config>, input: Rows): (r: Rows)
    requires AdmissibleFor(cfg, input)
    ensures cfg.None? ==> r == input
    ensures input.Flat? ==> r.Flat? && r.rows == Process(cfg, input.rows)
    ensures input.Keyed? ==> r.Keyed? && |r.members| == |input.members|
    ensures input.Keyed? ==> forall i :: 0 <= i < |input.members| ==>
              r.members[i].0 == input.members[i].0
              && (input.members[i].1.Scalar? ==> r.members[i].1 == input.members[i].1)
              && (input.members[i].1.List? ==> r.members[i].1 == List(Process(cfg, input.members[i].1.rows)))
  {
    if cfg.None? then input
    else
      match input
      case Flat(rows) => Flat(Process(cfg, rows))
      case Keyed(m) => Keyed(ProcessMembers(cfg, m))
  }

  lemma ProcessMembersUnconfigured(m: Mapping)
    ensures ProcessMembers(None, m) == m
  {
    if |m| > 0 {
      ProcessMembersUnconfigured(m[1..]);
      assert m == [m[0]] + m[1..];
    }
  }
}

=== FILE: basics.dfy ===
/** Small shared datatypes: optional values, the failure record every operation
    rejects with, and the three ways a promise of the library can end. */
module Basics {

  datatype Option<+T> = None | Some(value: T)

  /** A rejection value. `status` is the `httpStatus` some rejections carry and
      `flagged` is the `error: true` marker others carry. */
  datatype Failure = Failure(message: string, status: Option<int>, flagged: bool)

  /** A rejection that carries nothing but a message. */
  function Plain(message: string): Failure
  {
    Failure(message, None, false)
  }

  /** How one asynchronous operation of the library ends: it resolves with a
      value, rejects with a failure, or (when a rejection escapes a promise
      chain that has no handler) never settles at all. */
  datatype Res<+T> = Ok(value: T) | Err(failure: Failure) | Unsettled {

    predicate Settled() {
      !Unsettled?
    }
  }
}

=== FILE: cache.dfy ===
/** The instance cache of `AD` (index.js): four namespaces of timestamped
    entries with lazy expiry, an on/off switch and an expiration in
    milliseconds. Time is the explicit parameter `now`, in milliseconds. */
module Cache {
  import opened Basics
  import opened Api

  /** A stored value with the time it was stored. */
  datatype Entry<V> = Entry(stamp: int, value: V)

  /** One namespace: key to entry. */
  type Store<V> = map<string, Entry<V>>

  /** The cache record. The source's namespaces are untyped objects; here
      each holds the kind of value the library stores in it: found users in
      `users`, `_findByType` results in `all`. Nothing in the library writes
      to `groups` or `ous`. */
  datatype Cache = Cache(
    enabled: bool,
    expiration: int,
    users: Store<Row>,
    groups: Store<Row>,
    ous: Store<Row>,
    all: Store<Rows>)

  const DefaultExpiration := 600000

  /** The cache of a new instance: enabled, ten minutes, every namespace empty. */
  const Initial := Cache(true, DefaultExpiration, map[], map[], map[], map[])

  /** What a `get` answers, and the namespace it leaves behind. */
  datatype Probe<V> = Probe(value: Option<V>, store: Store<V>)

  /** Whether an entry stored at `stamp` has outlived the expiration at `now`. */
  predicate Expired(stamp: int, now: int, expiration: int)
  {
    now - stamp > expiration
  }

  /** `_cache.get(type, key)` on one namespace. */
  function Lookup<V>(enabled: bool, expiration: int, store: Store<V>, key: string, now: int): (p: Probe<V>)
    ensures !enabled ==> p == Probe(None, store)
    ensures key !in store ==> p == Probe(None, store)
    ensures p.value.Some? <==> enabled && key in store && !Expired(store[key].stamp, now, expiration)
    ensures p.value.Some? ==> p.value.value == store[key].value && p.store == store
    ensures p.value.None? && enabled && key in store ==> p.store == store - {key}
    ensures forall k :: k != key && k in store ==> k in p.store && p.store[k] == store[k]
    ensures p.store.Keys <= store.Keys
  {
    if !enabled then Probe(None, store)
    else if key !in store then Probe(None, store)
    else
      var entry := store[key];
      if Expired(entry.stamp, now, expiration) then Probe(None, store - {key})
      else Probe(Some(entry.value), store)
  }

  /** `_cache.set(type, key, value)` on one namespace: overwrites and restamps. */
  function Put<V>(store: Store<V>, key: string, value: V, now: int): (r: Store<V>)
    ensures key in r && r[key] == Entry(now, value)
    ensures forall k :: k != key ==> (k in r <==> k in store) && (k in store ==> r[k] == store[k])
  {
    store[key := Entry(now, value)]
  }

  /** `delete _cache[type][key]`. */
  function Forget<V>(store: Store<V>, key: string): (r: Store<V>)
    ensures key !in r
    ensures forall k :: k != key ==> (k in r <==> k in store) && (k in store ==> r[k] == store[k])
  {
    store - {key}
  }

  /** An in-place change to a stored object: the value changes, the stamp does not. */
  function Overwrite<V>(store: Store<V>, key: string, value: V): (r: Store<V>)
    ensures r.Keys == store.Keys
    ensures key in store ==> r[key] == Entry(store[key].stamp, value)
    ensures forall k :: k != key && k in store ==> r[k] == store[k]
  {
    if key in store then store[key := Entry(store[key].stamp, value)] else store
  }

  /* ------------------------------------------- the namespaces in use */

  function GetUser(c: Cache, key: string, now: int): (Option<Row>, Cache)
  {
    var p := Lookup(c.enabled, c.expiration, c.users, key, now);
    (p.value, c.(users := p.store))
  }

  function SetUser(c: Cache, key: string, value: Row, now: int): Cache
  {
    c.(users := Put(c.users, key, value, now))
  }

  function ForgetUser(c: Cache, key: string): Cache
  {
    c.(users := Forget(c.users, key))
  }

  function GetAll(c: Cache, key: string, now: int): (Option<Rows>, Cache)
  {
    var p := Lookup(c.enabled, c.expiration, c.all, key, now);
    (p.value, c.(all := p.store))
  }

  function SetAll(c: Cache, key: string, value: Rows, now: int): Cache
  {
    c.(all := Put(c.all, key, value, now))
  }

  /** `_cache.all = {}`. */
  function ResetAll(c: Cache): (r: Cache)
    ensures r.all == map[]
    ensures r == c.(all := map[])
  {
    c.(all := map[])
  }

  /** `cache(bool)`: only the switch changes. */
  function Switch(c: Cache, on: bool): (r: Cache)
    ensures r.enabled == on && r.expiration == c.expiration
    ensures r.users == c.users && r.groups == c.groups && r.ous == c.ous && r.all == c.all
  {
    c.(enabled := on)
  }

  /** `cacheTimeout(millis)`: only the expiration changes. */
  function Timeout(c: Cache, millis: int): (r: Cache)
    ensures r.expiration == millis && r.enabled == c.enabled
    ensures r.users == c.users && r.groups == c.groups && r.ous == c.ous && r.all == c.all
  {
    c.(expiration := millis)
  }

  /* ---------------------------------------------------------- lemmas */

  /** A value stored at `t0` is returned at `t` exactly when `t - t0` is
      within the expiration; otherwise the entry is dropped, so a second
      `get` finds nothing either. */
  lemma GetAfterSet<V>(store: Store<V>, expiration: int, key: string, v: V, t0: int, t: int)
    ensures var p := Lookup(true, expiration, Put(store, key, v, t0), key, t);
            (p.value == Some(v) <==> t - t0 <= expiration)
            && (p.value.None? ==> Lookup(true, expiration, p.store, key, t).value.None?)
  {
  }

  /** Setting twice keeps only the second value and its stamp. */
  lemma SetOverwrites<V>(store: Store<V>, key: string, v1: V, t1: int, v2: V, t2: int)
    ensures Put(Put(store, key, v1, t1), key, v2, t2) == Put(store, key, v2, t2)
  {
  }

  /** Switching the cache off and on again leaves every lookup as it was. */
  lemma SwitchRestores(c: Cache, key: string, now: int)
    requires c.enabled
    ensures GetUser(Switch(Switch(c, false), true), key, now) == GetUser(c, key, now)
    ensures GetAll(Switch(Switch(c, false), true), key, now) == GetAll(c, key, now)
  {
  }

  /** While switched off the cache answers nothing and changes nothing. */
  lemma SwitchedOff(c: Cache, key: string, now: int)
    ensures GetUser(Switch(c, false), key, now) == (None, Switch(c, false))
    ensures GetAll(Switch(c, false), key, now) == (None, Switch(c, false))
  {
  }

  /** With a zero timeout an entry is still served in the millisecond it was
      stored and dropped at any later time. */
  lemma ZeroTimeout(c: Cache, key: string, v: Row, t0: int, t: int)
    requires c.enabled && t >= t0
    ensures var c1 := SetUser(Timeout(c, 0), key, v, t0);
            GetUser(c1, key, t).0 == (if t == t0 then Some(v) else None)
  {
  }
}

=== FILE: directory.dfy ===
/** The abstract directory the library talks to. Every LDAP or
    `activedirectory` call is one step recorded in a trace; what the server
    answers is a function of the calls made before, so the directory may hold
    any state and change it with every write. The world an operation runs in
    is the instance cache plus that trace. */
module Directory {
  import opened Basics
  import opened Api
  import Cache
  import Instance

  /** The `operation` of an LDAP modification. */
  datatype ChangeKind = AddValues | DeleteValues | ReplaceValues

  /** One LDAP modification of one attribute; a single value is sent as a
      one-element list, as `ldap.Change` does. */
  datatype Change = Change(kind: ChangeKind, attribute: string, values: seq<Value>)

  /** The calls the library makes. `Find` is `ad.find` with a filter (or
      query) and the membership it asks for, empty when none is asked for. */
  datatype Call =
    | Find(filter: string, membership: seq<string>)
    | GroupUsers(group: string)
    | Bind
    | Add(target: string, entry: Row)
    | Delete(dn: Value)
    | Modify(dn: Value, changes: seq<Change>)
    | ModifyDN(from: Value, to: string)
    | Unbind

  /** A server answer: a value or an error. */
  datatype Reply<+T> = Answer(value: T) | Fault(failure: Failure)

  /** A search that came back with a result mapping. */
  predicate Found(reply: Reply<Option<Mapping>>)
  {
    reply.Answer? && reply.value.Some?
  }

  /** The server, as answers to the history of calls that precede each call:
      `find` gives a result mapping (`None` for no results), `members` the
      users of a group (`None` for an unknown group), and `status` the error,
      if any, of a bind or a write. */
  datatype Server = Server(
    find: (seq<Call>, string, seq<string>) -> Reply<Option<Mapping>>,
    members: (seq<Call>, string) -> Reply<Option<seq<Row>>>,
    status: (seq<Call>, Call) -> Option<Failure>)

  /** What an operation runs against: the server, the instance settings,
      the clock reading, and the two password functions the library imports
      (`ssha.create` and `encodePassword`), whose definitions are not part of
      this model. `ssha` answers `None` where `ssha.create` would throw. */
  datatype Env = Env(
    server: Server,
    settings: Instance.Settings,
    now: int,
    ssha: Value -> Option<Value>,
    encodePassword: Value -> Value)

  datatype World = World(cache: Cache.Cache, trace: seq<Call>)

  /** How an operation ends and the world it leaves. */
  datatype Step<+T> = Step(result: Res<T>, world: World)

  /** The `{success: true}` a completed write resolves with. */
  datatype Ack = Success

  /** `ad.find(...)`. */
  function Query(env: Env, w: World, filter: string, membership: seq<string>): (Reply<Option<Mapping>>, World)
  {
    (env.server.find(w.trace, filter, membership), w.(trace := w.trace + [Find(filter, membership)]))
  }

  /** `ad.getUsersForGroup(group)`. */
  function Members(env: Env, w: World, group: string): (Reply<Option<seq<Row>>>, World)
  {
    (env.server.members(w.trace, group), w.(trace := w.trace + [GroupUsers(group)]))
  }

  /** A bind or a write, and the error the server reports for it. */
  function Perform(env: Env, w: World, c: Call): (Option<Failure>, World)
  {
    (env.server.status(w.trace, c), w.(trace := w.trace + [c]))
  }

  /** A call whose outcome the library ignores. */
  function Issue(w: World, c: Call): World
  {
    w.(trace := w.trace + [c])
  }

  function WithCache(w: World, c: Cache.Cache): World
  {
    w.(cache := c)
  }
}

=== FILE: groups.dfy ===
/** The group operations of the library (src/group.js): listing, existence,
    creation, membership changes and removal. `findGroup` itself is in the
    `Lookup` module. */
module Groups {
  import opened Basics
  import opened Api
  import opened Directory
  import opened Helpers
  import opened Lookup
  import opened Operations
  import Cache

  /** `getAllGroups(opts)`: the typed listing with membership `['group']`. */
  function GetAllGroups(env: Env, w: World, opts: Option<Config>): Step<Rows>
  {
    FindByType(env, w, opts, ["group"])
  }

  /** Every group listed on a miss comes from the `groups` list of the
      directory's answer. */
  lemma AllGroupsAreGroups(env: Env, w: World, opts: Option<Config>)
    requires Cache.GetAll(w.cache, MembershipKey(["group"]), env.now).0.None?
    requires Found(env.server.find(w.trace, "CN=*", ["group"]))
    requires GetAllGroups(env, w, opts).result.Ok?
    ensures var s := GetAllGroups(env, w, opts);
            var m := env.server.find(w.trace, "CN=*", ["group"]).value.value;
            s.result.value.Flat?
            && forall y :: y in s.result.value.rows ==>
                 ListOf(m, "groups").Some?
                 && exists x :: x in ListOf(m, "groups").value && y == Strip(Shape(OrEmpty(opts), x))
  {
    var m := env.server.find(w.trace, "CN=*", ["group"]).value.value;
    FindByTypeOrigin(env, w, opts, ["group"]);
    forall x | x in Compiled(m, ["group"])
      ensures ListOf(m, "groups").Some? && x in ListOf(m, "groups").value
    {
      CompiledMembers(m, ["group"], x);
    }
  }

  /** `groupExists(groupName)`: whether the group found has a DN. */
  function GroupExists(env: Env, w: World, groupName: string): (s: Step<bool>)
    ensures s.result.Settled()
    ensures var found := FindGroup(env, w, groupName, None);
            s.world == found.world
            && (found.result.Err? ==> s.result == Err(found.result.failure))
            && (s.result == Ok(true) <==> found.result.Ok? && Truthy(Get(found.result.value.value, "dn")))
            && (found.result.Ok? ==> s.result.Ok?)
  {
    var found := FindGroup(env, w, groupName, None);
    match found.result
    case Err(f) => Step(Err(f), found.world)
    case Unsettled => assert false; Step(Unsettled, found.world)
    case Ok(g) => Step(Ok(g.Some? && Truthy(Get(g.value, "dn"))), found.world)
  }

  /** A group exists exactly when the directory answers the search with a
      list whose first group has a DN; a fault rejects with that fault. */
  lemma GroupExistsFirst(env: Env, w: World, groupName: string)
    requires !Strings.Blank(Bare(groupName))
    ensures var reply := env.server.find(w.trace, GroupFilter(Bare(groupName)), []);
            var groups := FoundGroups(reply);
            var s := GroupExists(env, w, groupName);
            (s.result == Ok(true) <==> reply.Answer? && |groups| > 0 && Truthy(Get(groups[0], "dn")))
            && (reply.Fault? ==> s.result == Err(reply.failure))
  {
  }

  /** A blank group name is never reported as existing; the lookup rejects
      without a directory call. */
  lemma BlankGroupRejected(env: Env, w: World, groupName: string)
    requires Strings.Blank(groupName) && '@' !in groupName
    ensures GroupExists(env, w, groupName) == Step(Err(Plain(groupName + " is not a valid Group name.")), w)
  {
  }

  /** The entry `addGroup` writes. */
  function GroupEntry(spec: NewObject): Row
  {
    map["cn" := spec.name, "description" := spec.description, "objectClass" := Str("group"),
        "sAmAccountName" := spec.name]
  }

  /** `addGroup(opts)`: adds a group entry named by `CN=name` under the
      parsed location. */
  function AddGroup(env: Env, w: World, spec: NewObject): (s: Step<Row>)
    ensures s.result.Settled()
    ensures s.world.cache == w.cache
    ensures s.result.Ok? <==> env.server.status(w.trace, Bind).None?
    ensures s.result.Ok? ==>
              s.world.trace == w.trace + [Bind, Add(ObjectDN(env, "CN=" + Text(spec.name), LocationOf(spec.location)),
                                                  Strip(GroupEntry(spec))), Unbind]
              && s.result.value == Strip(GroupEntry(spec))
              && Get(s.result.value, "objectClass") == Str("group")
  {
    AddObject(env, w, "CN=" + Text(spec.name), LocationOf(spec.location), GroupEntry(spec))
  }

  /** A group added by name alone is written at `CN=name` directly under the
      base DN, with no description. */
  lemma AddGroupByName(env: Env, w: World, name: string)
    requires env.server.status(w.trace, Bind).None?
    ensures var s := AddGroup(env, w, Named(name));
            var entry := map["cn" := Str(name), "objectClass" := Str("group"), "sAmAccountName" := Str(name)];
            s.world.trace == w.trace + [Bind, Add("CN=" + name + "," + NormalBase(env), entry), Unbind]
            && s.result == Ok(entry)
  {
    var entry := map["cn" := Str(name), "objectClass" := Str("group"), "sAmAccountName" := Str(name)];
    assert Strip(GroupEntry(Named(name))) == entry;
    assert ObjectDN(env, "CN=" + name, LocationOf(Absent)) == "CN=" + name + "," + NormalBase(env);
  }

  /** The member change `addUserToGroup` and `removeUserFromGroup` send: the
      user's DN as the single value of `member`. */
  function MemberChange(kind: ChangeKind, user: Row): Change
  {
    Change(kind, "member", [Get(user, "dn")])
  }

  /** `addUserToGroup(userName, groupName)`: a failed user lookup is not
      handled, so the promise never settles; an unknown user rejects before
      any group lookup; otherwise the user's DN is added to the group's
      `member`, and a failure is marked `error: true`. */
  function AddUserToGroup(env: Env, w: World, userName: string, groupName: string): (s: Step<Ack>)
    ensures var found := FindUser(env, w, userName, None);
            s.result.Unsettled? <==> found.result.Err?
    ensures var found := FindUser(env, w, userName, None);
            (found.result.Ok? && found.result.value.value == map[]) ==>
              s == Step(Err(Failure("User " + userName + " does not exist.", None, true)), found.world)
    ensures var found := FindUser(env, w, userName, None);
            s.result.Ok? ==> Wrote(s, MemberChange(AddValues, found.result.value.value))
    ensures s.result.Err? ==> s.result.failure.flagged
    ensures var found := FindUser(env, w, userName, None);
            (found.result.Ok? && found.result.value.value != map[]) ==>
              var op := GroupAddOperation(env, found.world, groupName, "member", [Get(found.result.value.value, "dn")]);
              s.world == op.world
              && (op.result.Ok? ==> s == op)
              && (op.result.Err? ==> s.result == Err(op.result.failure.(flagged := true)))
  {
    var found := FindUser(env, w, userName, None);
    match found.result
    case Err(_) => Step(Unsettled, found.world)
    case Unsettled => assert false; Step(Unsettled, found.world)
    case Ok(u) =>
      if u.value == map[] then Step(Err(Failure("User " + userName + " does not exist.", None, true)), found.world)
      else
        var op := GroupAddOperation(env, found.world, groupName, "member", [Get(u.value, "dn")]);
        if op.result.Err? then Step(Err(op.result.failure.(flagged := true)), op.world) else op
  }

  /** `removeUserFromGroup(userName, groupName)`: as `addUserToGroup`, with
      the DN deleted from `member` and an unnamed not-found message. */
  function RemoveUserFromGroup(env: Env, w: World, userName: string, groupName: string): (s: Step<Ack>)
    ensures var found := FindUser(env, w, userName, None);
            s.result.Unsettled? <==> found.result.Err?
    ensures var found := FindUser(env, w, userName, None);
            (found.result.Ok? && found.result.value.value == map[]) ==>
              s == Step(Err(Failure("User does not exist.", None, true)), found.world)
    ensures var found := FindUser(env, w, userName, None);
            s.result.Ok? ==> Wrote(s, MemberChange(DeleteValues, found.result.value.value))
    ensures s.result.Err? ==> s.result.failure.flagged
    ensures var found := FindUser(env, w, userName, None);
            (found.result.Ok? && found.result.value.value != map[]) ==>
              var op := GroupDeleteOperation(env, found.world, groupName, "member", [Get(found.result.value.value, "dn")]);
              s.world == op.world
              && (op.result.Ok? ==> s == op)
              && (op.result.Err? ==> s.result == Err(op.result.failure.(flagged := true)))
  {
    var found := FindUser(env, w, userName, None);
    match found.result
    case Err(_) => Step(Unsettled, found.world)
    case Unsettled => assert false; Step(Unsettled, found.world)
    case Ok(u) =>
      if u.value == map[] then Step(Err(Failure("User does not exist.", None, true)), found.world)
      else
        var op := GroupDeleteOperation(env, found.world, groupName, "member", [Get(u.value, "dn")]);
        if op.result.Err? then Step(Err(op.result.failure.(flagged := true)), op.world) else op
  }

  /** Adding and removing a member from the same state differ only in the
      kind of the change: the same group DN, the same member value, after
      the same lookups. */
  lemma MembershipMirror(env: Env, w: World, userName: string, groupName: string)
    requires AddUserToGroup(env, w, userName, groupName).result.Ok?
    requires RemoveUserFromGroup(env, w, userName, groupName).result.Ok?
    ensures var added := AddUserToGroup(env, w, userName, groupName).world.trace;
            var removed := RemoveUserFromGroup(env, w, userName, groupName).world.trace;
            |added| == |removed| >= 2
            && added[..|added| - 2] == removed[..|removed| - 2]
            && added[|added| - 2].Modify? && removed[|removed| - 2].Modify?
            && added[|added| - 2].dn == removed[|removed| - 2].dn
            && added[|added| - 2].changes[0].(kind := DeleteValues) == removed[|removed| - 2].changes[0]
  {
    var found := FindUser(env, w, userName, None);
    var values := [Get(found.result.value.value, "dn")];
    AddIsGroupAdd(env, w, userName, groupName);
    RemoveIsGroupDelete(env, w, userName, groupName);
    GroupOperationsMirror(env, found.world, groupName, values);
  }

  /** A successful `addUserToGroup` is the group add operation on the DN of
      the user it found. */
  lemma AddIsGroupAdd(env: Env, w: World, userName: string, groupName: string)
    requires AddUserToGroup(env, w, userName, groupName).result.Ok?
    ensures var found := FindUser(env, w, userName, None);
            found.result.Ok? && found.result.value.value != map[]
            && AddUserToGroup(env, w, userName, groupName)
                 == GroupAddOperation(env, found.world, groupName, "member", [Get(found.result.value.value, "dn")])
  {
  }

  /** A successful `removeUserFromGroup` is the group delete operation on the
      DN of the user it found. */
  lemma RemoveIsGroupDelete(env: Env, w: World, userName: string, groupName: string)
    requires RemoveUserFromGroup(env, w, userName, groupName).result.Ok?
    ensures var found := FindUser(env, w, userName, None);
            found.result.Ok? && found.result.value.value != map[]
            && RemoveUserFromGroup(env, w, userName, groupName)
                 == GroupDeleteOperation(env, found.world, groupName, "member", [Get(found.result.value.value, "dn")])
  {
  }

  /** From one state, successful group add and delete operations leave
      traces that differ only in the kind of their one change. */
  lemma GroupOperationsMirror(env: Env, w: World, groupName: string, values: seq<Value>)
    requires GroupAddOperation(env, w, groupName, "member", values).result.Ok?
    requires GroupDeleteOperation(env, w, groupName, "member", values).result.Ok?
    ensures var added := GroupAddOperation(env, w, groupName, "member", values).world.trace;
            var removed := GroupDeleteOperation(env, w, groupName, "member", values).world.trace;
            |added| == |removed| >= 2
            && added[..|added| - 2] == removed[..|removed| - 2]
            && added[|added| - 2].Modify? && removed[|removed| - 2].Modify?
            && added[|added| - 2].dn == removed[|removed| - 2].dn
            && added[|added| - 2].changes[0].(kind := DeleteValues) == removed[|removed| - 2].changes[0]
  {
    var g := FindGroup(env, w, groupName, None);
    var t := g.world.trace + [Bind];
    var dn := Get(g.result.value.value, "dn");
    var added := GroupAddOperation(env, w, groupName, "member", values).world.trace;
    var removed := GroupDeleteOperation(env, w, groupName, "member", values).world.trace;
    assert added == t + [Modify(dn, [Change(AddValues, "member", values)]), Unbind];
    assert removed == t + [Modify(dn, [Change(DeleteValues, "member", values)]), Unbind];
    assert added[..|added| - 2] == t;
    assert removed[..|removed| - 2] == t;
  }

  /** `removeGroup(groupName)`: an empty group lookup rejects before any
      delete; otherwise the group's DN is deleted. */
  function RemoveGroup(env: Env, w: World, groupName: string): (s: Step<Ack>)
    ensures s.result.Settled()
    ensures var found := FindGroup(env, w, groupName, None);
            found.result.Err? ==> s == Step(Err(found.result.failure), found.world)
    ensures var found := FindGroup(env, w, groupName, None);
            (found.result.Ok? && found.result.value.value == map[]) ==>
              s == Step(Err(Failure("Group " + groupName + " does not exist.", None, true)), found.world)
    ensures var found := FindGroup(env, w, groupName, None);
            s.result.Ok? ==>
              s.world.trace == found.world.trace + [Bind, Delete(Get(found.result.value.value, "dn")), Unbind]
    ensures var found := FindGroup(env, w, groupName, None);
            (found.result.Ok? && found.result.value.value != map[]) ==>
              s == DeleteByDN(env, found.world, Get(found.result.value.value, "dn"))
  {
    var found := FindGroup(env, w, groupName, None);
    match found.result
    case Err(f) => Step(Err(f), found.world)
    case Unsettled => assert false; Step(Unsettled, found.world)
    case Ok(g) =>
      if g.value == map[] then Step(Err(Failure("Group " + groupName + " does not exist.", None, true)), found.world)
      else DeleteByDN(env, found.world, Get(g.value, "dn"))
  }

  /** A group the lookup finds is deleted by its DN whenever the bind
      succeeds: the call resolves, and its last three calls are the bind,
      the delete of that DN and the unbind. */
  lemma RemoveGroupDeletes(env: Env, w: World, groupName: string)
    requires var found := FindGroup(env, w, groupName, None);
             found.result.Ok? && found.result.value.value != map[]
             && env.server.status(found.world.trace, Bind).None?
    ensures var found := FindGroup(env, w, groupName, None);
            var s := RemoveGroup(env, w, groupName);
            s.result == Ok(Success)
            && s.world.trace == found.world.trace + [Bind, Delete(Get(found.result.value.value, "dn")), Unbind]
  {
  }
}

=== FILE: helpers.dfy ===
/** The private helpers of the library (src/internal/helpers.js): typed
    listing through the `all` cache, raw searches, group membership, and
    the add, delete and rename primitives. */
module Helpers {
  import opened Basics
  import opened Strings
  import opened Api
  import opened Directory
  import ParseLocation
  import Cache

  /* ------------------------------------------------------ shared pieces */

  /** `parseLocation(location)` for a location option of any type. */
  function LocationOf(location: Value): string
  {
    if Truthy(location) then ParseLocation.Encode(Text(location)) else ""
  }

  /** The base DN with its `dc=` components written `DC=`, as the add and
      move operations place it. */
  function NormalBase(env: Env): string
  {
    ReplaceAll(Text(env.settings.baseDN), "dc=", "DC=")
  }

  /** `results[name]` when it is an array. */
  function ListOf(m: Mapping, name: string): (r: Option<seq<Row>>)
    ensures r.Some? <==> exists i :: 0 <= i < |m| && m[i].0 == name && m[i].1.List?
  {
    if |m| == 0 then None
    else if m[0].0 == name then
      if m[0].1.List? then Some(m[0].1.rows) else ListOf(m[1..], name)
    else ListOf(m[1..], name)
  }

  /** `processResults(config, rows)` inside a directory callback or an
      `async` promise executor: the source throws where the query engine is
      undefined, nothing catches the throw, and the promise never settles. */
  function Processed(cfg: Option<Config>, rows: seq<Row>): (r: Res<seq<Row>>)
    ensures r.Unsettled? <==> cfg.Some? && !Admissible(cfg.value, rows)
    ensures r.Ok? ==> r.value == Process(cfg, rows)
  {
    if cfg.Some? && !Admissible(cfg.value, rows) then Unsettled else Ok(Process(cfg, rows))
  }

  /** What a promise chain that catches the throw of `processResults`
      rejects with: the engine's `TypeError`, whose message is not modelled. */
  const ProcessingError := Plain("TypeError")

  /** `processResults(config, rows)[0]`: `None` for `undefined`. */
  function First(r: Res<seq<Row>>): Res<Option<Row>>
  {
    match r
    case Ok(rows) => Ok(if |rows| > 0 then Some(rows[0]) else None)
    case Err(f) => Err(f)
    case Unsettled => Unsettled
  }

  /* -------------------------------------------------------- _findByType */

  /** `JSON.stringify(membership)` for a list of plain names. */
  function MembershipKey(membership: seq<string>): string
  {
    "[" + Join(Prefixed("\"", Suffixed(membership, "\"")), ",") + "]"
  }

  function Suffixed(xs: seq<string>, suffix: string): (r: seq<string>)
    ensures |r| == |xs|
    ensures forall i :: 0 <= i < |xs| ==> r[i] == xs[i] + suffix
  {
    if |xs| == 0 then [] else [xs[0] + suffix] + Suffixed(xs[1..], suffix)
  }

  /** The list named `name` when `membership` asks for `kind`, else nothing. */
  function Part(m: Mapping, membership: seq<string>, kind: string, name: string): seq<Row>
  {
    if kind in membership && ListOf(m, name).Some? then ListOf(m, name).value else []
  }

  /** The users, then the groups, then the other objects, each only when the
      membership asks for it. */
  function Compiled(m: Mapping, membership: seq<string>): seq<Row>
  {
    Part(m, membership, "user", "users") + Part(m, membership, "group", "groups")
      + Part(m, membership, "other", "other")
  }

  /** `opts || {}`. */
  function OrEmpty(opts: Option<Config>): Config
  {
    if opts.Some? then opts.value else NoOptions
  }

  /** `_findByType(opts, membership)`. A cached result is processed and
      returned without a directory call. On a miss the directory is asked
      once; a membership holding `all` caches the whole mapping, which the
      processing then rewrites in place, so the cache keeps the processed
      mapping; any other membership caches the compiled list as found. */
  function FindByType(env: Env, w: World, opts: Option<Config>, membership: seq<string>): (s: Step<Rows>)
    ensures var probe := Cache.GetAll(w.cache, MembershipKey(membership), env.now);
            probe.0.Some? ==> s.world.trace == w.trace
    ensures var probe := Cache.GetAll(w.cache, MembershipKey(membership), env.now);
            probe.0.None? ==>
              s.world.trace == w.trace + [Find("CN=*", membership)]
              && match env.server.find(w.trace, "CN=*", membership)
                 case Fault(f) => s.result == Err(f) && s.world.cache == probe.1
                 case Answer(None) => s.result == Ok(Flat([])) && s.world.cache == probe.1
                 case Answer(Some(m)) =>
                   "all" !in membership ==>
                     s.world.cache == Cache.SetAll(probe.1, MembershipKey(membership), Flat(Compiled(m, membership)), env.now)
                     && (s.result.Ok? ==>
                           s.result.value.Flat?
                           && Processed(Some(OrEmpty(opts)), Compiled(m, membership)) == Ok(s.result.value.rows))
                     && (Admissible(OrEmpty(opts), Compiled(m, membership)) ==> s.result.Ok?)
    ensures var probe := Cache.GetAll(w.cache, MembershipKey(membership), env.now);
            probe.0.None? && "all" in membership ==>
              match env.server.find(w.trace, "CN=*", membership)
              case Answer(Some(m)) =>
                AdmissibleFor(Some(OrEmpty(opts)), Keyed(m)) ==> s.result == Ok(Keyed(ProcessMembers(Some(OrEmpty(opts)), m)))
              case _ => true
  {
    var cfg := Some(OrEmpty(opts));
    var key := MembershipKey(membership);
    var probe := Cache.GetAll(w.cache, key, env.now);
    var w1 := w.(cache := probe.1);
    if probe.0.Some? then
      match probe.0.value
      case Flat(rows) =>
        var r := Processed(cfg, rows);
        Step(if r.Ok? then Ok(Flat(r.value)) else Unsettled, w1)
      case Keyed(m) =>
        if AdmissibleFor(cfg, Keyed(m)) then
          var out := ProcessMembers(cfg, m);
          Step(Ok(Keyed(out)), w1.(cache := w1.cache.(all := Cache.Overwrite(w1.cache.all, key, Keyed(out)))))
        else Step(Unsettled, w1)
    else
      var q := Query(env, w1, "CN=*", membership);
      var w2 := q.1;
      match q.0
      case Fault(f) => Step(Err(f), w2)
      case Answer(None) => Step(Ok(Flat([])), w2)
      case Answer(Some(m)) =>
        if "all" in membership then
          if AdmissibleFor(cfg, Keyed(m)) then
            var out := ProcessMembers(cfg, m);
            Step(Ok(Keyed(out)), w2.(cache := Cache.SetAll(w2.cache, key, Keyed(out), env.now)))
          else Step(Unsettled, w2.(cache := Cache.SetAll(w2.cache, key, Keyed(m), env.now)))
        else
          var compiled := Compiled(m, membership);
          var w3 := w2.(cache := Cache.SetAll(w2.cache, key, Flat(compiled), env.now));
          var r := Processed(cfg, compiled);
          Step(if r.Ok? then Ok(Flat(r.value)) else Unsettled, w3)
  }

  /** The compiled list holds exactly the rows of the lists the membership
      asks for, in the fixed order users, groups, other. */
  lemma CompiledMembers(m: Mapping, membership: seq<string>, x: Row)
    ensures x in Compiled(m, membership) <==>
              ("user" in membership && ListOf(m, "users").Some? && x in ListOf(m, "users").value)
              || ("group" in membership && ListOf(m, "groups").Some? && x in ListOf(m, "groups").value)
              || ("other" in membership && ListOf(m, "other").Some? && x in ListOf(m, "other").value)
    ensures ("user" !in membership && "group" !in membership && "other" !in membership)
              ==> Compiled(m, membership) == []
  {
  }

  /** Once the directory has answered with a result, asking again within
      the expiration returns the same rows from the cache without another
      directory call (an absent result is not cached). */
  lemma FindByTypeCached(env: Env, w: World, opts: Option<Config>, membership: seq<string>)
    requires "all" !in membership
    requires w.cache.enabled && w.cache.expiration >= 0
    requires Cache.GetAll(w.cache, MembershipKey(membership), env.now).0.None?
    requires Found(env.server.find(w.trace, "CN=*", membership))
    requires FindByType(env, w, opts, membership).result.Ok?
    ensures var s1 := FindByType(env, w, opts, membership);
            var s2 := FindByType(env, s1.world, opts, membership);
            s2.result == s1.result && s2.world.trace == s1.world.trace
  {
    var key := MembershipKey(membership);
    var s1 := FindByType(env, w, opts, membership);
    var probe := Cache.GetAll(w.cache, key, env.now);
    var m := env.server.find(w.trace, "CN=*", membership).value.value;
    var c := Cache.SetAll(probe.1, key, Flat(Compiled(m, membership)), env.now);
    assert s1.world.cache == c;
    assert c.all[key] == Cache.Entry(env.now, Flat(Compiled(m, membership)));
  }

  /** With a membership holding `all`, the cache keeps the mapping as the
      processing rewrote it, so a second call within the expiration processes
      the already processed lists again, without a directory call. */
  lemma FindByTypeAllReprocesses(env: Env, w: World, opts: Option<Config>, membership: seq<string>)
    requires "all" in membership
    requires w.cache.enabled && w.cache.expiration >= 0
    requires Cache.GetAll(w.cache, MembershipKey(membership), env.now).0.None?
    requires Found(env.server.find(w.trace, "CN=*", membership))
    requires FindByType(env, w, opts, membership).result.Ok?
    ensures var s1 := FindByType(env, w, opts, membership);
            var s2 := FindByType(env, s1.world, opts, membership);
            s1.result.value.Keyed?
            && s2.world.trace == s1.world.trace
            && s1.world.cache.all[MembershipKey(membership)].value == s1.result.value
            && (AdmissibleFor(Some(OrEmpty(opts)), s1.result.value) ==>
                  s2.result == Ok(Keyed(ProcessMembers(Some(OrEmpty(opts)), s1.result.value.members))))
  {
    var key := MembershipKey(membership);
    var probe := Cache.GetAll(w.cache, key, env.now);
    var m := env.server.find(w.trace, "CN=*", membership).value.value;
    var cfg := Some(OrEmpty(opts));
    assert AdmissibleFor(cfg, Keyed(m));
    var out := ProcessMembers(cfg, m);
    var c := Cache.SetAll(probe.1, key, Keyed(out), env.now);
    assert FindByType(env, w, opts, membership).world.cache == c;
    assert c.all[key] == Cache.Entry(env.now, Keyed(out));
  }

  /** On a miss answered with a result, every row returned is the cleaned
      (and, with `fields`, projected) form of a row of a list the membership
      asks for. */
  lemma FindByTypeOrigin(env: Env, w: World, opts: Option<Config>, membership: seq<string>)
    requires "all" !in membership
    requires Cache.GetAll(w.cache, MembershipKey(membership), env.now).0.None?
    requires Found(env.server.find(w.trace, "CN=*", membership))
    requires FindByType(env, w, opts, membership).result.Ok?
    ensures var s := FindByType(env, w, opts, membership);
            var m := env.server.find(w.trace, "CN=*", membership).value.value;
            s.result.value.Flat?
            && forall y :: y in s.result.value.rows ==>
                 exists x :: x in Compiled(m, membership) && y == Strip(Shape(OrEmpty(opts), x))
  {
    var m := env.server.find(w.trace, "CN=*", membership).value.value;
    var compiled := Compiled(m, membership);
    var c := OrEmpty(opts);
    assert Admissible(c, compiled);
    ProcessOrigin(c, compiled);
  }

  /* ------------------------------------------------------------ _search */

  /** `x` is a row of the array member at position `i`. */
  predicate InMember(m: Mapping, i: int, x: Row)
  {
    0 <= i < |m| && m[i].1.List? && x in m[i].1.rows
  }

  /** The rows of every array member, in key order. */
  function Combined(m: Mapping): (r: seq<Row>)
    ensures forall x :: x in r <==> exists i :: InMember(m, i, x)
  {
    if |m| == 0 then []
    else
      var rest := Combined(m[1..]);
      forall x | x in rest ensures exists i :: InMember(m, i, x) {
        var i :| InMember(m[1..], i, x);
        assert m[1..][i] == m[i + 1];
        assert InMember(m, i + 1, x);
      }
      forall x | exists i :: InMember(m, i, x)
        ensures InMember(m, 0, x) || x in rest
      {
        var i :| InMember(m, i, x);
        if i > 0 {
          assert m[1..][i - 1] == m[i];
          assert InMember(m[1..], i - 1, x);
        }
      }
      var head := if m[0].1.List? then m[0].1.rows else [];
      assert forall x :: x in head ==> InMember(m, 0, x);
      assert forall x :: InMember(m, 0, x) ==> x in head;
      head + rest
  }

  /** Combining is concatenation: no members give no rows, one member gives
      its list (or nothing when it is not a list), and the rows of two runs
      of members follow one another, duplicates kept. */
  lemma CombinedConcat(m1: Mapping, m2: Mapping, key: string, v: Member)
    ensures Combined([]) == []
    ensures Combined([(key, v)]) == (if v.List? then v.rows else [])
    ensures Combined(m1 + m2) == Combined(m1) + Combined(m2)
  {
    assert [(key, v)][1..] == [];
    CombinedAppend(m1, m2);
  }

  /** One unfolding of `Combined`. */
  lemma CombinedStep(m: Mapping)
    requires |m| > 0
    ensures Combined(m) == (if m[0].1.List? then m[0].1.rows else []) + Combined(m[1..])
  {
  }

  lemma {:induction false} CombinedAppend(m1: Mapping, m2: Mapping)
    ensures Combined(m1 + m2) == Combined(m1) + Combined(m2)
    decreases |m1|
  {
    if |m1| == 0 {
      assert m1 + m2 == m2;
    } else {
      var m := m1 + m2;
      CombinedAppend(m1[1..], m2);
      assert m[1..] == m1[1..] + m2;
      assert m[0] == m1[0];
      CombinedStep(m);
      CombinedStep(m1);
    }
  }

  /** `_search(filter, config)`: no result gives `[]`; with a config the rows
      of all array members are combined and processed; without one the
      mapping is returned as the directory gave it. */
  function SearchObjects(env: Env, w: World, filter: string, config: Option<Config>): (s: Step<Rows>)
    ensures s.world == w.(trace := w.trace + [Find(filter, [])])
    ensures match env.server.find(w.trace, filter, [])
            case Fault(f) => s.result == Err(f)
            case Answer(None) => s.result == Ok(Flat([]))
            case Answer(Some(m)) =>
              if config.None? then s.result == Ok(Keyed(m))
              else s.result == (match Processed(config, Combined(m))
                                case Ok(rows) => Ok(Flat(rows))
                                case _ => Unsettled)
  {
    var q := Query(env, w, filter, []);
    match q.0
    case Fault(f) => Step(Err(f), q.1)
    case Answer(None) => Step(Ok(Flat([])), q.1)
    case Answer(Some(m)) =>
      if config.None? then Step(Ok(Keyed(m)), q.1)
      else
        var r := Processed(config, Combined(m));
        Step(if r.Ok? then Ok(Flat(r.value)) else Unsettled, q.1)
  }

  /* ------------------------------------------------------ _getGroupUsers */

  /** `_getGroupUsers(groupName)`. */
  function GroupUsers(env: Env, w: World, groupName: string): (s: Step<seq<Row>>)
    ensures s.world == w.(trace := w.trace + [Directory.GroupUsers(groupName)])
    ensures s.result.Settled()
    ensures (env.server.members(w.trace, groupName) == Answer(None))
              ==> s.result == Err(Plain("Group " + groupName + " does not exist."))
    ensures s.result.Ok? <==> env.server.members(w.trace, groupName).Answer?
                              && env.server.members(w.trace, groupName).value.Some?
    ensures s.result.Ok? ==> s.result.value == env.server.members(w.trace, groupName).value.value
  {
    var q := Members(env, w, groupName);
    match q.0
    case Fault(f) => Step(Err(Plain(f.message)), q.1)
    case Answer(None) => Step(Err(Plain("Group " + groupName + " does not exist.")), q.1)
    case Answer(Some(users)) => Step(Ok(users), q.1)
  }

  /* ---------------------------------------------------------- _addObject */

  /** The options of `addGroup` and `addOU`; `Absent` stands for an option
      not given. */
  datatype NewObject = NewObject(name: Value, location: Value, description: Value)

  /** A string given in place of the options stands for `{name: opts}`. */
  function Named(name: string): NewObject
  {
    NewObject(Str(name), Absent, Absent)
  }

  /** The full DN `_addObject` writes to. */
  function ObjectDN(env: Env, name: string, location: string): string
  {
    name + "," + location + NormalBase(env)
  }

  /** `_addObject(name, location, object)`: binds, adds the object without
      its `undefined` attributes at `name,location,baseDN`, unbinds, and
      resolves with the object less its `userPassword`. The callback tests
      the bind error rather than the add error, so a failed add still
      resolves. */
  function AddObject(env: Env, w: World, name: string, location: string, attrs: Row): (s: Step<Row>)
    ensures s.result.Settled()
    ensures var bind := env.server.status(w.trace, Bind);
            if bind.Some? then
              s == Step(Err(bind.value), w.(trace := w.trace + [Bind]))
            else
              s.world == w.(trace := w.trace + [Bind, Add(ObjectDN(env, name, location), Strip(attrs)), Unbind])
              && s.result.Ok?
    ensures s.result.Ok? ==>
              "userPassword" !in s.result.value
              && (forall k :: k in s.result.value ==> k in attrs && s.result.value[k] == attrs[k] != Absent)
              && (forall k :: k in attrs && attrs[k] != Absent && k != "userPassword" ==> k in s.result.value)
  {
    var b := Perform(env, w, Bind);
    if b.0.Some? then Step(Err(b.0.value), b.1)
    else
      var entry := Strip(attrs);
      var w1 := Issue(Issue(b.1, Add(ObjectDN(env, name, location), entry)), Unbind);
      Step(Ok(entry - {"userPassword"}), w1)
  }

  /* ------------------------------------------------- _deleteObjectByDN */

  /** `_deleteObjectByDN(dn)`: binds, deletes, unbinds; like `_addObject` it
      rejects only on a bind error. */
  function DeleteByDN(env: Env, w: World, dn: Value): (s: Step<Ack>)
    ensures s.result.Settled()
    ensures var bind := env.server.status(w.trace, Bind);
            if bind.Some? then s == Step(Err(bind.value), w.(trace := w.trace + [Bind]))
            else s == Step(Ok(Success), w.(trace := w.trace + [Bind, Delete(dn), Unbind]))
  {
    var b := Perform(env, w, Bind);
    if b.0.Some? then Step(Err(b.0.value), b.1)
    else Step(Ok(Success), Issue(Issue(b.1, Delete(dn)), Unbind))
  }

  /* --------------------------------------------------------- _modifyDN */

  /** `_modifyDN(oldDN, newDN)`: binds, renames, unbinds; a rename error
      rejects with its message only. */
  function RenameDN(env: Env, w: World, oldDN: Value, newDN: string): (s: Step<Ack>)
    ensures s.result.Settled()
    ensures var bind := env.server.status(w.trace, Bind);
            var w1 := w.(trace := w.trace + [Bind]);
            var err := env.server.status(w1.trace, ModifyDN(oldDN, newDN));
            if bind.Some? then s == Step(Err(bind.value), w1)
            else
              s.world == w.(trace := w.trace + [Bind, ModifyDN(oldDN, newDN), Unbind])
              && s.result == (if err.Some? then Err(Plain(err.value.message)) else Ok(Success))
  {
    var b := Perform(env, w, Bind);
    if b.0.Some? then Step(Err(b.0.value), b.1)
    else
      var m := Perform(env, b.1, ModifyDN(oldDN, newDN));
      var w2 := Issue(m.1, Unbind);
      if m.0.Some? then Step(Err(Plain(m.0.value.message)), w2) else Step(Ok(Success), w2)
  }

  /* ---------------------------------------------- _deleteObjectBySearch */

  /** The options `_deleteObjectBySearch` searches with. */
  const DnOnly := NoOptions.(fields := Some(["dn"]))

  /** `_deleteObjectBySearch(searchString)`: no hit and more than one hit
      reject before any delete; exactly one hit deletes that DN. */
  function DeleteBySearch(env: Env, w: World, searchString: string): (s: Step<Ack>)
    ensures s.result.Settled()
    ensures var found := SearchObjects(env, w, searchString, Some(DnOnly));
            match found.result
            case Ok(Flat(hits)) =>
              (|hits| == 0 ==> s == Step(Err(Plain("Object " + searchString + " does not exist.")), found.world))
              && (|hits| > 1 ==> s == Step(Err(Plain("More than 1 Object was returned.")), found.world))
              && (|hits| == 1 ==> s == DeleteByDN(env, found.world, Get(hits[0], "dn")))
            case Err(f) => s == Step(Err(f), found.world)
            case _ => false
  {
    var found := SearchObjects(env, w, searchString, Some(DnOnly));
    match found.result
    case Err(f) => Step(Err(f), found.world)
    case Unsettled => assert false; Step(Unsettled, found.world)
    case Ok(Keyed(_)) => assert false; Step(Unsettled, found.world)
    case Ok(Flat(hits)) =>
      if |hits| < 1 then Step(Err(Plain("Object " + searchString + " does not exist.")), found.world)
      else if |hits| > 1 then Step(Err(Plain("More than 1 Object was returned.")), found.world)
      else DeleteByDN(env, found.world, Get(hits[0], "dn"))
  }
}

=== FILE: instance.dfy ===
/** Construction of an `AD` instance (index.js): the configuration checks in
    their order, the domain and default base DN derived from the bind user,
    and the initial cache. */
module Instance {
  import opened Basics
  import opened Strings
  import opened Api
  import ParseLocation
  import Cache

  /** The configuration object handed to the constructor; `Absent` stands for
      a property that is not set. */
  datatype Options = Options(url: Value, user: Value, pass: Value, baseDN: Value)

  /** The settings an instance works with. `userObjectClass` is the
      `defaults.userObjectClass` of the configuration file merged in at
      construction. */
  datatype Settings = Settings(
    url: Value,
    user: Value,
    pass: Value,
    domain: string,
    baseDN: Value,
    userObjectClass: Value)

  datatype Ad = Ad(settings: Settings, cache: Cache.Cache)

  const ConfigRequired := "Configuration is required."
  const FieldsRequired := "The following configuration is required: {url, user, pass}."
  const ProtocolRequired := "You must specify the protocol in the url, such as ldaps://127.0.0.1."
  const DomainRequired := "The user must include the fully qualified domain name, such as joe@acme.co."

  /** `String(user).split('@')[1]`. */
  function DomainOf(user: string): string
    requires '@' in user
  {
    SplitsInTwo(user, '@');
    Split(user, '@')[1]
  }

  /** `domain.split('.').map(n => 'DC=' + n).join(',')`. */
  function DefaultBaseDN(domain: string): string
  {
    ParseLocation.BaseDN(Split(domain, '.'))
  }

  /** `new AD(config)`: the first failing check decides the error. */
  function New(config: Option<Options>, userObjectClass: Value): (r: Res<Ad>)
    ensures r.Settled()
    ensures config.None? ==> r == Err(Plain(ConfigRequired))
    ensures (config.Some? && !(Truthy(config.value.url) && Truthy(config.value.user) && Truthy(config.value.pass)))
              ==> r == Err(Plain(FieldsRequired))
    ensures r.Ok? <==>
              config.Some? && Truthy(config.value.url) && Truthy(config.value.user) && Truthy(config.value.pass)
              && Contains(Text(config.value.url), "://") && '@' in Text(config.value.user)
    ensures r.Ok? ==> r.value.cache == Cache.Initial
                      && r.value.settings.userObjectClass == userObjectClass
                      && (config.value.baseDN != Absent ==> r.value.settings.baseDN == config.value.baseDN)
  {
    match config
    case None => Err(Plain(ConfigRequired))
    case Some(o) =>
      ContainsChar(Text(o.user), '@');
      if !Truthy(o.url) || !Truthy(o.user) || !Truthy(o.pass) then Err(Plain(FieldsRequired))
      else if !Contains(Text(o.url), "://") then Err(Plain(ProtocolRequired))
      else if !Contains(Text(o.user), "@") then Err(Plain(DomainRequired))
      else
        var domain := DomainOf(Text(o.user));
        var baseDN := if o.baseDN == Absent then Str(DefaultBaseDN(domain)) else o.baseDN;
        Ok(Ad(Settings(o.url, o.user, o.pass, domain, baseDN, userObjectClass), Cache.Initial))
  }

  /** The checks run in order: a url without a protocol is reported before a
      user without a domain, and a missing field before either. */
  lemma CheckOrder(o: Options, userObjectClass: Value)
    requires Truthy(o.url) && Truthy(o.user) && Truthy(o.pass)
    ensures !Contains(Text(o.url), "://") ==> New(Some(o), userObjectClass) == Err(Plain(ProtocolRequired))
    ensures (Contains(Text(o.url), "://") && '@' !in Text(o.user))
              ==> New(Some(o), userObjectClass) == Err(Plain(DomainRequired))
  {
    ContainsChar(Text(o.user), '@');
  }

  /** For a bind user `name@a.b.c` the domain is `a.b.c` and, with no base DN
      configured, the base DN is `DC=a,DC=b,DC=c`. */
  lemma {:induction false} DerivedNames(url: string, name: string, labels: seq<string>, pass: Value, userObjectClass: Value)
    requires Contains(url, "://")
    requires '@' !in name && |labels| >= 1
    requires forall i :: 0 <= i < |labels| ==> '@' !in labels[i] && '.' !in labels[i]
    requires Truthy(pass)
    ensures var domain := Join(labels, ".");
            var r := New(Some(Options(Str(url), Str(name + "@" + domain), pass, Absent)), userObjectClass);
            r.Ok? && r.value.settings.domain == domain
            && r.value.settings.baseDN == Str(ParseLocation.BaseDN(labels))
  {
    var domain := Join(labels, ".");
    JoinFree(labels, ".", '@');
    var user := name + "@" + domain;
    assert user == name + ['@'] + domain;
    assert '@' in user by {
      assert user[|name|] == '@';
    }
    assert url != "" by {
      ContainsIffMatch(url, "://");
    }
    SplitAtFirst(name, '@', domain);
    SplitNoSeparator(domain, '@');
    assert DomainOf(user) == domain;
    SplitJoin(labels, '.');
  }
}

=== FILE: lookup.dfy ===
/** The two lookups the rest of the library is built on: `findUser`
    (src/user.js) and `findGroup` (src/group.js). They sit in a module of
    their own because the user and group operations and the modification
    helpers of src/internal/operations.js all call them. */
module Lookup {
  import opened Basics
  import opened Strings
  import opened Api
  import opened Directory
  import opened Helpers
  import Cache

  /** The name with everything from the first `@` on removed. */
  function Bare(name: string): (r: string)
    ensures '@' !in r
    ensures '@' !in name ==> r == name
  {
    if '@' in name then Split(name, '@')[0]
    else
      SplitNoSeparator(name, '@');
      name
  }

  /** The filter `findUser` searches with. */
  function UserFilter(name: string, domain: string): string
  {
    "(|(userPrincipalName=" + name + "@" + domain + ")(sAMAccountName=" + name + "))"
  }

  /** `findUser(userName, opts)`. The cache is probed with the name as
      given; on a miss the name is cut at `@`, the directory is searched with
      every membership, and the first user found (or `{}` when there is
      none) is cached, unprocessed, under the cut name. `None` is the
      `undefined` the processing can leave. */
  function FindUser(env: Env, w: World, userName: string, opts: Option<Config>): (s: Step<Option<Row>>)
    ensures s.result.Err? ==> s.world.cache == Cache.GetUser(w.cache, userName, env.now).1
    ensures var probe := Cache.GetUser(w.cache, userName, env.now);
            if probe.0.Some? then
              s.world == w.(cache := probe.1)
              && s.result == First(Processed(opts, [probe.0.value]))
            else
              s.world.trace == w.trace + [Find(UserFilter(Bare(userName), env.settings.domain), ["all"])]
    ensures s.world.cache.users.Keys <= w.cache.users.Keys + {Bare(userName)}
    ensures forall k :: k in s.world.cache.users && k != Bare(userName) ==>
              k in w.cache.users && s.world.cache.users[k] == w.cache.users[k]
    ensures s.world.cache == w.cache.(users := s.world.cache.users)
    ensures opts.None? ==> s.result.Settled()
    ensures opts.None? && s.result.Ok? ==> s.result.value.Some?
    ensures var probe := Cache.GetUser(w.cache, userName, env.now);
            var reply := env.server.find(w.trace, UserFilter(Bare(userName), env.settings.domain), ["all"]);
            probe.0.None? && reply.Fault? ==>
              s.result == Err(reply.failure) && s.world.cache == probe.1
  {
    var probe := Cache.GetUser(w.cache, userName, env.now);
    var w1 := w.(cache := probe.1);
    if probe.0.Some? then Step(First(Processed(opts, [probe.0.value])), w1)
    else
      var name := Bare(userName);
      var q := Query(env, w1, UserFilter(name, env.settings.domain), ["all"]);
      var w2 := q.1;
      match q.0
      case Fault(f) => Step(Err(f), w2)
      case Answer(found) =>
        var users := if found.Some? then ListOf(found.value, "users") else None;
        if users.None? || |users.value| < 1 then
          Step(Ok(Some(map[])), w2.(cache := Cache.SetUser(w2.cache, name, map[], env.now)))
        else
          Step(First(Processed(opts, users.value)),
               w2.(cache := Cache.SetUser(w2.cache, name, users.value[0], env.now)))
  }

  /** The users a directory answer lists, if any. */
  function FoundUsers(reply: Reply<Option<Mapping>>): seq<Row>
  {
    if reply.Answer? && reply.value.Some? && ListOf(reply.value.value, "users").Some?
    then ListOf(reply.value.value, "users").value
    else []
  }

  /** On a miss `findUser` caches what it found under the cut name: the
      first user as the directory gave it, or `{}` (negative caching), and
      returns the first processed user or `{}`. */
  lemma FindUserMiss(env: Env, w: World, userName: string, opts: Option<Config>)
    requires Cache.GetUser(w.cache, userName, env.now).0.None?
    requires env.server.find(w.trace, UserFilter(Bare(userName), env.settings.domain), ["all"]).Answer?
    ensures var s := FindUser(env, w, userName, opts);
            var users := FoundUsers(env.server.find(w.trace, UserFilter(Bare(userName), env.settings.domain), ["all"]));
            Bare(userName) in s.world.cache.users
            && s.world.cache.users[Bare(userName)] == Cache.Entry(env.now, if |users| == 0 then map[] else users[0])
            && (|users| == 0 ==> s.result == Ok(Some(map[])))
            && (|users| > 0 && opts.None? ==> s.result == Ok(Some(users[0])))
            && (|users| > 0 && opts.Some? ==>
                  if Admissible(opts.value, users) then s.result == Ok(FirstOf(Process(opts, users)))
                  else s.result.Unsettled?)
  {
  }

  /** The first row of a list, `None` for the `undefined` an empty list gives. */
  function FirstOf(rows: seq<Row>): (r: Option<Row>)
    ensures r.Some? <==> |rows| > 0
    ensures r.Some? ==> r.value == rows[0]
  {
    if |rows| > 0 then Some(rows[0]) else None
  }

  /** A name that was looked up once is answered from the cache within the
      expiration, with no directory call, whether or not the user was found. */
  lemma FindUserCached(env: Env, w: World, userName: string)
    requires '@' !in userName
    requires w.cache.enabled && w.cache.expiration >= 0
    requires Cache.GetUser(w.cache, userName, env.now).0.None?
    requires env.server.find(w.trace, UserFilter(userName, env.settings.domain), ["all"]).Answer?
    ensures var s1 := FindUser(env, w, userName, None);
            var s2 := FindUser(env, s1.world, userName, None);
            s2.world.trace == s1.world.trace && s2.result == s1.result
  {
    FindUserMiss(env, w, userName, None);
  }

  /** A name holding `@` is cached under its cut form, so probing with the
      full name again misses and searches the directory again. */
  lemma FindUserFullNameMisses(env: Env, w: World, name: string, domain: string)
    requires '@' !in name
    requires forall k :: k in w.cache.users ==> '@' !in k
    ensures var s := FindUser(env, w, name + "@" + domain, None);
            (forall k :: k in s.world.cache.users ==> '@' !in k)
            && Cache.GetUser(s.world.cache, name + "@" + domain, env.now).0.None?
  {
    var full := name + "@" + domain;
    assert full[|name|] == '@';
    FindUserKeys(env, w, full, None);
  }

  /** `findUser` writes no cache key that holds an `@`. */
  lemma FindUserKeys(env: Env, w: World, userName: string, opts: Option<Config>)
    requires forall k :: k in w.cache.users ==> '@' !in k
    ensures forall k :: k in FindUser(env, w, userName, opts).world.cache.users ==> '@' !in k
  {
  }

  /* ---------------------------------------------------------- findGroup */

  function GroupFilter(name: string): string
  {
    "(|(cn=" + name + "))"
  }

  /** The groups a directory answer lists, if any. */
  function FoundGroups(reply: Reply<Option<Mapping>>): seq<Row>
  {
    if reply.Answer? && reply.value.Some? && ListOf(reply.value.value, "groups").Some?
    then ListOf(reply.value.value, "groups").value
    else []
  }

  /** `findGroup(groupName, opts)`: the name is cut at `@`; a blank name
      rejects before any search; otherwise the first processed group, or
      `{}` when there is none. Nothing is cached. */
  function FindGroup(env: Env, w: World, groupName: string, opts: Option<Config>): (s: Step<Option<Row>>)
    ensures s.world.cache == w.cache
    ensures Blank(Bare(groupName)) ==>
              s == Step(Err(Plain(Bare(groupName) + " is not a valid Group name.")), w)
    ensures !Blank(Bare(groupName)) ==>
              s.world.trace == w.trace + [Find(GroupFilter(Bare(groupName)), [])]
    ensures opts.None? && s.result.Ok? ==> s.result.value.Some?
    ensures var reply := env.server.find(w.trace, GroupFilter(Bare(groupName)), []);
            var groups := FoundGroups(reply);
            !Blank(Bare(groupName)) ==>
              (reply.Fault? ==> s.result == Err(reply.failure))
              && (reply.Answer? && |groups| == 0 ==> s.result == Ok(Some(map[])))
              && (reply.Answer? && |groups| > 0 && opts.None? ==> s.result == Ok(Some(groups[0])))
              && (reply.Answer? && |groups| > 0 && opts.Some? ==>
                    if Admissible(opts.value, groups) then s.result == Ok(FirstOf(Process(opts, groups)))
                    else s.result.Unsettled?)
  {
    var name := Bare(groupName);
    if Blank(name) then Step(Err(Plain(name + " is not a valid Group name.")), w)
    else
      var q := Query(env, w, GroupFilter(name), []);
      match q.0
      case Fault(f) => Step(Err(f), q.1)
      case Answer(found) =>
        var groups := if found.Some? then ListOf(found.value, "groups") else None;
        if groups.None? || |groups.value| < 1 then Step(Ok(Some(map[])), q.1)
        else Step(First(Processed(opts, groups.value)), q.1)
  }

  /** With options, a group `findGroup` returns is `{}` when none is listed,
      and otherwise the cleaned shape of a listed group that passes the
      filters and the query. */
  lemma FindGroupOrigin(env: Env, w: World, groupName: string, c: Config)
    requires FindGroup(env, w, groupName, Some(c)).result.Ok?
    requires FindGroup(env, w, groupName, Some(c)).result.value.Some?
    ensures var g := FindGroup(env, w, groupName, Some(c)).result.value.value;
            var groups := FoundGroups(env.server.find(w.trace, GroupFilter(Bare(groupName)), []));
            (|groups| == 0 ==> g == map[])
            && (|groups| > 0 ==> exists x :: x in groups && Selected(c, x) && g == Strip(Shape(c, x)))
  {
    var groups := FoundGroups(env.server.find(w.trace, GroupFilter(Bare(groupName)), []));
    if |groups| > 0 {
      ProcessOrigin(c, groups);
      assert Process(Some(c), groups)[0] in Process(Some(c), groups);
    }
  }
}

=== FILE: operations.dfy ===
/** The modification helpers (src/internal/operations.js): one LDAP modify
    on a DN, and the same on the DN of a user or a group found by name. */
module Operations {
  import opened Basics
  import opened Api
  import opened Directory
  import opened Helpers
  import opened Lookup
  import Cache

  /** A successful call ended with a modify sending exactly `change`, then
      an unbind. */
  predicate Wrote(s: Step<Ack>, change: Change)
  {
    s.result.Ok? ==>
      |s.world.trace| >= 2
      && s.world.trace[|s.world.trace| - 2].Modify?
      && s.world.trace[|s.world.trace| - 2].changes == [change]
      && s.world.trace[|s.world.trace| - 1] == Unbind
  }

  /** `_operation(dn, change)`: binds, sends the single change as a
      one-element list, unbinds, and resolves `{success: true}` unless the
      bind or the modify failed, in which case it rejects with that error. */
  function Operation(env: Env, w: World, dn: Value, change: Change): (s: Step<Ack>)
    ensures s.result.Settled()
    ensures var bind := env.server.status(w.trace, Bind);
            var w1 := w.(trace := w.trace + [Bind]);
            var err := env.server.status(w1.trace, Modify(dn, [change]));
            if bind.Some? then s == Step(Err(bind.value), w1)
            else
              s.world == w.(trace := w.trace + [Bind, Modify(dn, [change]), Unbind])
              && s.result == (if err.Some? then Err(err.value) else Ok(Success))
  {
    var b := Perform(env, w, Bind);
    if b.0.Some? then Step(Err(b.0.value), b.1)
    else
      var m := Perform(env, b.1, Modify(dn, [change]));
      var w2 := Issue(m.1, Unbind);
      if m.0.Some? then Step(Err(m.0.value), w2) else Step(Ok(Success), w2)
  }

  /** The name `_operationByUser` looks up: `userName@domain`. */
  function FullName(env: Env, userName: string): string
  {
    userName + "@" + env.settings.domain
  }

  /** `_operationByUser(userName, change)`: looks the user up by its full
      name; when it has no DN, rejects before any modify; otherwise modifies
      its DN. The chain goes on after the rejection, so the cache key
      `users[userName@domain]` is deleted both then and after a successful
      modify. */
  function OperationByUser(env: Env, w: World, userName: string, change: Change): (s: Step<Ack>)
    ensures s.result.Settled()
    ensures w.trace <= s.world.trace
    ensures s.result.Ok? ==> FullName(env, userName) !in s.world.cache.users
    ensures Wrote(s, change)
    ensures s.world.cache == w.cache.(users := s.world.cache.users)
    ensures var found := FindUser(env, w, FullName(env, userName), None);
            match found.result
            case Ok(u) =>
              var dn := if u.Some? then Get(u.value, "dn") else Absent;
              if !Truthy(dn) then
                s == Step(Err(Plain("User " + FullName(env, userName) + " does not exist.")),
                          found.world.(cache := Cache.ForgetUser(found.world.cache, FullName(env, userName))))
              else
                var op := Operation(env, found.world, dn, change);
                if op.result.Ok? then
                  s == Step(Ok(Success), op.world.(cache := Cache.ForgetUser(op.world.cache, FullName(env, userName))))
                else s == op
            case Err(f) => s == Step(Err(f), found.world)
            case Unsettled => false
  {
    var full := FullName(env, userName);
    var found := FindUser(env, w, full, None);
    match found.result
    case Err(f) => Step(Err(f), found.world)
    case Unsettled => assert false; Step(Unsettled, found.world)
    case Ok(u) =>
      var dn := if u.Some? then Get(u.value, "dn") else Absent;
      if !Truthy(dn) then
        Step(Err(Plain("User " + full + " does not exist.")),
             found.world.(cache := Cache.ForgetUser(found.world.cache, full)))
      else
        var op := Operation(env, found.world, dn, change);
        if op.result.Ok? then
          Step(Ok(Success), op.world.(cache := Cache.ForgetUser(op.world.cache, full)))
        else op
  }

  /** `_operationByGroup(groupName, change)`: an empty group lookup rejects
      before any modify; otherwise the group's DN is modified. */
  function OperationByGroup(env: Env, w: World, groupName: string, change: Change): (s: Step<Ack>)
    ensures s.result.Settled()
    ensures Wrote(s, change)
    ensures var found := FindGroup(env, w, groupName, None);
            match found.result
            case Ok(g) =>
              if g.None? || g.value == map[] then
                s == Step(Err(Plain("Group " + groupName + " does not exist.")), found.world)
              else s == Operation(env, found.world, Get(g.value, "dn"), change)
            case Err(f) => s == Step(Err(f), found.world)
            case Unsettled => false
  {
    var found := FindGroup(env, w, groupName, None);
    match found.result
    case Err(f) => Step(Err(f), found.world)
    case Unsettled => assert false; Step(Unsettled, found.world)
    case Ok(g) =>
      if g.None? || g.value == map[] then
        Step(Err(Plain("Group " + groupName + " does not exist.")), found.world)
      else Operation(env, found.world, Get(g.value, "dn"), change)
  }

  /** `_groupAddOperation(groupName, modification)`: on success the group's
      DN was sent the modification as an `add`. */
  function GroupAddOperation(env: Env, w: World, groupName: string, attribute: string, values: seq<Value>): (s: Step<Ack>)
    ensures Wrote(s, Change(AddValues, attribute, values))
    ensures var found := FindGroup(env, w, groupName, None);
            s.result.Ok? ==>
              found.result.Ok? && found.result.value.Some?
              && s.world.trace == found.world.trace
                   + [Bind, Modify(Get(found.result.value.value, "dn"), [Change(AddValues, attribute, values)]), Unbind]
  {
    OperationByGroup(env, w, groupName, Change(AddValues, attribute, values))
  }

  /** `_groupDeleteOperation(groupName, modification)`: on success the
      group's DN was sent the modification as a `delete`. */
  function GroupDeleteOperation(env: Env, w: World, groupName: string, attribute: string, values: seq<Value>): (s: Step<Ack>)
    ensures Wrote(s, Change(DeleteValues, attribute, values))
    ensures var found := FindGroup(env, w, groupName, None);
            s.result.Ok? ==>
              found.result.Ok? && found.result.value.Some?
              && s.world.trace == found.world.trace
                   + [Bind, Modify(Get(found.result.value.value, "dn"), [Change(DeleteValues, attribute, values)]), Unbind]
  {
    OperationByGroup(env, w, groupName, Change(DeleteValues, attribute, values))
  }

  /** `_userReplaceOperation(userName, modification)`: on success the DN of
      the user found under `userName@domain` was sent the modification as a
      `replace`. */
  function UserReplaceOperation(env: Env, w: World, userName: string, attribute: string, values: seq<Value>): (s: Step<Ack>)
    ensures Wrote(s, Change(ReplaceValues, attribute, values))
    ensures var found := FindUser(env, w, FullName(env, userName), None);
            s.result.Ok? ==>
              found.result.Ok? && found.result.value.Some?
              && s.world.trace == found.world.trace
                   + [Bind, Modify(Get(found.result.value.value, "dn"), [Change(ReplaceValues, attribute, values)]), Unbind]
  {
    OperationByUser(env, w, userName, Change(ReplaceValues, attribute, values))
  }

  /* ---------------------------------------------------------- lemmas */

  /** Whether a trace holds a modify. */
  predicate Modifies(trace: seq<Call>)
  {
    exists i :: 0 <= i < |trace| && trace[i].Modify?
  }

  /** A user lookup issues no modify. */
  lemma FindUserNoModify(env: Env, w: World, userName: string, opts: Option<Config>)
    requires !Modifies(w.trace)
    ensures !Modifies(FindUser(env, w, userName, opts).world.trace)
  {
    var s := FindUser(env, w, userName, opts);
    forall i | 0 <= i < |s.world.trace| ensures !s.world.trace[i].Modify? {
      if i >= |w.trace| {
        assert s.world.trace[i].Find?;
      }
    }
  }

  /** A user that cannot be found is never modified, and a successful
      operation issues exactly one modify, of the user's DN with the change. */
  lemma OperationByUserGuard(env: Env, w: World, userName: string, change: Change)
    requires !Modifies(w.trace)
    ensures var s := OperationByUser(env, w, userName, change);
            var found := FindUser(env, w, FullName(env, userName), None);
            (found.result.Ok? && (found.result.value.None? || !Truthy(Get(found.result.value.value, "dn"))))
              ==> !Modifies(s.world.trace) && s.result.Err?
    ensures var s := OperationByUser(env, w, userName, change);
            var found := FindUser(env, w, FullName(env, userName), None);
            s.result.Ok? ==>
              s.world.trace == found.world.trace + [Bind, Modify(Get(found.result.value.value, "dn"), [change]), Unbind]
  {
    FindUserNoModify(env, w, FullName(env, userName), None);
  }

  /** The key `_operationByUser` deletes is never one `findUser` writes: when
      no cached user key holds an `@`, the entry its own lookup stored under
      the bare name survives a successful modify, holding the record as it
      was before the change. */
  lemma StaleUserEntry(env: Env, w: World, userName: string, change: Change)
    requires '@' !in userName
    requires forall k :: k in w.cache.users ==> '@' !in k
    requires OperationByUser(env, w, userName, change).result.Ok?
    ensures var s := OperationByUser(env, w, userName, change);
            var found := FindUser(env, w, FullName(env, userName), None);
            userName in s.world.cache.users
            && s.world.cache.users[userName] == found.world.cache.users[userName]
            && s.world.cache.users[userName].value == found.result.value.value
  {
    var full := FullName(env, userName);
    assert full[|userName|] == '@';
    assert Bare(full) == userName by {
      assert full == userName + ['@'] + env.settings.domain;
      Strings.SplitAtFirst(userName, '@', env.settings.domain);
    }
    FindUserFullNameMisses(env, w, userName, env.settings.domain);
    var found := FindUser(env, w, full, None);
    var q := env.server.find(w.trace, UserFilter(userName, env.settings.domain), ["all"]);
    assert q.Answer?;
    FindUserMiss(env, w, full, None);
  }

  /** A group that cannot be found is never modified. */
  lemma OperationByGroupGuard(env: Env, w: World, groupName: string, change: Change)
    requires !Modifies(w.trace)
    ensures var s := OperationByGroup(env, w, groupName, change);
            var found := FindGroup(env, w, groupName, None);
            (found.result.Ok? && found.result.value == Some(map[]))
              ==> !Modifies(s.world.trace)
                  && s.result == Err(Plain("Group " + groupName + " does not exist."))
  {
    var found := FindGroup(env, w, groupName, None);
    forall i | 0 <= i < |found.world.trace| ensures !found.world.trace[i].Modify? {
      if i >= |w.trace| {
        assert found.world.trace[i].Find?;
      }
    }
  }
}

=== FILE: ous.dfy ===
/** The organizational-unit operations of the library (src/ou.js): listing,
    lookup, existence, creation and removal. */
module Ous {
  import opened Basics
  import opened Strings
  import opened Api
  import opened Directory
  import opened Helpers
  import ParseLocation

  /** The first RDN of a row's DN, lower-cased: `String(dn).split(',')[0]`. */
  function FirstRdn(row: Row): string
  {
    Lower(Split(Text(Get(row, "dn")), ',')[0])
  }

  /** `results.other` of a raw search answer, when it is a list. */
  function Others(r: Rows): Option<seq<Row>>
  {
    if r.Keyed? then ListOf(r.members, "other") else None
  }

  /** Whether an answer holds an `other` list at all. */
  predicate HasOthers(reply: Reply<Option<Mapping>>)
  {
    Found(reply) && ListOf(reply.value.value, "other").Some?
  }

  /** The objects of an answer's `other` list, none when the answer has no
      such list. */
  function OthersIn(reply: Reply<Option<Mapping>>): seq<Row>
  {
    if HasOthers(reply) then ListOf(reply.value.value, "other").value else []
  }

  /** Whether an object's first RDN names an organizational unit. */
  predicate IsOu(row: Row)
  {
    Contains(FirstRdn(row), "ou=")
  }

  /** `getAllOUs(opts)`: the objects of an `OU=*` search whose first RDN
      holds `ou=`, processed with the options. The processing runs inside a
      `.then` whose `.catch` rejects, so options it throws on reject. */
  function GetAllOUs(env: Env, w: World, opts: Option<Config>): (s: Step<seq<Row>>)
    ensures s.result.Settled()
    ensures s.world == w.(trace := w.trace + [Find("OU=*", [])])
    ensures var reply := env.server.find(w.trace, "OU=*", []);
            reply.Fault? ==> s.result == Err(reply.failure)
    ensures var reply := env.server.find(w.trace, "OU=*", []);
            (opts.None? && reply.Answer?) ==>
              s.result.Ok? && forall x :: x in s.result.value <==> x in OthersIn(reply) && IsOu(x)
    ensures var reply := env.server.find(w.trace, "OU=*", []);
            reply.Answer? && !HasOthers(reply) ==> s.result == Ok([])
    ensures var reply := env.server.find(w.trace, "OU=*", []);
            var ous := Select(OthersIn(reply), IsOu);
            opts.Some? && HasOthers(reply) ==>
              if Admissible(opts.value, ous) then s.result == Ok(Process(opts, ous))
              else s.result == Err(ProcessingError)
  {
    var found := SearchObjects(env, w, "OU=*", None);
    match found.result
    case Err(f) => Step(Err(f), found.world)
    case Unsettled => assert false; Step(Unsettled, found.world)
    case Ok(r) =>
      match Others(r)
      case None => Step(Ok([]), found.world)
      case Some(others) =>
        var ous := Select(others, IsOu);
        if opts.Some? && !Admissible(opts.value, ous) then Step(Err(ProcessingError), found.world)
        else Step(Ok(Process(opts, ous)), found.world)
  }

  /** A sort without an order makes `processResults` throw before it looks
      at a row, so `getAllOUs` rejects whenever the answer has a list. */
  lemma GetAllOUsUnorderedSort(env: Env, w: World, opts: Option<Config>)
    requires opts.Some? && opts.value.sort.Some? && opts.value.order.None?
    requires HasOthers(env.server.find(w.trace, "OU=*", []))
    ensures GetAllOUs(env, w, opts).result == Err(ProcessingError)
  {
  }

  /** `findOU(ouName)`: the first object of an `OU=name` search whose first
      RDN is `ou=name`, ignoring case. */
  function FindOU(env: Env, w: World, ouName: string): (s: Step<Option<Row>>)
    ensures s.result.Settled()
    ensures s.world == w.(trace := w.trace + [Find("OU=" + ouName, [])])
    ensures var reply := env.server.find(w.trace, "OU=" + ouName, []);
            (reply.Fault? ==> s.result == Err(reply.failure))
            && (reply.Answer? ==>
                  s.result.Ok?
                  && (s.result.value.Some? ==>
                        exists i :: 0 <= i < |OthersIn(reply)| && OthersIn(reply)[i] == s.result.value.value
                          && FirstRdn(s.result.value.value) == Lower("OU=" + ouName)
                          && forall j :: 0 <= j < i ==> FirstRdn(OthersIn(reply)[j]) != Lower("OU=" + ouName))
                  && (s.result.value.None? <==>
                        forall x :: x in OthersIn(reply) ==> FirstRdn(x) != Lower("OU=" + ouName)))
  {
    var search := "OU=" + ouName;
    var found := SearchObjects(env, w, search, None);
    match found.result
    case Err(f) => Step(Err(f), found.world)
    case Unsettled => assert false; Step(Unsettled, found.world)
    case Ok(r) =>
      match Others(r)
      case None => Step(Ok(None), found.world)
      case Some(others) =>
        var hits := Select(others, x => FirstRdn(x) == Lower(search));
        if |hits| > 0 then
          SelectFirst(others, x => FirstRdn(x) == Lower(search));
          assert others == OthersIn(env.server.find(w.trace, search, []));
          Step(Ok(Some(hits[0])), found.world)
        else
          Step(Ok(None), found.world)
  }

  /** `ouExists(ouName)`: a failed lookup is not handled, so the promise never
      settles; otherwise whether the lookup found an object. */
  function OuExists(env: Env, w: World, ouName: string): (s: Step<bool>)
    ensures s.world == FindOU(env, w, ouName).world
    ensures s.result.Unsettled? <==> FindOU(env, w, ouName).result.Err?
    ensures var reply := env.server.find(w.trace, "OU=" + ouName, []);
            s.result == Ok(true) <==>
              reply.Answer? && exists x :: x in OthersIn(reply) && FirstRdn(x) == Lower("OU=" + ouName)
    ensures FindOU(env, w, ouName).result.Ok? ==> s.result.Ok?
  {
    var found := FindOU(env, w, ouName);
    match found.result
    case Err(_) => Step(Unsettled, found.world)
    case Unsettled => assert false; Step(Unsettled, found.world)
    case Ok(o) => Step(Ok(o.Some?), found.world)
  }

  /** The entry `addOU` writes. */
  function OuEntry(spec: NewObject): Row
  {
    map["ou" := spec.name, "description" := spec.description, "objectClass" := Str("organizationalunit")]
  }

  /** `addOU(opts)`: adds an organizational unit named by `OU=name` under the
      parsed location. */
  function AddOU(env: Env, w: World, spec: NewObject): (s: Step<Row>)
    ensures s.result.Settled()
    ensures s.world.cache == w.cache
    ensures s.result.Ok? <==> env.server.status(w.trace, Bind).None?
    ensures s.result.Ok? ==>
              s.world.trace == w.trace + [Bind, Add(ObjectDN(env, "OU=" + Text(spec.name), LocationOf(spec.location)),
                                                  Strip(OuEntry(spec))), Unbind]
              && s.result.value == Strip(OuEntry(spec))
              && Get(s.result.value, "objectClass") == Str("organizationalunit")
  {
    AddObject(env, w, "OU=" + Text(spec.name), LocationOf(spec.location), OuEntry(spec))
  }

  /** An organizational unit added under a location path is written at
      `OU=name`, then the path encoded as relative DN components, then the
      base DN; the description, when absent, is not sent. */
  lemma AddOUDn(env: Env, w: World, name: string, location: string)
    requires env.server.status(w.trace, Bind).None?
    requires location != ""
    ensures var s := AddOU(env, w, NewObject(Str(name), Str(location), Absent));
            s.world.trace[|w.trace| + 1].Add?
            && s.world.trace[|w.trace| + 1].target
                 == "OU=" + name + "," + ParseLocation.Encode(location) + NormalBase(env)
            && s.result == Ok(map["ou" := Str(name), "objectClass" := Str("organizationalunit")])
  {
    assert Strip(OuEntry(NewObject(Str(name), Str(location), Absent)))
             == map["ou" := Str(name), "objectClass" := Str("organizationalunit")];
  }

  /** `removeOU(ouName)`: the single object an `OU=name` search finds is
      deleted; none or several reject before any delete. */
  function RemoveOU(env: Env, w: World, ouName: string): (s: Step<Ack>)
    ensures s.result.Settled()
    ensures s.result.Ok? ==>
              exists dn :: s.world.trace == w.trace + [Find("OU=" + ouName, []), Bind, Delete(dn), Unbind]
    ensures var reply := env.server.find(w.trace, "OU=" + ouName, []);
            reply == Answer(None) ==>
              s == Step(Err(Plain("Object OU=" + ouName + " does not exist.")),
                        w.(trace := w.trace + [Find("OU=" + ouName, [])]))
  {
    DeleteBySearch(env, w, "OU=" + ouName)
  }
}

=== FILE: parse_location.dfy ===
/** The location notation of the library: a `/`-separated path of
    organizational units, outermost first, in which a segment written `!x`
    names a container `CN=x` rather than an `OU=x`. `Encode` turns such a
    path into the relative distinguished-name prefix that is written in
    front of the base DN; `Decode` is how `getUserLocation` reads a path
    back out of a user's full DN. */
module ParseLocation {
  import opened Strings

  /** One path segment as a DN component. */
  function Component(seg: string): (r: string)
    ensures |seg| > 0 && seg[0] == '!' ==> r == "CN=" + seg[1..]
    ensures !(|seg| > 0 && seg[0] == '!') ==> r == "OU=" + seg
  {
    if |seg| > 0 && seg[..1] == "!" then ReplaceFirst(seg, "!", "CN=") else "OU=" + seg
  }

  /** The components of a path, innermost first. */
  function Components(segs: seq<string>): (r: seq<string>)
    ensures |r| == |segs|
    ensures forall i :: 0 <= i < |segs| ==> r[i] == Component(segs[|segs| - 1 - i])
  {
    if |segs| == 0 then [] else Components(segs[1..]) + [Component(segs[0])]
  }

  /** `parseLocation(location)`; the empty string stands for every falsy location. */
  function Encode(location: string): (dn: string)
    ensures location == "" ==> dn == ""
    ensures location != "" ==> |dn| > 0 && dn[|dn| - 1] == ','
  {
    if location == "" then ""
    else Join(Components(Split(ReplaceChar(location, '\\', '/'), '/')), ",") + ","
  }

  /** The base DN built from domain labels: `DC=a,DC=b,...`. */
  function BaseDN(labels: seq<string>): string
  {
    Join(Prefixed("DC=", labels), ",")
  }

  /** The upper-case attribute names of a DN in lower case, as the decoder first does. */
  function LowerNames(s: string): string
  {
    ReplaceAll(ReplaceAll(ReplaceAll(s, "DC=", "dc="), "CN=", "cn="), "OU=", "ou=")
  }

  /** The location `getUserLocation` reports for a user's DN: the components
      between the user's own RDN and the first domain component, outermost
      first, with `cn=` written `!` and `ou=` dropped. */
  function Decode(dn: string): (location: string)
  {
    var left := BeforeFirst(LowerNames(dn), ",dc=");
    var pieces := Split(left, ',');
    ReplaceAll(ReplaceAll(Join(Reverse(pieces[1..]), "/"), "cn=", "!"), "ou=", "")
  }

  /* ------------------------------------------------------------- encoding */

  /** Backslashes are path separators exactly like slashes. */
  lemma EncodeBackslash(location: string)
    ensures Encode(location) == Encode(ReplaceChar(location, '\\', '/'))
  {
    var once := ReplaceChar(location, '\\', '/');
    assert ReplaceChar(once, '\\', '/') == once;
    if location != "" {
      assert once[0] == (if location[0] == '\\' then '/' else location[0]);
    }
  }

  /** A comma-free path encodes to one component per segment, innermost
      first, that a split at the commas recovers. */
  lemma EncodeComponents(location: string)
    requires location != "" && ',' !in location
    ensures var dn := Encode(location);
            var segs := Split(ReplaceChar(location, '\\', '/'), '/');
            Split(dn[..|dn| - 1], ',') == Components(segs)
  {
    var slashed := ReplaceChar(location, '\\', '/');
    var segs := Split(slashed, '/');
    EncodeBody(location);
    SplitFree(slashed, '/', ',');
    ComponentsFree(segs, ',');
    SplitJoin(Components(segs), ',');
  }

  /** The encoding of a non-empty path is the joined components and a comma. */
  lemma EncodeBody(location: string)
    requires location != ""
    ensures var dn := Encode(location);
            dn[..|dn| - 1] == Join(Components(Split(ReplaceChar(location, '\\', '/'), '/')), ",")
  {
  }

  /** No piece of a split holds a character the string lacks. */
  lemma {:induction false} SplitFree(s: string, c: char, d: char)
    requires d !in s
    ensures forall i :: 0 <= i < |Split(s, c)| ==> d !in Split(s, c)[i]
    decreases |s|
  {
    if |s| > 0 {
      SplitFree(s[1..], c, d);
    }
  }

  /** Components add only the letters of `CN=` and `OU=` to their segments. */
  lemma ComponentsFree(segs: seq<string>, d: char)
    requires d != 'C' && d != 'N' && d != 'O' && d != 'U' && d != '='
    requires forall i :: 0 <= i < |segs| ==> d !in segs[i]
    ensures forall i :: 0 <= i < |segs| ==> d !in Components(segs)[i]
  {
    forall i | 0 <= i < |segs| ensures d !in Components(segs)[i] {
      var seg := segs[|segs| - 1 - i];
      if |seg| > 0 && seg[0] == '!' {
        assert forall ch :: ch in seg[1..] ==> ch in seg;
      }
    }
  }

  /* ------------------------------------------------------------- decoding */

  /** The path segments `Encode` works from, or none for the empty path. */
  function Segments(location: string): seq<string>
  {
    if location == "" then [] else Split(ReplaceChar(location, '\\', '/'), '/')
  }

  /** A user's DN as the library writes it: its own `CN=` component, the
      encoded location, and the base DN. */
  lemma {:induction false} DnComponents(path: string, leaf: string, labels: seq<string>)
    requires |labels| >= 1
    ensures "CN=" + leaf + "," + Encode(path) + BaseDN(labels)
            == Join(["CN=" + leaf] + Components(Segments(path)) + Prefixed("DC=", labels), ",")
  {
    var dcs := Prefixed("DC=", labels);
    var comps := Components(Segments(path));
    if path == "" {
      assert comps == [];
      assert ["CN=" + leaf] + comps + dcs == ["CN=" + leaf] + dcs;
      JoinCons("CN=" + leaf, dcs, ",");
    } else {
      assert |comps| >= 1;
      JoinCons("CN=" + leaf, comps, ",");
      JoinAppend(["CN=" + leaf] + comps, dcs, ",");
    }
  }

  /** The three per-component replacements the decoder starts with. */
  function LowerEach(xs: seq<string>): (r: seq<string>)
    ensures |r| == |xs|
    ensures forall i :: 0 <= i < |xs| ==> r[i] == LowerNames(xs[i])
  {
    ReplaceEach(ReplaceEach(ReplaceEach(xs, "DC=", "dc="), "CN=", "cn="), "OU=", "ou=")
  }

  lemma LowerNamesJoin(xs: seq<string>)
    ensures LowerNames(Join(xs, ",")) == Join(LowerEach(xs), ",")
  {
    ReplaceJoin(xs, ',', "DC=", "dc=");
    ReplaceJoin(ReplaceEach(xs, "DC=", "dc="), ',', "CN=", "cn=");
    ReplaceJoin(ReplaceEach(ReplaceEach(xs, "DC=", "dc="), "CN=", "cn="), ',', "OU=", "ou=");
  }

  /** The lower-case spelling of one of the three attribute heads. */
  function LowerHeadOf(head: string): string
  {
    if head == "CN=" then "cn=" else if head == "OU=" then "ou=" else "dc="
  }

  /** Lowering a component whose value holds no `=` touches only its head. */
  lemma LowerHead(head: string, x: string)
    requires head == "CN=" || head == "OU=" || head == "DC="
    requires '=' !in x
    ensures LowerNames(head + x) == LowerHeadOf(head) + x
  {
    ReplaceHead(head, x, "DC=", "dc=");
    var h1 := if head == "DC=" then "dc=" else head;
    ReplaceHead(h1, x, "CN=", "cn=");
    var h2 := if h1 == "CN=" then "cn=" else h1;
    ReplaceHead(h2, x, "OU=", "ou=");
  }

  /** `,dc=` found right at the front of `",` + s`. */
  lemma StopsAtDc(s: string)
    requires |s| >= 3 && s[..3] == "dc="
    ensures BeforeFirst("," + s, ",dc=") == ""
  {
    assert ("," + s)[..4] == ",dc=";
  }

  /** A comma followed by a component that is not `dc=...` does not start `,dc=`. */
  lemma CommaThenNotDc(s: string)
    requires |s| >= 3 && s[..3] != "dc="
    ensures ("," + s)[..4] != ",dc="
  {
    assert ("," + s)[..4][1..] == s[..3];
    assert ",dc="[1..] == "dc=";
  }

  /** Any other component after the comma is passed over. */
  lemma PassesComma(s: string)
    requires |s| >= 3 && s[..3] != "dc="
    ensures BeforeFirst("," + s, ",dc=") == "," + BeforeFirst(s, ",dc=")
  {
    var t := "," + s;
    CommaThenNotDc(s);
    BeforeFirstStep(t, ",dc=");
    assert t[1..] == s;
  }

  /** The components the decoder keeps stop at the first `dc=` component
      that follows a comma. */
  lemma {:induction false} BeforeFirstJoin(xs: seq<string>, dcs: seq<string>)
    requires |xs| >= 1 && |dcs| >= 1
    requires forall i :: 0 <= i < |xs| ==> ',' !in xs[i]
    requires forall i :: 1 <= i < |xs| ==> |xs[i]| >= 3 && xs[i][..3] != "dc="
    requires |dcs[0]| >= 3 && dcs[0][..3] == "dc="
    ensures BeforeFirst(Join(xs + dcs, ","), ",dc=") == Join(xs, ",")
    decreases |xs|
  {
    var rest := xs[1..] + dcs;
    var r := Join(rest, ",");
    assert xs + dcs == [xs[0]] + rest;
    JoinCons(xs[0], rest, ",");
    assert Join(xs + dcs, ",") == xs[0] + ("," + r);
    BeforeFirstSkips(xs[0], "," + r, ",dc=");
    JoinStartsWith(rest, ",");
    if |xs| == 1 {
      assert rest == dcs;
      assert r[..3] == dcs[0][..3];
      StopsAtDc(r);
    } else {
      assert rest[0] == xs[1];
      assert r[..3] == xs[1][..3];
      PassesComma(r);
      BeforeFirstJoin(xs[1..], dcs);
      JoinCons(xs[0], xs[1..], ",");
      assert xs == [xs[0]] + xs[1..];
    }
  }

  /** A segment's component as it reads once lowered. */
  function Marked(seg: string): string
  {
    if |seg| > 0 && seg[0] == '!' then "cn=" + seg[1..] else "ou=" + seg
  }

  /** The lowered components of a path, innermost first. */
  function Marks(segs: seq<string>): (r: seq<string>)
    ensures |r| == |segs|
    ensures forall i :: 0 <= i < |segs| ==> r[i] == Marked(segs[|segs| - 1 - i])
  {
    if |segs| == 0 then [] else Marks(segs[1..]) + [Marked(segs[0])]
  }

  lemma LowerComponents(segs: seq<string>)
    requires forall i :: 0 <= i < |segs| ==> '=' !in segs[i]
    ensures LowerEach(Components(segs)) == Marks(segs)
  {
    forall i | 0 <= i < |segs| ensures LowerEach(Components(segs))[i] == Marks(segs)[i] {
      var seg := segs[|segs| - 1 - i];
      if |seg| > 0 && seg[0] == '!' {
        assert '=' !in seg[1..] by {
          assert forall ch :: ch in seg[1..] ==> ch in seg;
        }
        LowerHead("CN=", seg[1..]);
      } else {
        LowerHead("OU=", seg);
      }
    }
  }

  lemma LowerPrefixed(labels: seq<string>)
    requires forall i :: 0 <= i < |labels| ==> '=' !in labels[i]
    ensures LowerEach(Prefixed("DC=", labels)) == Prefixed("dc=", labels)
  {
    forall i | 0 <= i < |labels| ensures LowerEach(Prefixed("DC=", labels))[i] == Prefixed("dc=", labels)[i] {
      LowerHead("DC=", labels[i]);
    }
  }

  /** The decoder's last two replacements undo `Marked`. */
  lemma Unmark(seg: string)
    requires '=' !in seg
    ensures ReplaceAll(ReplaceAll(Marked(seg), "cn=", "!"), "ou=", "") == seg
  {
    if |seg| > 0 && seg[0] == '!' {
      var x := seg[1..];
      assert '=' !in x by {
        assert forall ch :: ch in x ==> ch in seg;
      }
      ReplaceHead("cn=", x, "cn=", "!");
      assert "!" + x == seg;
      ReplaceMissing(seg, "ou=", "", '=');
    } else {
      ReplaceHead("ou=", seg, "cn=", "!");
      ReplaceHead("ou=", seg, "ou=", "");
    }
  }

  lemma ReverseMarks(segs: seq<string>)
    ensures |Reverse(Marks(segs))| == |segs|
    ensures forall i :: 0 <= i < |segs| ==> Reverse(Marks(segs))[i] == Marked(segs[i])
  {
    var ws := Reverse(Marks(segs));
    forall i | 0 <= i < |segs| ensures ws[i] == Marked(segs[i]) {
      assert ws[i] == Marks(segs)[|segs| - 1 - i];
    }
  }

  lemma UnmarkEach(ws: seq<string>, segs: seq<string>)
    requires |ws| == |segs|
    requires forall i :: 0 <= i < |segs| ==> '=' !in segs[i] && ws[i] == Marked(segs[i])
    ensures ReplaceEach(ReplaceEach(ws, "cn=", "!"), "ou=", "") == segs
  {
    var back := ReplaceEach(ReplaceEach(ws, "cn=", "!"), "ou=", "");
    forall i | 0 <= i < |segs| ensures back[i] == segs[i] {
      Unmark(segs[i]);
    }
  }

  lemma UnmarkAll(segs: seq<string>)
    requires forall i :: 0 <= i < |segs| ==> '=' !in segs[i]
    ensures ReplaceAll(ReplaceAll(Join(Reverse(Marks(segs)), "/"), "cn=", "!"), "ou=", "")
            == Join(segs, "/")
  {
    var ws := Reverse(Marks(segs));
    ReplaceJoin(ws, '/', "cn=", "!");
    ReplaceJoin(ReplaceEach(ws, "cn=", "!"), '/', "ou=", "");
    ReverseMarks(segs);
    UnmarkEach(ws, segs);
  }

  lemma LowerEachAppend(a: seq<string>, b: seq<string>)
    ensures LowerEach(a + b) == LowerEach(a) + LowerEach(b)
  {
    var d1, d2 := ReplaceEach(a, "DC=", "dc="), ReplaceEach(b, "DC=", "dc=");
    ReplaceEachAppend(a, b, "DC=", "dc=");
    var c1, c2 := ReplaceEach(d1, "CN=", "cn="), ReplaceEach(d2, "CN=", "cn=");
    ReplaceEachAppend(d1, d2, "CN=", "cn=");
    ReplaceEachAppend(c1, c2, "OU=", "ou=");
  }

  /** Lowering the attribute names keeps a comma-free string comma-free. */
  lemma LowerNamesCommaFree(s: string)
    requires ',' !in s
    ensures ',' !in LowerNames(s)
  {
    ReplaceKeepsOut(s, "DC=", "dc=", ',');
    ReplaceKeepsOut(ReplaceAll(s, "DC=", "dc="), "CN=", "cn=", ',');
    ReplaceKeepsOut(ReplaceAll(ReplaceAll(s, "DC=", "dc="), "CN=", "cn="), "OU=", "ou=", ',');
  }

  /** The lowered DN of a user in a location, as components; the user's own
      component is lowered as a whole, whatever its name holds. */
  lemma {:induction false} LoweredDn(path: string, leaf: string, labels: seq<string>)
    requires |labels| >= 1
    requires '=' !in path
    requires forall i :: 0 <= i < |labels| ==> '=' !in labels[i]
    ensures LowerNames("CN=" + leaf + "," + Encode(path) + BaseDN(labels))
            == Join(([LowerNames("CN=" + leaf)] + Marks(Segments(path))) + Prefixed("dc=", labels), ",")
  {
    var segs := Segments(path);
    if path != "" {
      var slashed := ReplaceChar(path, '\\', '/');
      assert '=' !in slashed;
      SplitFree(slashed, '/', '=');
    }
    var xs := ["CN=" + leaf] + Components(segs) + Prefixed("DC=", labels);
    DnComponents(path, leaf, labels);
    LowerNamesJoin(xs);
    LowerComponents(segs);
    LowerPrefixed(labels);
    LowerEachAppend(["CN=" + leaf], Components(segs));
    LowerEachAppend(["CN=" + leaf] + Components(segs), Prefixed("DC=", labels));
    assert LowerEach(["CN=" + leaf]) == [LowerNames("CN=" + leaf)];
  }

  /** `getUserLocation` reads back the location a user was created or moved
      into: decoding the DN `CN=<leaf>,<Encode(path)><base DN>` gives the path,
      for any path free of commas, backslashes and `=` (and the empty path)
      and any comma-free leaf: the leaf's component is dropped unread. */
  lemma {:induction false} DecodeEncode(path: string, leaf: string, labels: seq<string>)
    requires ',' !in path && '\\' !in path && '=' !in path
    requires ',' !in leaf
    requires |labels| >= 1
    requires forall i :: 0 <= i < |labels| ==> '=' !in labels[i]
    ensures Decode("CN=" + leaf + "," + Encode(path) + BaseDN(labels)) == path
  {
    var segs := Segments(path);
    if path != "" {
      ReplaceCharAbsent(path, '\\', '/');
      SplitFree(path, '/', '=');
      SplitFree(path, '/', ',');
    }
    var marks := Marks(segs);
    forall i | 0 <= i < |marks| ensures ',' !in marks[i] && |marks[i]| >= 3 && marks[i][..3] != "dc=" {
      var seg := segs[|segs| - 1 - i];
      if |seg| > 0 && seg[0] == '!' {
        assert forall ch :: ch in seg[1..] ==> ch in seg;
      }
    }
    LowerNamesCommaFree("CN=" + leaf);
    var head := [LowerNames("CN=" + leaf)] + marks;
    var dcs := Prefixed("dc=", labels);
    LoweredDn(path, leaf, labels);
    BeforeFirstJoin(head, dcs);
    SplitJoin(head, ',');
    assert head[1..] == marks;
    UnmarkAll(segs);
    if path != "" {
      JoinSplit(path, '/');
    }
  }
}

=== FILE: strings.dfy ===
/** The JavaScript string operations the library leans on (`toLowerCase`,
    `indexOf`, `split`, `join`, `replace`, `trim`, `String(n)`), written out
    over `seq<char>`, with the facts about them that the rest of the model
    needs. Lowercasing covers ASCII letters only. */
module Strings {

  /* ---------------------------------------------------------------- case */

  function LowerChar(c: char): char
  {
    if 'A' <= c <= 'Z' then (c as int + 32) as char else c
  }

  /** `s.toLowerCase()` restricted to ASCII. */
  function Lower(s: string): (r: string)
    ensures |r| == |s|
    ensures forall i :: 0 <= i < |s| ==> r[i] == LowerChar(s[i])
    ensures forall i :: 0 <= i < |s| ==> !('A' <= r[i] <= 'Z')
  {
    if |s| == 0 then "" else [LowerChar(s[0])] + Lower(s[1..])
  }

  lemma LowerIdempotent(s: string)
    ensures Lower(Lower(s)) == Lower(s)
  {
  }

  /** A string without upper-case ASCII letters is its own lower case. */
  lemma LowerNoCapitals(s: string)
    requires forall i :: 0 <= i < |s| ==> !('A' <= s[i] <= 'Z')
    ensures Lower(s) == s
  {
    assert forall i :: 0 <= i < |s| ==> Lower(s)[i] == s[i];
  }

  /* ------------------------------------------------------------ searching */

  predicate StartsWith(s: string, p: string)
  {
    |p| <= |s| && s[..|p|] == p
  }

  /** `sub` occurs in `s` at position `i`. */
  predicate MatchAt(s: string, sub: string, i: int)
  {
    0 <= i && i + |sub| <= |s| && s[i..i + |sub|] == sub
  }

  /** `s.indexOf(sub) > -1`. */
  predicate Contains(s: string, sub: string)
    decreases |s|
  {
    StartsWith(s, sub) || (|s| > 0 && Contains(s[1..], sub))
  }

  /** An occurrence past the front of `s` is an occurrence in `s[1..]`, one place earlier. */
  lemma MatchShift(s: string, sub: string, i: int)
    requires |s| > 0 && 0 < i
    ensures MatchAt(s, sub, i) <==> MatchAt(s[1..], sub, i - 1)
  {
    if i + |sub| <= |s| {
      assert s[1..][i - 1..i - 1 + |sub|] == s[i..i + |sub|];
    }
  }

  lemma {:induction false} ContainsIffMatch(s: string, sub: string)
    ensures Contains(s, sub) <==> exists i :: MatchAt(s, sub, i)
    decreases |s|
  {
    if StartsWith(s, sub) {
      assert MatchAt(s, sub, 0);
    } else if |s| > 0 {
      ContainsIffMatch(s[1..], sub);
      forall i | 0 < i
        ensures MatchAt(s, sub, i) <==> MatchAt(s[1..], sub, i - 1)
      {
        MatchShift(s, sub, i);
      }
      if Contains(s[1..], sub) {
        var i :| MatchAt(s[1..], sub, i);
        assert MatchAt(s, sub, i + 1);
      }
    }
  }

  /** `s.indexOf(c) > -1` for a one-character string is membership. */
  lemma {:induction false} ContainsChar(s: string, c: char)
    ensures Contains(s, [c]) <==> c in s
    decreases |s|
  {
    if |s| > 0 {
      ContainsChar(s[1..], c);
      assert StartsWith(s, [c]) <==> s[0] == c;
      assert c in s <==> s[0] == c || c in s[1..];
    }
  }

  /** Whatever contains `sub` contains its first character. */
  lemma ContainsHead(s: string, sub: string)
    requires |sub| > 0 && Contains(s, sub)
    ensures sub[0] in s
  {
    ContainsIffMatch(s, sub);
    var i :| MatchAt(s, sub, i);
    assert s[i] == s[i..i + |sub|][0];
  }

  /** A text without the first character of `sub` does not contain `sub`. */
  lemma Lacks(s: string, sub: string)
    requires |sub| > 0 && sub[0] !in s
    ensures !Contains(s, sub)
  {
    if Contains(s, sub) {
      ContainsHead(s, sub);
    }
  }

  /** A string contains itself, and every string contains the empty string. */
  lemma ContainsSelf(s: string)
    ensures Contains(s, s)
    ensures Contains(s, "")
  {
  }

  /* ------------------------------------------------------ split and join */

  /** `s.split(c)` for a one-character separator: the pieces between the
      occurrences of `c`, at least one piece, none containing `c`. */
  function Split(s: string, c: char): (parts: seq<string>)
    ensures |parts| >= 1
    ensures forall i :: 0 <= i < |parts| ==> c !in parts[i]
    decreases |s|
  {
    if |s| == 0 then [""]
    else
      var rest := Split(s[1..], c);
      if s[0] == c then [""] + rest
      else [[s[0]] + rest[0]] + rest[1..]
  }

  /** `parts.join(sep)`. */
  function Join(parts: seq<string>, sep: string): string
  {
    if |parts| == 0 then ""
    else if |parts| == 1 then parts[0]
    else parts[0] + sep + Join(parts[1..], sep)
  }

  lemma JoinCons(x: string, rest: seq<string>, sep: string)
    requires |rest| >= 1
    ensures Join([x] + rest, sep) == x + sep + Join(rest, sep)
  {
    assert ([x] + rest)[1..] == rest;
  }

  lemma {:induction false} JoinAppend(xs: seq<string>, ys: seq<string>, sep: string)
    requires |xs| >= 1 && |ys| >= 1
    ensures Join(xs + ys, sep) == Join(xs, sep) + sep + Join(ys, sep)
    decreases |xs|
  {
    if |xs| == 1 {
      JoinCons(xs[0], ys, sep);
      assert xs + ys == [xs[0]] + ys;
    } else {
      JoinAppend(xs[1..], ys, sep);
      assert xs + ys == [xs[0]] + (xs[1..] + ys);
      JoinCons(xs[0], xs[1..] + ys, sep);
      JoinCons(xs[0], xs[1..], sep);
      assert xs == [xs[0]] + xs[1..];
    }
  }

  lemma {:induction false} SplitNoSeparator(s: string, c: char)
    requires c !in s
    ensures Split(s, c) == [s]
    decreases |s|
  {
    if |s| > 0 {
      SplitNoSeparator(s[1..], c);
      assert [s[0]] + s[1..] == s;
    }
  }

  lemma {:induction false} SplitAtFirst(a: string, c: char, b: string)
    requires c !in a
    ensures Split(a + [c] + b, c) == [a] + Split(b, c)
    decreases |a|
  {
    var s := a + [c] + b;
    if |a| == 0 {
      assert s[1..] == b;
    } else {
      assert s[1..] == a[1..] + [c] + b;
      SplitAtFirst(a[1..], c, b);
      assert [a[0]] + a[1..] == a;
    }
  }

  /** Splitting a join at a separator the parts do not contain gives the parts back. */
  lemma {:induction false} SplitJoin(parts: seq<string>, c: char)
    requires |parts| >= 1
    requires forall i :: 0 <= i < |parts| ==> c !in parts[i]
    ensures Split(Join(parts, [c]), c) == parts
    decreases |parts|
  {
    if |parts| == 1 {
      SplitNoSeparator(parts[0], c);
    } else {
      SplitJoin(parts[1..], c);
      SplitAtFirst(parts[0], c, Join(parts[1..], [c]));
      assert parts == [parts[0]] + parts[1..];
    }
  }

  /** Joining the pieces of a split at the same separator gives the string back. */
  lemma {:induction false} JoinSplit(s: string, c: char)
    ensures Join(Split(s, c), [c]) == s
    decreases |s|
  {
    if |s| > 0 {
      JoinSplit(s[1..], c);
      var rest := Split(s[1..], c);
      if s[0] == c {
        JoinCons("", rest, [c]);
      } else if |rest| == 1 {
        assert [s[0]] + s[1..] == s;
      } else {
        JoinCons(rest[0], rest[1..], [c]);
        JoinCons([s[0]] + rest[0], rest[1..], [c]);
        assert rest == [rest[0]] + rest[1..];
        assert [s[0]] + s[1..] == s;
      }
    }
  }

  /** A join starts with its first part. */
  lemma JoinStartsWith(parts: seq<string>, sep: string)
    requires |parts| >= 1
    ensures |Join(parts, sep)| >= |parts[0]|
    ensures Join(parts, sep)[..|parts[0]|] == parts[0]
  {
  }

  /** A string holding the separator splits into at least two pieces. */
  lemma {:induction false} SplitsInTwo(s: string, c: char)
    requires c in s
    ensures |Split(s, c)| >= 2
    decreases |s|
  {
    if s[0] != c {
      SplitsInTwo(s[1..], c);
    }
  }

  /** A string splits into more than one piece exactly when it holds the separator. */
  lemma SplitCount(s: string, c: char)
    ensures |Split(s, c)| >= 2 <==> c in s
  {
    if c in s {
      SplitsInTwo(s, c);
    } else {
      SplitNoSeparator(s, c);
    }
  }

  lemma {:induction false} JoinFree(parts: seq<string>, sep: string, c: char)
    requires c !in sep
    requires forall i :: 0 <= i < |parts| ==> c !in parts[i]
    ensures c !in Join(parts, sep)
    decreases |parts|
  {
    if |parts| > 1 {
      JoinFree(parts[1..], sep, c);
    }
  }

  function Reverse<T>(xs: seq<T>): (r: seq<T>)
    ensures |r| == |xs|
    ensures forall i :: 0 <= i < |xs| ==> r[i] == xs[|xs| - 1 - i]
  {
    if |xs| == 0 then [] else Reverse(xs[1..]) + [xs[0]]
  }

  /** `xs.map(x => prefix + x)`. */
  function Prefixed(prefix: string, xs: seq<string>): (r: seq<string>)
    ensures |r| == |xs|
    ensures forall i :: 0 <= i < |xs| ==> r[i] == prefix + xs[i]
  {
    if |xs| == 0 then [] else [prefix + xs[0]] + Prefixed(prefix, xs[1..])
  }

  /** `s.split(sep)[0]` for a separator string: what precedes its first occurrence. */
  function BeforeFirst(s: string, sep: string): (r: string)
    requires |sep| > 0
    ensures |r| <= |s| && r == s[..|r|]
    decreases |s|
  {
    if |s| < |sep| then s
    else if s[..|sep|] == sep then ""
    else [s[0]] + BeforeFirst(s[1..], sep)
  }

  /** One step of `BeforeFirst` at a position where the separator does not start. */
  lemma BeforeFirstStep(s: string, sep: string)
    requires |sep| > 0 && |s| >= |sep| && s[..|sep|] != sep
    ensures BeforeFirst(s, sep) == [s[0]] + BeforeFirst(s[1..], sep)
  {
  }

  /** A prefix in which the separator cannot start passes through unchanged. */
  lemma {:induction false} BeforeFirstSkips(a: string, b: string, sep: string)
    requires |sep| > 0 && sep[0] !in a
    ensures BeforeFirst(a + b, sep) == a + BeforeFirst(b, sep)
    decreases |a|
  {
    if |a| == 0 {
      assert a + b == b;
    } else {
      var s := a + b;
      assert s[0] == a[0];
      assert s[1..] == a[1..] + b;
      BeforeFirstSkips(a[1..], b, sep);
      if |s| < |sep| {
        assert BeforeFirst(b, sep) == b;
        assert BeforeFirst(a[1..] + b, sep) == a[1..] + b;
      } else {
        assert s[..|sep|][0] != sep[0];
        assert [a[0]] + a[1..] == a;
      }
    }
  }

  /* ----------------------------------------------------------- replacing */

  /** `s.replace(/pat/g, rep)` for a literal pattern: every occurrence, scanning
      left to right without overlaps, is replaced. */
  function ReplaceAll(s: string, pat: string, rep: string): (r: string)
    requires |pat| > 0
    decreases |s|
  {
    if |s| < |pat| then s
    else if s[..|pat|] == pat then rep + ReplaceAll(s[|pat|..], pat, rep)
    else [s[0]] + ReplaceAll(s[1..], pat, rep)
  }

  /** A string in which the pattern never occurs is left unchanged. */
  lemma {:induction false} ReplaceNoMatch(s: string, pat: string, rep: string)
    requires |pat| > 0
    requires forall i :: !MatchAt(s, pat, i)
    ensures ReplaceAll(s, pat, rep) == s
    decreases |s|
  {
    if |s| >= |pat| {
      assert !MatchAt(s, pat, 0);
      forall i ensures !MatchAt(s[1..], pat, i) {
        if i >= 0 {
          MatchShift(s, pat, i + 1);
        }
      }
      ReplaceNoMatch(s[1..], pat, rep);
      ReplaceSkip(s, pat, rep);
      assert [s[0]] + s[1..] == s;
    }
  }

  /** Replacing cannot introduce a character that neither the string nor
      the replacement holds. */
  lemma {:induction false} ReplaceKeepsOut(s: string, pat: string, rep: string, c: char)
    requires |pat| > 0 && c !in s && c !in rep
    ensures c !in ReplaceAll(s, pat, rep)
    decreases |s|
  {
    if |s| < |pat| {
      ReplaceShort(s, pat, rep);
    } else if s[..|pat|] == pat {
      assert c !in s[|pat|..] by {
        assert forall ch :: ch in s[|pat|..] ==> ch in s;
      }
      ReplaceKeepsOut(s[|pat|..], pat, rep, c);
      ReplaceMatch(s, pat, rep);
    } else {
      assert c !in s[1..] by {
        assert forall ch :: ch in s[1..] ==> ch in s;
      }
      ReplaceKeepsOut(s[1..], pat, rep, c);
      ReplaceSkip(s, pat, rep);
    }
  }

  /** A pattern holding a character the string lacks changes nothing. */
  lemma ReplaceMissing(s: string, pat: string, rep: string, c: char)
    requires |pat| > 0 && c in pat && c !in s
    ensures ReplaceAll(s, pat, rep) == s
  {
    forall i ensures !MatchAt(s, pat, i) {
      if 0 <= i && i + |pat| <= |s| {
        var j :| 0 <= j < |pat| && pat[j] == c;
        assert s[i..i + |pat|][j] == s[i + j];
      }
    }
    ReplaceNoMatch(s, pat, rep);
  }

  /** `ReplaceAll` leaves a string shorter than the pattern alone. */
  lemma ReplaceShort(s: string, pat: string, rep: string)
    requires |pat| > 0 && |s| < |pat|
    ensures ReplaceAll(s, pat, rep) == s
  {
  }

  /** One step of `ReplaceAll` at a position where the pattern starts. */
  lemma ReplaceMatch(s: string, pat: string, rep: string)
    requires |pat| > 0 && |s| >= |pat| && s[..|pat|] == pat
    ensures ReplaceAll(s, pat, rep) == rep + ReplaceAll(s[|pat|..], pat, rep)
  {
  }

  /** One step of `ReplaceAll` at a position where the pattern does not start. */
  lemma ReplaceSkip(s: string, pat: string, rep: string)
    requires |pat| > 0 && |s| >= |pat| && s[..|pat|] != pat
    ensures ReplaceAll(s, pat, rep) == [s[0]] + ReplaceAll(s[1..], pat, rep)
  {
  }

  /** The identity `ReplaceAcross` proves, for one split. */
  predicate Splits(a: string, c: char, b: string, pat: string, rep: string)
    requires |pat| > 0
  {
    ReplaceAll(a + [c] + b, pat, rep) == ReplaceAll(a, pat, rep) + [c] + ReplaceAll(b, pat, rep)
  }

  /** `ReplaceAcross` when the first window holds `c`. */
  lemma AcrossFront(a: string, c: char, b: string, pat: string, rep: string)
    requires |pat| > 0 && c !in pat && |a| < |pat|
    requires |a| > 0 ==> Splits(a[1..], c, b, pat, rep)
    ensures Splits(a, c, b, pat, rep)
  {
    var s := a + [c] + b;
    ReplaceShort(a, pat, rep);
    if |s| < |pat| {
      ReplaceShort(s, pat, rep);
      ReplaceShort(b, pat, rep);
    } else {
      WindowHolds(a, c, b, pat);
      ReplaceSkip(s, pat, rep);
      if |a| == 0 {
        assert s == [c] + b;
      } else {
        AroundTail(a, c, b, 1);
        ReplaceShort(a[1..], pat, rep);
        Regroup(a[0], a[1..], c, ReplaceAll(b, pat, rep));
        assert [a[0]] + a[1..] == a;
      }
    }
  }

  /** A window over `a + [c] + b` that reaches past `a` holds `c`. */
  lemma WindowHolds(a: string, c: char, b: string, pat: string)
    requires c !in pat && |a| < |pat| <= |a| + 1 + |b|
    ensures (a + [c] + b)[..|pat|] != pat
  {
    assert (a + [c] + b)[..|pat|][|a|] == c;
  }

  /** `ReplaceAcross` when `a` starts with the pattern. */
  lemma AcrossMatch(a: string, c: char, b: string, pat: string, rep: string)
    requires |pat| > 0 && |a| >= |pat| && a[..|pat|] == pat
    requires Splits(a[|pat|..], c, b, pat, rep)
    ensures Splits(a, c, b, pat, rep)
  {
    var s := a + [c] + b;
    assert s[..|pat|] == pat;
    ReplaceMatch(s, pat, rep);
    ReplaceMatch(a, pat, rep);
    assert s[|pat|..] == a[|pat|..] + [c] + b;
    var ra, rb := ReplaceAll(a[|pat|..], pat, rep), ReplaceAll(b, pat, rep);
    assert ReplaceAll(s, pat, rep) == rep + (ra + [c] + rb);
    assert rep + (ra + [c] + rb) == (rep + ra) + [c] + rb;
  }

  /** `ReplaceAcross` when `a` is long enough and does not start with the
      pattern. */
  lemma AcrossSkip(a: string, c: char, b: string, pat: string, rep: string)
    requires |pat| > 0 && |a| >= |pat| && a[..|pat|] != pat
    requires Splits(a[1..], c, b, pat, rep)
    ensures Splits(a, c, b, pat, rep)
  {
    var s := a + [c] + b;
    AroundTail(a, c, b, |pat|);
    ReplaceSkip(s, pat, rep);
    ReplaceSkip(a, pat, rep);
    Regroup(a[0], ReplaceAll(a[1..], pat, rep), c, ReplaceAll(b, pat, rep));
  }

  /** The sequence facts `AcrossSkip` needs about `a + [c] + b`. */
  lemma AroundTail(a: string, c: char, b: string, n: nat)
    requires 0 < n <= |a|
    ensures (a + [c] + b)[0] == a[0]
    ensures (a + [c] + b)[..n] == a[..n]
    ensures (a + [c] + b)[1..] == a[1..] + [c] + b
  {
  }

  lemma Regroup(x: char, r: string, c: char, t: string)
    ensures [x] + (r + [c] + t) == ([x] + r) + [c] + t
  {
  }

  /** Replacing a pattern that cannot straddle `c` commutes with splitting at `c`. */
  lemma {:induction false} ReplaceAcross(a: string, c: char, b: string, pat: string, rep: string)
    requires |pat| > 0 && c !in pat
    ensures ReplaceAll(a + [c] + b, pat, rep) == ReplaceAll(a, pat, rep) + [c] + ReplaceAll(b, pat, rep)
    decreases |a|
  {
    if |a| < |pat| {
      if |a| > 0 {
        ReplaceAcross(a[1..], c, b, pat, rep);
      }
      AcrossFront(a, c, b, pat, rep);
    } else if a[..|pat|] == pat {
      ReplaceAcross(a[|pat|..], c, b, pat, rep);
      AcrossMatch(a, c, b, pat, rep);
    } else {
      ReplaceAcross(a[1..], c, b, pat, rep);
      AcrossSkip(a, c, b, pat, rep);
    }
  }

  /** Replacing inside a join at a separator char the pattern lacks is replacing each part. */
  lemma {:induction false} ReplaceJoin(parts: seq<string>, c: char, pat: string, rep: string)
    requires |pat| > 0 && c !in pat
    ensures ReplaceAll(Join(parts, [c]), pat, rep) == Join(ReplaceEach(parts, pat, rep), [c])
    decreases |parts|
  {
    if |parts| > 1 {
      ReplaceJoin(parts[1..], c, pat, rep);
      ReplaceAcross(parts[0], c, Join(parts[1..], [c]), pat, rep);
      assert ReplaceEach(parts, pat, rep)[1..] == ReplaceEach(parts[1..], pat, rep);
    }
  }

  function ReplaceEach(parts: seq<string>, pat: string, rep: string): (r: seq<string>)
    requires |pat| > 0
    ensures |r| == |parts|
    ensures forall i :: 0 <= i < |parts| ==> r[i] == ReplaceAll(parts[i], pat, rep)
  {
    if |parts| == 0 then [] else [ReplaceAll(parts[0], pat, rep)] + ReplaceEach(parts[1..], pat, rep)
  }

  /** Replacing in each part of two lists is replacing in each list. */
  lemma ReplaceEachAppend(a: seq<string>, b: seq<string>, pat: string, rep: string)
    requires |pat| > 0
    ensures ReplaceEach(a + b, pat, rep) == ReplaceEach(a, pat, rep) + ReplaceEach(b, pat, rep)
  {
    var l := ReplaceEach(a + b, pat, rep);
    var r := ReplaceEach(a, pat, rep) + ReplaceEach(b, pat, rep);
    forall i | 0 <= i < |l| ensures l[i] == r[i] {
      if i < |a| {
        assert (a + b)[i] == a[i];
      } else {
        assert (a + b)[i] == b[i - |a|];
      }
    }
  }

  /** For a three-character pattern `XY=` applied to `UV=` + `x` with no `=` in
      `x`, the only possible occurrence is at the front. */
  lemma ReplaceHead(head: string, x: string, pat: string, rep: string)
    requires |head| == 3 && head[2] == '=' && |pat| == 3 && pat[2] == '='
    requires '=' !in x
    ensures ReplaceAll(head + x, pat, rep) == if head == pat then rep + x else head + x
  {
    var s := head + x;
    forall i | 0 < i && i + 3 <= |s| ensures !MatchAt(s, pat, i) {
      assert s[i + 2] == x[i - 1];
      assert s[i..i + 3][2] == s[i + 2];
    }
    forall i ensures !MatchAt(x, pat, i) {
      if 0 <= i && i + 3 <= |x| {
        assert x[i..i + 3][2] == x[i + 2];
      }
    }
    if head == pat {
      assert s[..3] == pat;
      assert s[3..] == x;
      ReplaceNoMatch(x, pat, rep);
      ReplaceMatch(s, pat, rep);
    } else {
      assert s[..3] == head;
      assert !MatchAt(s, pat, 0);
      ReplaceNoMatch(s, pat, rep);
    }
  }

  /** `s.replace(/a/g, b)` for a single character. */
  function ReplaceChar(s: string, a: char, b: char): (r: string)
    ensures |r| == |s|
    ensures forall i :: 0 <= i < |s| ==> r[i] == (if s[i] == a then b else s[i])
  {
    if |s| == 0 then "" else [if s[0] == a then b else s[0]] + ReplaceChar(s[1..], a, b)
  }

  lemma ReplaceCharAbsent(s: string, a: char, b: char)
    requires a !in s
    ensures ReplaceChar(s, a, b) == s
  {
  }

  /** `s.replace(pat, rep)` with a string pattern: only the first occurrence. */
  function ReplaceFirst(s: string, pat: string, rep: string): (r: string)
    requires |pat| > 0
    ensures StartsWith(s, pat) ==> r == rep + s[|pat|..]
    ensures !Contains(s, pat) ==> r == s
    decreases |s|
  {
    if |s| < |pat| then s
    else if s[..|pat|] == pat then rep + s[|pat|..]
    else [s[0]] + ReplaceFirst(s[1..], pat, rep)
  }

  /* -------------------------------------------------------- white space */

  predicate IsSpace(c: char)
  {
    c == ' ' || c == '\t' || c == '\n' || c == '\r' || c == '\U{000B}' || c == '\U{000C}'
    || c == '\U{00A0}' || c == '\U{1680}' || ('\U{2000}' <= c <= '\U{200A}')
    || c == '\U{2028}' || c == '\U{2029}' || c == '\U{202F}' || c == '\U{205F}'
    || c == '\U{3000}' || c == '\U{FEFF}'
  }

  /** `s.trim() === ''`: the string holds only the white space and line
      terminators ECMAScript's `trim` removes. */
  predicate Blank(s: string)
  {
    forall i :: 0 <= i < |s| ==> IsSpace(s[i])
  }

  /* ------------------------------------------------------------- numbers */

  predicate IsDigit(c: char)
  {
    '0' <= c <= '9'
  }

  predicate Digits(s: string)
  {
    |s| >= 1 && forall i :: 0 <= i < |s| ==> IsDigit(s[i])
  }

  /** A decimal integer numeral, optionally negative: the strings the model
      treats as numeric. JavaScript's `isNaN` also accepts other forms
      (signs, exponents, hexadecimal, surrounding white space, the empty
      string); those are treated here as text. */
  predicate IsNumeral(s: string)
  {
    Digits(s) || (|s| >= 2 && s[0] == '-' && Digits(s[1..]))
  }

  function DigitsValue(s: string): (n: nat)
    requires forall i :: 0 <= i < |s| ==> IsDigit(s[i])
    decreases |s|
  {
    if |s| == 0 then 0
    else
      assert IsDigit(s[|s| - 1]);
      DigitsValue(s[..|s| - 1]) * 10 + (s[|s| - 1] as int - '0' as int)
  }

  /** `parseFloat(s)` on a numeral. */
  function NumeralValue(s: string): int
    requires IsNumeral(s)
  {
    if Digits(s) then DigitsValue(s) else 0 - DigitsValue(s[1..]) as int
  }

  function NatText(n: nat): (r: string)
    ensures Digits(r)
    decreases n
  {
    if n < 10 then [('0' as int + n) as char]
    else NatText(n / 10) + [('0' as int + n % 10) as char]
  }

  /** `String(n)` for an integer. */
  function IntText(n: int): (r: string)
    ensures IsNumeral(r)
  {
    if n < 0 then "-" + NatText(-n) else NatText(n)
  }

  lemma {:induction false} NatTextValue(n: nat)
    ensures DigitsValue(NatText(n)) == n
    decreases n
  {
    if n >= 10 {
      NatTextValue(n / 10);
      var t := NatText(n);
      assert t[..|t| - 1] == NatText(n / 10);
    }
  }

  /** Printing an integer and reading it back gives the integer. */
  lemma IntTextValue(n: int)
    ensures NumeralValue(IntText(n)) == n
  {
    if n < 0 {
      NatTextValue(-n);
      assert IntText(n)[1..] == NatText(-n);
    } else {
      NatTextValue(n);
    }
  }
}

=== FILE: users.dfy ===
/** The user operations of the library (src/user.js): listing, creation,
    the attribute setters, moving, locating, membership and removal. */
module Users {
  import opened Basics
  import opened Strings
  import opened Api
  import opened Directory
  import opened Helpers
  import opened Lookup
  import opened Operations
  import ParseLocation
  import Cache

  /* ------------------------------------------------------- getAllUsers */

  /** `getAllUsers(opts)`: the typed listing with membership `['user']`. */
  function GetAllUsers(env: Env, w: World, opts: Option<Config>): Step<Rows>
  {
    FindByType(env, w, opts, ["user"])
  }

  /** Every user listed on a miss comes from the `users` list of the
      directory's answer, never from the groups or the other objects. */
  lemma AllUsersAreUsers(env: Env, w: World, opts: Option<Config>)
    requires Cache.GetAll(w.cache, MembershipKey(["user"]), env.now).0.None?
    requires Found(env.server.find(w.trace, "CN=*", ["user"]))
    requires GetAllUsers(env, w, opts).result.Ok?
    ensures var s := GetAllUsers(env, w, opts);
            var m := env.server.find(w.trace, "CN=*", ["user"]).value.value;
            s.result.value.Flat?
            && forall y :: y in s.result.value.rows ==>
                 ListOf(m, "users").Some?
                 && exists x :: x in ListOf(m, "users").value && y == Strip(Shape(OrEmpty(opts), x))
  {
    var m := env.server.find(w.trace, "CN=*", ["user"]).value.value;
    FindByTypeOrigin(env, w, opts, ["user"]);
    forall x | x in Compiled(m, ["user"])
      ensures ListOf(m, "users").Some? && x in ListOf(m, "users").value
    {
      CompiledMembers(m, ["user"], x);
    }
  }

  /* ----------------------------------------------------------- addUser */

  /** The options of `addUser`; `Absent` stands for an option not given. */
  datatype NewUser = NewUser(
    firstName: Value,
    lastName: Value,
    commonName: Value,
    userName: Value,
    pass: Value,
    email: Value,
    title: Value,
    phone: Value,
    location: Value)

  /** The name completion `addUser` starts with: a common name supplies the
      missing first name (its first space-separated word) and, when it has
      more than one word, the missing last name (its last word); without a
      common name, a first and a last name make one. */
  function Derive(u: NewUser): (r: NewUser)
    ensures r.userName == u.userName && r.pass == u.pass && r.email == u.email
            && r.title == u.title && r.phone == u.phone && r.location == u.location
    ensures Truthy(u.firstName) ==> r.firstName == u.firstName
    ensures Truthy(u.lastName) ==> r.lastName == u.lastName
    ensures Truthy(u.commonName) ==> r.commonName == u.commonName
    ensures !Truthy(u.commonName) ==> r.firstName == u.firstName && r.lastName == u.lastName
    ensures Truthy(r.commonName) <==> Truthy(u.commonName) || (Truthy(u.firstName) && Truthy(u.lastName))
    ensures var words := Split(Text(u.commonName), ' ');
            Truthy(u.commonName) ==>
              r.firstName == (if Truthy(u.firstName) then u.firstName else Str(words[0]))
              && r.lastName == (if Truthy(u.lastName) || ' ' !in Text(u.commonName) then u.lastName
                                else Str(words[|words| - 1]))
    ensures !Truthy(u.commonName) && Truthy(u.firstName) && Truthy(u.lastName) ==>
              r.commonName == Str(Text(u.firstName) + " " + Text(u.lastName))
  {
    if Truthy(u.commonName) then
      SplitCount(Text(u.commonName), ' ');
      var parts := Split(Text(u.commonName), ' ');
      var first := if Truthy(u.firstName) then u.firstName else Str(parts[0]);
      var last := if |parts| > 1 then (if Truthy(u.lastName) then u.lastName else Str(parts[|parts| - 1]))
                  else u.lastName;
      u.(firstName := first, lastName := last)
    else if Truthy(u.firstName) && Truthy(u.lastName) then
      u.(commonName := Str(Text(u.firstName) + " " + Text(u.lastName)))
    else u
  }

  /** The names round-trip through the common name: a first and a last name
      without spaces make the common name `first last`, and that common name
      alone gives back the same first and last names. */
  lemma DeriveRoundTrip(u: NewUser, first: string, last: string)
    requires first != "" && last != "" && ' ' !in first && ' ' !in last
    requires !Truthy(u.commonName)
    ensures var named := Derive(u.(firstName := Str(first), lastName := Str(last)));
            named.commonName == Str(first + " " + last)
            && Derive(u.(firstName := Absent, lastName := Absent, commonName := named.commonName))
                 == u.(firstName := Str(first), lastName := Str(last), commonName := Str(first + " " + last))
  {
    assert first + " " + last == first + [' '] + last;
    SplitAtFirst(first, ' ', last);
    SplitNoSeparator(last, ' ');
  }

  /** A common name of space-free words supplies its first word as the
      missing first name and, when there are at least two words, its last
      word as the missing last name; a one-word common name leaves the last
      name missing. */
  lemma DeriveWords(u: NewUser, words: seq<string>)
    requires |words| >= 1 && words[0] != ""
    requires forall i :: 0 <= i < |words| ==> ' ' !in words[i]
    requires u.commonName == Str(Join(words, " "))
    requires !Truthy(u.firstName) && !Truthy(u.lastName)
    ensures Derive(u).firstName == Str(words[0])
    ensures |words| >= 2 ==> Derive(u).lastName == Str(words[|words| - 1])
    ensures |words| == 1 ==> Derive(u).lastName == u.lastName
    ensures Derive(u).commonName == u.commonName
  {
    SpacedWords(words);
    DeriveFromPieces(u, words);
  }

  /** `Derive` in terms of the pieces of the common name. */
  lemma DeriveFromPieces(u: NewUser, words: seq<string>)
    requires Truthy(u.commonName) && Split(Text(u.commonName), ' ') == words
    requires ' ' in Text(u.commonName) <==> |words| >= 2
    requires !Truthy(u.firstName) && !Truthy(u.lastName)
    ensures Derive(u).firstName == Str(words[0])
    ensures |words| >= 2 ==> Derive(u).lastName == Str(words[|words| - 1])
    ensures |words| == 1 ==> Derive(u).lastName == u.lastName
    ensures Derive(u).commonName == u.commonName
  {
  }

  /** Space-free words joined by spaces split back into the words, and the
      join holds a space exactly when there are at least two of them. */
  lemma SpacedWords(words: seq<string>)
    requires |words| >= 1 && words[0] != ""
    requires forall i :: 0 <= i < |words| ==> ' ' !in words[i]
    ensures Join(words, " ") != ""
    ensures Split(Join(words, " "), ' ') == words
    ensures ' ' in Join(words, " ") <==> |words| >= 2
  {
    assert " " == [' '];
    JoinStartsWith(words, " ");
    SplitJoin(words, ' ');
    SplitCount(Join(words, " "), ' ');
  }

  /** The first check `addUser` fails, if any: an email without `@`, then a
      missing common name, then a missing user name. */
  function Invalid(u: NewUser): (r: Option<string>)
    ensures r.None? <==> (!Truthy(u.email) || '@' in Text(u.email)) && Truthy(u.commonName) && Truthy(u.userName)
    ensures (Truthy(u.email) && '@' !in Text(u.email)) ==> r == Some("Invalid email address.")
    ensures (!Truthy(u.email) || '@' in Text(u.email)) && !Truthy(u.commonName) ==>
              r == Some("A commonName is required.")
    ensures (!Truthy(u.email) || '@' in Text(u.email)) && Truthy(u.commonName) && !Truthy(u.userName) ==>
              r == Some("A userName is required.")
  {
    if Truthy(u.email) && '@' !in Text(u.email) then Some("Invalid email address.")
    else if !Truthy(u.commonName) then Some("A commonName is required.")
    else if !Truthy(u.userName) then Some("A userName is required.")
    else None
  }

  /** The entry `addUser` writes for a checked user. */
  function UserObject(env: Env, u: NewUser): Row
    requires env.ssha(u.pass).Some?
  {
    map[
      "cn" := u.commonName,
      "givenName" := u.firstName,
      "sn" := u.lastName,
      "mail" := u.email,
      "uid" := u.userName,
      "title" := u.title,
      "telephone" := u.phone,
      "userPrincipalName" := Str(Text(u.userName) + "@" + env.settings.domain),
      "sAMAccountName" := u.userName,
      "objectClass" := env.settings.userObjectClass,
      "userPassword" := env.ssha(u.pass).value]
  }

  const EntryExists := "ENTRY_EXISTS"
  const NoPassword := "No password provided."

  /** How a failure after the checks is reported: an `ENTRY_EXISTS` error
      becomes a 400 naming the user, anything else a 503 quoting it. */
  function CreationFailure(userName: Value, f: Failure): (r: Failure)
    ensures r.status == Some(400) <==> Contains(f.message, EntryExists)
    ensures r.status == Some(503) <==> !Contains(f.message, EntryExists)
    ensures r.status == Some(503) ==> r.message == "Error creating user: " + f.message
    ensures !r.flagged
  {
    if Contains(f.message, EntryExists)
    then Failure("User " + Text(userName) + " already exists.", Some(400), false)
    else Failure("Error creating user: " + f.message, Some(503), false)
  }

  /** `addUser(opts)`: derives the names, checks the options, adds the entry,
      drops the cached user and every cached listing, sets the password and
      enables the account; it resolves with the entry as written, less its
      password. The entry is built inside an `async` promise executor, so
      when `ssha.create` throws the promise never settles and nothing is
      sent. */
  function AddUser(env: Env, w: World, opts: NewUser): (s: Step<Row>)
    ensures var u := Derive(opts);
            s.result.Unsettled? <==> Invalid(u).None? && env.ssha(u.pass).None?
    ensures var u := Derive(opts);
            Invalid(u).None? && env.ssha(u.pass).None? ==> s.world == w
    ensures var u := Derive(opts);
            Invalid(u).Some? ==>
              s.world == w && s.result == Err(Failure(Invalid(u).value, Some(400), true))
    ensures s.result.Err? ==> s.result.failure.status == Some(400) || s.result.failure.status == Some(503)
    ensures var u := Derive(opts);
            Invalid(u).None? && s.result.Err? ==> exists f :: s.result.failure == CreationFailure(u.userName, f)
    ensures var u := Derive(opts);
            var bind := env.server.status(w.trace, Bind);
            Invalid(u).None? && env.ssha(u.pass).Some? && bind.Some? ==>
              s == Step(Err(CreationFailure(u.userName, bind.value)), w.(trace := w.trace + [Bind]))
    ensures var u := Derive(opts);
            s.result.Ok? ==>
              Invalid(u).None? && env.ssha(u.pass).Some?
              && s.result.value == Strip(UserObject(env, u)) - {"userPassword"}
              && w.trace + [Bind, Add(ObjectDN(env, "CN=" + Text(u.commonName), LocationOf(u.location)),
                                      Strip(UserObject(env, u))), Unbind] <= s.world.trace
              && s.world.cache.all == map[]
  {
    var u := Derive(opts);
    match Invalid(u)
    case Some(message) => Step(Err(Failure(message, Some(400), true)), w)
    case None =>
      if env.ssha(u.pass).None? then Step(Unsettled, w)
      else
      var name := Text(u.userName);
      var added := AddObject(env, w, "CN=" + Text(u.commonName), LocationOf(u.location), UserObject(env, u));
      if added.result.Err? then Step(Err(CreationFailure(u.userName, added.result.failure)), added.world)
      else
        var w1 := added.world.(cache := Cache.ResetAll(Cache.ForgetUser(added.world.cache, name)));
        var pwd := SetUserPassword(env, w1, name, u.pass);
        if pwd.result.Err? then Step(Err(CreationFailure(u.userName, pwd.result.failure)), pwd.world)
        else
          var enabled := EnableUser(env, pwd.world, name);
          if enabled.result.Err? then Step(Err(CreationFailure(u.userName, enabled.result.failure)), enabled.world)
          else Step(Ok(added.result.value), enabled.world)
  }

  /** A created user has had its password set to the encoded password and
      its account control set to enabled, in that order. */
  lemma AddUserWrites(env: Env, w: World, opts: NewUser)
    requires AddUser(env, w, opts).result.Ok?
    ensures var t := AddUser(env, w, opts).world.trace;
            exists i, j :: |w.trace| <= i < j < |t|
              && t[i].Modify? && t[i].changes == [Change(ReplaceValues, "unicodePwd", [env.encodePassword(opts.pass)])]
              && t[j].Modify? && t[j].changes == [Change(ReplaceValues, "userAccountControl", [Num(Enabled)])]
  {
    var u := Derive(opts);
    var name := Text(u.userName);
    var added := AddObject(env, w, "CN=" + Text(u.commonName), LocationOf(u.location), UserObject(env, u));
    var w1 := added.world.(cache := Cache.ResetAll(Cache.ForgetUser(added.world.cache, name)));
    var pwd := SetUserPassword(env, w1, name, u.pass);
    var enabled := EnableUser(env, pwd.world, name);
    var t := enabled.world.trace;
    var i := |pwd.world.trace| - 2;
    var j := |t| - 2;
    assert t[i] == pwd.world.trace[i];
  }

  /** Without a password, and when `ssha.create` returns for the missing
      password, the entry is still added, after which the promise rejects
      with a 503: the user exists, disabled and without a password. (When
      `ssha.create` throws instead, `AddUser` never settles and sends
      nothing.) */
  lemma AddUserWithoutPassword(env: Env, w: World, opts: NewUser)
    requires Invalid(Derive(opts)).None?
    requires env.server.status(w.trace, Bind).None?
    requires !Truthy(opts.pass)
    requires env.ssha(Derive(opts).pass).Some?
    ensures var u := Derive(opts);
            var s := AddUser(env, w, opts);
            s.result == Err(Failure("Error creating user: " + NoPassword, Some(503), false))
            && s.world.trace == w.trace + [Bind, Add(ObjectDN(env, "CN=" + Text(u.commonName), LocationOf(u.location)),
                                                   Strip(UserObject(env, u))), Unbind]
  {
    AddUserSequence(env, w, opts);
    NoPasswordFailure(Derive(opts).userName);
  }

  /** A missing password is reported as a 503 quoting its message. */
  lemma NoPasswordFailure(userName: Value)
    ensures CreationFailure(userName, Plain(NoPassword)) == Failure("Error creating user: " + NoPassword, Some(503), false)
  {
    Lacks(NoPassword, EntryExists);
  }

  /** After a successful add the chain stops at the first failing step:
      a failed password change ends the call with that failure and nothing
      further issued, so the account is never enabled; a failed enable ends
      it with that failure; and only when both succeed does it resolve. */
  lemma AddUserSequence(env: Env, w: World, opts: NewUser)
    requires Invalid(Derive(opts)).None?
    requires env.ssha(Derive(opts).pass).Some?
    requires env.server.status(w.trace, Bind).None?
    ensures var u := Derive(opts);
            var added := AddObject(env, w, "CN=" + Text(u.commonName), LocationOf(u.location), UserObject(env, u));
            var w1 := added.world.(cache := Cache.ResetAll(Cache.ForgetUser(added.world.cache, Text(u.userName))));
            var pwd := SetUserPassword(env, w1, Text(u.userName), u.pass);
            var enabled := EnableUser(env, pwd.world, Text(u.userName));
            var s := AddUser(env, w, opts);
            added.result.Ok?
            && (pwd.result.Err? ==> s == Step(Err(CreationFailure(u.userName, pwd.result.failure)), pwd.world))
            && (pwd.result.Ok? && enabled.result.Err? ==>
                  s == Step(Err(CreationFailure(u.userName, enabled.result.failure)), enabled.world))
            && (pwd.result.Ok? && enabled.result.Ok? ==> s == Step(Ok(added.result.value), enabled.world))
  {
  }

  /* ------------------------------------------------ attribute setters */

  const NeverExpires := 66048
  const Enabled := 512
  const Disabled := 514

  /** `setUserPassword(userName, pass)`: a missing password rejects before
      any directory call; otherwise `unicodePwd` is replaced by the encoded
      password. */
  function SetUserPassword(env: Env, w: World, userName: string, pass: Value): (s: Step<Ack>)
    ensures s.result.Settled()
    ensures w.trace <= s.world.trace
    ensures s.world.cache == w.cache.(users := s.world.cache.users)
    ensures !Truthy(pass) ==> s == Step(Err(Plain(NoPassword)), w)
    ensures Truthy(pass) ==> Wrote(s, Change(ReplaceValues, "unicodePwd", [env.encodePassword(pass)]))
  {
    if !Truthy(pass) then Step(Err(Plain(NoPassword)), w)
    else UserReplaceOperation(env, w, userName, "unicodePwd", [env.encodePassword(pass)])
  }

  /** `setUserPasswordNeverExpires(userName)`. */
  function SetPasswordNeverExpires(env: Env, w: World, userName: string): (s: Step<Ack>)
    ensures Wrote(s, Change(ReplaceValues, "userAccountControl", [Num(NeverExpires)]))
  {
    UserReplaceOperation(env, w, userName, "userAccountControl", [Num(NeverExpires)])
  }

  /** `enableUser(userName)`. */
  function EnableUser(env: Env, w: World, userName: string): (s: Step<Ack>)
    ensures s.result.Settled()
    ensures w.trace <= s.world.trace
    ensures s.world.cache == w.cache.(users := s.world.cache.users)
    ensures Wrote(s, Change(ReplaceValues, "userAccountControl", [Num(Enabled)]))
  {
    UserReplaceOperation(env, w, userName, "userAccountControl", [Num(Enabled)])
  }

  /** `disableUser(userName)`. */
  function DisableUser(env: Env, w: World, userName: string): (s: Step<Ack>)
    ensures Wrote(s, Change(ReplaceValues, "userAccountControl", [Num(Disabled)]))
  {
    UserReplaceOperation(env, w, userName, "userAccountControl", [Num(Disabled)])
  }

  /** `unlockUser(userName)`. */
  function UnlockUser(env: Env, w: World, userName: string): (s: Step<Ack>)
    ensures Wrote(s, Change(ReplaceValues, "lockoutTime", [Num(0)]))
  {
    UserReplaceOperation(env, w, userName, "lockoutTime", [Num(0)])
  }

  /* ---------------------------------------------------------- moveUser */

  /** The DN `moveUser` renames a user to: its common name under the parsed
      location and the base DN. */
  function MovedDN(env: Env, user: Row, location: Value): string
  {
    "CN=" + Text(Get(user, "cn")) + "," + LocationOf(location) + NormalBase(env)
  }

  /** `moveUser(userName, location)`: renames the user found under that name
      and, on success, forgets the cache entry under the name as given. */
  function MoveUser(env: Env, w: World, userName: string, location: Value): (s: Step<Ack>)
    ensures s.result.Settled()
    ensures var found := FindUser(env, w, userName, None);
            found.result.Err? ==> s == Step(Err(found.result.failure), found.world)
    ensures var found := FindUser(env, w, userName, None);
            s.result.Ok? ==>
              var user := found.result.value.value;
              s.world.trace == found.world.trace + [Bind, ModifyDN(Get(user, "dn"), MovedDN(env, user, location)), Unbind]
              && userName !in s.world.cache.users
    ensures var found := FindUser(env, w, userName, None);
            found.result.Ok? ==>
              var user := found.result.value.value;
              var moved := RenameDN(env, found.world, Get(user, "dn"), MovedDN(env, user, location));
              (moved.result.Ok? ==>
                 s == Step(Ok(Success), moved.world.(cache := Cache.ForgetUser(moved.world.cache, userName))))
              && (!moved.result.Ok? ==> s == moved)
  {
    var found := FindUser(env, w, userName, None);
    match found.result
    case Err(f) => Step(Err(f), found.world)
    case Unsettled => assert false; Step(Unsettled, found.world)
    case Ok(u) =>
      var user := u.value;
      var moved := RenameDN(env, found.world, Get(user, "dn"), MovedDN(env, user, location));
      if moved.result.Ok? then Step(Ok(Success), moved.world.(cache := Cache.ForgetUser(moved.world.cache, userName)))
      else moved
  }

  /** The location a user is moved to is the location its new DN reads
      back as: decoding the rename target gives the path moved to. */
  lemma MovedDNDecodes(env: Env, user: Row, leaf: string, path: string, labels: seq<string>)
    requires Get(user, "cn") == Str(leaf) && ',' !in leaf
    requires ',' !in path && '\\' !in path && '=' !in path
    requires |labels| >= 1 && forall i :: 0 <= i < |labels| ==> '=' !in labels[i]
    requires NormalBase(env) == ParseLocation.BaseDN(labels)
    ensures ParseLocation.Decode(MovedDN(env, user, Str(path))) == path
  {
    assert LocationOf(Str(path)) == ParseLocation.Encode(path);
    assert MovedDN(env, user, Str(path)) == "CN=" + leaf + "," + ParseLocation.Encode(path) + ParseLocation.BaseDN(labels);
    ParseLocation.DecodeEncode(path, leaf, labels);
  }

  /* --------------------------------------------------- getUserLocation */

  /** `getUserLocation(userName)`: the location path of the user's DN. */
  function GetUserLocation(env: Env, w: World, userName: string): (s: Step<string>)
    ensures s.result.Settled()
    ensures var found := FindUser(env, w, userName, None);
            s.world == found.world
            && (found.result.Err? ==> s.result == Err(found.result.failure))
            && (found.result.Ok? ==>
                  (found.result.value.value == map[] <==> s.result == Err(Failure("User does not exist.", None, true))))
  {
    var found := FindUser(env, w, userName, None);
    match found.result
    case Err(f) => Step(Err(f), found.world)
    case Unsettled => assert false; Step(Unsettled, found.world)
    case Ok(u) =>
      if u.value == map[] then Step(Err(Failure("User does not exist.", None, true)), found.world)
      else Step(Ok(ParseLocation.Decode(Text(Get(u.value, "dn")))), found.world)
  }

  /** A user whose DN places it at `path` under the base DN is reported at
      `path`. */
  lemma LocationOfUser(env: Env, w: World, userName: string, leaf: string, path: string, labels: seq<string>)
    requires ',' !in leaf
    requires ',' !in path && '\\' !in path && '=' !in path
    requires |labels| >= 1 && forall i :: 0 <= i < |labels| ==> '=' !in labels[i]
    requires FindUser(env, w, userName, None).result.Ok?
    requires Get(FindUser(env, w, userName, None).result.value.value, "dn")
               == Str("CN=" + leaf + "," + ParseLocation.Encode(path) + ParseLocation.BaseDN(labels))
    ensures GetUserLocation(env, w, userName).result == Ok(path)
  {
    ParseLocation.DecodeEncode(path, leaf, labels);
  }

  /* ----------------------------------------------------- userIsMemberOf */

  /** Some member of the list has exactly this DN. */
  predicate HasMember(users: seq<Row>, dn: Value)
  {
    exists i :: 0 <= i < |users| && Get(users[i], "dn") == dn
  }

  /** `userIsMemberOf(userName, groupName)`: whether a member of the group
      has the user's DN (compared strictly). */
  function UserIsMemberOf(env: Env, w: World, userName: string, groupName: string): (s: Step<bool>)
    ensures s.result.Settled()
    ensures var found := FindUser(env, w, userName, None);
            var members := Helpers.GroupUsers(env, found.world, groupName);
            s.result == Ok(true) <==>
              found.result.Ok? && members.result.Ok?
              && HasMember(members.result.value, Get(found.result.value.value, "dn"))
    ensures var found := FindUser(env, w, userName, None);
            found.result.Err? ==> s == Step(Err(found.result.failure), found.world)
    ensures var found := FindUser(env, w, userName, None);
            var members := Helpers.GroupUsers(env, found.world, groupName);
            found.result.Ok? && members.result.Err? ==> s == Step(Err(members.result.failure), members.world)
    ensures var found := FindUser(env, w, userName, None);
            var members := Helpers.GroupUsers(env, found.world, groupName);
            found.result.Ok? && members.result.Ok? ==> s.result.Ok? && s.world == members.world
  {
    var found := FindUser(env, w, userName, None);
    match found.result
    case Err(f) => Step(Err(f), found.world)
    case Unsettled => assert false; Step(Unsettled, found.world)
    case Ok(u) =>
      var members := Helpers.GroupUsers(env, found.world, groupName);
      match members.result
      case Err(f) => Step(Err(f), members.world)
      case Unsettled => assert false; Step(Unsettled, members.world)
      case Ok(users) => Step(Ok(HasMember(users, Get(u.value, "dn"))), members.world)
  }

  /** An unknown user reads as a member of any group that has a member
      without a DN: both DNs are `undefined`. */
  lemma UnknownUserIsMember(env: Env, w: World, userName: string, groupName: string, k: nat)
    requires FindUser(env, w, userName, None).result == Ok(Some(map[]))
    requires var members := env.server.members(FindUser(env, w, userName, None).world.trace, groupName);
             members.Answer? && members.value.Some? && k < |members.value.value|
             && "dn" !in members.value.value[k]
    ensures UserIsMemberOf(env, w, userName, groupName).result == Ok(true)
  {
    var found := FindUser(env, w, userName, None);
    var users := env.server.members(found.world.trace, groupName).value.value;
    assert Get(users[k], "dn") == Absent;
  }

  /* --------------------------------------------------------- removeUser */

  /** `removeUser(userName)`: a failed lookup is not handled, so the promise
      never settles; an unknown user rejects before any delete; otherwise the
      user's DN is deleted, and a failure is marked `error: true`. */
  function RemoveUser(env: Env, w: World, userName: string): (s: Step<Ack>)
    ensures var found := FindUser(env, w, userName, None);
            s.result.Unsettled? <==> found.result.Err?
    ensures var found := FindUser(env, w, userName, None);
            (found.result.Ok? && found.result.value.value == map[]) ==>
              s == Step(Err(Failure("User does not exist.", None, true)), found.world)
    ensures var found := FindUser(env, w, userName, None);
            s.result.Ok? ==>
              s.world.trace == found.world.trace + [Bind, Delete(Get(found.result.value.value, "dn")), Unbind]
    ensures s.result.Err? ==> s.result.failure.flagged
    ensures var found := FindUser(env, w, userName, None);
            (found.result.Ok? && found.result.value.value != map[]) ==>
              var deleted := DeleteByDN(env, found.world, Get(found.result.value.value, "dn"));
              s.world == deleted.world
              && (deleted.result.Ok? ==> s == deleted)
              && (deleted.result.Err? ==> s.result == Err(deleted.result.failure.(flagged := true)))
  {
    var found := FindUser(env, w, userName, None);
    match found.result
    case Err(_) => Step(Unsettled, found.world)
    case Unsettled => assert false; Step(Unsettled, found.world)
    case Ok(u) =>
      if u.value == map[] then Step(Err(Failure("User does not exist.", None, true)), found.world)
      else
        var deleted := DeleteByDN(env, found.world, Get(u.value, "dn"));
        if deleted.result.Err? then Step(Err(deleted.result.failure.(flagged := true)), deleted.world)
        else deleted
  }

  /** A user the lookup finds is deleted by its DN whenever the bind
      succeeds, and a failed bind rejects with its error marked
      `error: true`, with nothing deleted. */
  lemma RemoveUserDeletes(env: Env, w: World, userName: string)
    requires var found := FindUser(env, w, userName, None);
             found.result.Ok? && found.result.value.value != map[]
    ensures var found := FindUser(env, w, userName, None);
            var bind := env.server.status(found.world.trace, Bind);
            var s := RemoveUser(env, w, userName);
            (bind.None? ==>
               s.result == Ok(Success)
               && s.world.trace == found.world.trace + [Bind, Delete(Get(found.result.value.value, "dn")), Unbind])
            && (bind.Some? ==>
                  s.result == Err(bind.value.(flagged := true)) && s.world.trace == found.world.trace + [Bind])
  {
  }
}
